=== FILE: README.md ===
# Asset and maintenance management: a verified model

The system keeps a register of company assets (*activos*) and of their maintenance jobs (*mantenimientos*). It has four parts:

- an asset service over a relational table;
- a maintenance service over a document collection;
- an API gateway that fronts both services;
- a web frontend.

This project models the following pieces and proves what they promise:

- the two services' record definitions, request validation chains and request handlers;
- the gateway's request handling;
- the frontend's breadcrumb trail and navigation highlighting.

Module layout:

| module | models |
|---|---|
| `MantenimientoModel` | The maintenance record. This covers its schema rules, the cast of a request body onto a record, and the `costo_total` virtual. It also covers the pre-save hook that writes the state history, and the two instance methods `agregarNota` and `cambiarEstado`. A record being edited is the class `MantenimientoDoc`. It holds the record and the dirty flag on `estado`. |
| `MantenimientoRoutes` | The maintenance routes' validation chains, with their sanitisers and messages. Lemmas relate what the chains accept to what the schema later checks. |
| `MantenimientoController` | The nine handlers. The read handlers are functions over the stored records. The write handlers are methods of the class `MantenimientoStore`. That class holds the collection as a sequence plus a counter for fresh ids. |
| `ActivoModel` | The asset table's column rules. These are the NOT NULL checks, the validators, the column widths and the `DECIMAL(10,2)` range. The module also builds and updates a row. |
| `ActivoRoutes` | The asset routes' validation chain and the routes it guards. |
| `ActivoController` | The seven handlers. The read handlers are functions over the table's rows. The write handlers are methods of the class `ActivoStore`. |
| `Gateway` | The gateway's behaviour. The trailing-slash middleware rewrites the request's URL in place. The rest covers the choice of each upstream address, the path rewriting, and which handler a request reaches. |
| `Breadcrumbs` | The breadcrumb trail, generated by a loop over the path's segments. |
| `Layout` | The navigation links' "active" test. |

Supporting modules:

- `Wrappers`: `Option`.
- `Text`: JavaScript `trim`, ASCII lower-casing, substring search, and `LIKE`/`ILIKE` matching.
- `Http`: status codes, field errors, and the request-value checks.
- `Queries`: filtering, newest-first ordering, skip/limit windows and the page count.
- `Aggregation`: group-by counts.

Values a request carries arrive as data:

- Dates are parsed or not parsed.
- Numbers are numeric or not.
- Ids are well formed or not.

The current time is a parameter. A store's fresh ids come from a counter.

Elsewhere the services answer a bad request with 400: the create and update handlers map a `ValidationError` to 400 (servicio-mantenimientos/src/controllers/mantenimientoController.js:130 and 215), and servicio-mantenimientos/tests/mantenimiento.test.js:211 expects 400 for a malformed id. Three handlers depart from that convention, and the model follows the handlers:

- `PATCH /mantenimientos/:id/estado` with a state outside the four allowed answers 500, not 400. The schema's enum check fails inside `save`, and the catch-all reports it.
- `POST /mantenimientos/:id/notas` with a malformed id answers 500, not 400. That handler has no `CastError` branch.
- `GET`, `PUT` and `DELETE /activos/:id` with text that is not a UUID answer 500. The database refuses the cast, and the catch-all reports it.

## Model

| member | source | states |
|---|---|---|
| Text.TrimEmptyIff | servicio-activos/src/routes/activoRoutes.js:8-10 | A value trims to the empty string exactly when every character of it is white space. So the route's `trim().notEmpty()` and the model's `notEmpty` refuse the same values. |
| Text.TrimIdempotent | servicio-activos/src/routes/activoRoutes.js:15-20 | Trimming twice is trimming once, so a sanitised body is a fixed point of the sanitiser. |
| Text.LiteralILikeContainsIgnoreCase | servicio-activos/src/controllers/activoController.js:211-219 | Take a pattern `%q%` where `q` has no `%`, `_` or backslash. `ILIKE` with it accepts a text exactly when the text contains `q`, ignoring ASCII case. |
| Queries.IndexOf | servicio-mantenimientos/src/controllers/mantenimientoController.js:54 | A lookup by a unique key (`findById` here and `findByPk` at servicio-activos/src/controllers/activoController.js:55) finds the first row holding the key, or reports that no row holds it. The asset store also uses it on `numero_serie`, to decide the database's `unique` check that turns a duplicate serial number into a 409. |
| Queries.Filter | servicio-mantenimientos/src/controllers/mantenimientoController.js:17-25 | A find keeps each row the filter accepts, as many times as it is stored, and no other row. |
| Queries.SortDesc | servicio-mantenimientos/src/controllers/mantenimientoController.js:25-26 | `sort({key: -1})` gives a rearrangement of its input in which the key never increases. |
| Queries.SkipLimit | servicio-mantenimientos/src/controllers/mantenimientoController.js:26-28 | `.skip(n).limit(l)` returns consecutive rows starting at row `n`. There are at most `abs(l)` of them, and a limit of 0 means no limit. A short window reaches the end. |
| Queries.PageOf | servicio-activos/src/controllers/activoController.js:10 | Page `p` of `l` rows holds rows `(p-1)*l` onward, at most `l` of them. A short page is the last one. |
| Queries.TotalPages | servicio-activos/src/controllers/activoController.js:31-40 | `Math.ceil(total / limit)` is the fewest pages that hold `total` rows. |
| Queries.TotalPagesReply | servicio-mantenimientos/src/controllers/mantenimientoController.js:33-38 | The reported `totalPages`: absent (null) for limit 0, the page count for a positive limit, and a non-positive ceiling for a negative one. |
| Queries.PageNonEmptyIff | servicio-activos/src/controllers/activoController.js:31-40 | A page has rows exactly when its number is between 1 and `totalPages`. |
| Queries.EveryRowOnItsPage | servicio-activos/src/controllers/activoController.js:10 | Row `i` appears on page `i / limit + 1`, at position `i % limit`. |
| Queries.PageOfIsSkipLimit | servicio-activos/src/controllers/activoController.js:24-29 | For positive page and limit, the offset/limit query returns exactly that page. |
| Queries.SkipLimitSorted | servicio-mantenimientos/src/controllers/mantenimientoController.js:25-28 | A window of a newest-first result is newest first. |
| Queries.WindowMembers | servicio-mantenimientos/src/controllers/mantenimientoController.js:25-28 | Every row of a window of the sorted, filtered rows is a stored row that the filter accepts. |
| Aggregation.GroupCount | servicio-mantenimientos/src/controllers/mantenimientoController.js:363-386 | `$group` with `$sum: 1` gives one entry per distinct value, with no repeated keys. Each count is the number of rows holding that value. |
| Aggregation.GroupCountSum | servicio-activos/src/controllers/activoController.js:242-255 | The counts of a grouping add up to the number of rows grouped. |
| MantenimientoModel.Assigned | servicio-mantenimientos/src/controllers/mantenimientoController.js:195 | `Object.assign` of a body onto a record keeps each field the body leaves out, the notes and the history included. A `historial` the body carries replaces the stored one, entry for entry. |
| MantenimientoModel.CastNotas | servicio-mantenimientos/src/models/Mantenimiento.js:22-38 | A body's notes are cast one for one, in order, each with its description and author trimmed. |
| MantenimientoModel.CastHistorial | servicio-mantenimientos/src/models/Mantenimiento.js:40-55 | A body's history entries are cast one for one, in order, each with its change and user trimmed. |
| MantenimientoModel.AssignEmptyIsIdentity | servicio-mantenimientos/src/controllers/mantenimientoController.js:195 | Assigning an empty body changes nothing. |
| MantenimientoModel.AssignIdempotent | servicio-mantenimientos/src/controllers/mantenimientoController.js:195 | Assigning the same body twice is assigning it once. |
| MantenimientoModel.Build | servicio-mantenimientos/src/models/Mantenimiento.js:76-161 | A new record takes the schema defaults: state "pendiente", priority "media", cost 0, no parts, and no notes and no history unless the body brings them. |
| MantenimientoModel.CostoTotal | servicio-mantenimientos/src/models/Mantenimiento.js:169-174 | The total cost is the labour cost plus, for each part, its cost times its quantity. With no parts it is the labour cost. |
| MantenimientoModel.CostoTotalAtLeastCosto | servicio-mantenimientos/src/models/Mantenimiento.js:169-174 | For a valid record, the total cost is at least the labour cost, and that is not negative. |
| MantenimientoModel.CostoTotalAddPieza | servicio-mantenimientos/src/models/Mantenimiento.js:169-174 | Adding a part adds its cost times its quantity to the total. |
| MantenimientoModel.PiezasErrors | servicio-mantenimientos/src/models/Mantenimiento.js:4-20 | The parts produce no validation error exactly when every part is valid. |
| MantenimientoModel.NotasErrors | servicio-mantenimientos/src/models/Mantenimiento.js:23-38 | The notes produce no validation error exactly when every note is valid. |
| MantenimientoModel.HistorialErrors | servicio-mantenimientos/src/models/Mantenimiento.js:41-56 | The history produces no validation error exactly when every entry is valid. |
| MantenimientoModel.EnumErrors | servicio-mantenimientos/src/models/Mantenimiento.js:82-90 | An enum field has at most one error, and none exactly when its value is allowed. |
| MantenimientoModel.FechaFinRule | servicio-mantenimientos/src/models/Mantenimiento.js:102-111 | The end-date validator accepts exactly a missing end date or one no earlier than the start. |
| MantenimientoModel.FechaFinBoundary | servicio-mantenimientos/src/models/Mantenimiento.js:102-111 | An end date equal to the start passes, one a millisecond earlier fails, and none at all passes. |
| MantenimientoModel.SchemaErrorsEmptyIff | servicio-mantenimientos/src/models/Mantenimiento.js:76-161 | `validate()` reports nothing exactly when the record meets every schema rule. |
| MantenimientoModel.SchemaErrorsApartFromLists | servicio-mantenimientos/src/models/Mantenimiento.js:76-161 | On a record whose fields other than the end date, the notes and the history are valid, the schema reports the end-date error, then the notes' errors, then the history's, and nothing else. |
| MantenimientoModel.SchemaErrorsOnlyFechaFin | servicio-mantenimientos/src/models/Mantenimiento.js:102-111 | On a record whose other fields are valid, the only error the schema can report is the end-date one. |
| MantenimientoModel.HookEntries | servicio-mantenimientos/src/models/Mantenimiento.js:177-186 | The pre-save hook writes one history entry when `estado` was modified, by "Sistema", naming the new state. Otherwise it writes none. |
| MantenimientoModel.AfterHook | servicio-mantenimientos/src/models/Mantenimiento.js:177-186 | The hook only appends to the history and changes nothing else. |
| MantenimientoModel.HookKeepsSchemaValid | servicio-mantenimientos/src/models/Mantenimiento.js:177-186 | A valid record stays valid after the hook. |
| MantenimientoModel.ConNota | servicio-mantenimientos/src/models/Mantenimiento.js:194-197 | `agregarNota` appends exactly one note and changes nothing else. The note is dated `now` and holds the trimmed description and the trimmed author. |
| MantenimientoModel.ConEstado | servicio-mantenimientos/src/models/Mantenimiento.js:199-207 | `cambiarEstado` sets the state and appends exactly one history entry. Nothing else changes. The entry is dated `now`, reads "Estado cambiado a: " and the new state, trimmed, and is signed by the trimmed user. |
| MantenimientoModel.EstadoCambiadoANotBlank | servicio-mantenimientos/src/models/Mantenimiento.js:181-184 | The hook's history text is never blank, so the entries it writes always validate. |
| MantenimientoModel.AgregarNotaSavesIff | servicio-mantenimientos/src/models/Mantenimiento.js:194-197 | Saving after `agregarNota` on a valid record succeeds exactly when the text and the author are not blank. |
| MantenimientoModel.CambiarEstadoSavesIff | servicio-mantenimientos/src/models/Mantenimiento.js:199-207 | Saving after `cambiarEstado` on a valid record succeeds exactly when the state is allowed and the user is not blank. |
| MantenimientoModel.ConNotaValidIff | servicio-mantenimientos/src/models/Mantenimiento.js:194-197 | A valid record with one more note still satisfies the schema exactly when the note's trimmed text and author are both non-empty. |
| MantenimientoModel.ConEstadoValidIff | servicio-mantenimientos/src/models/Mantenimiento.js:199-207 | A valid record with the new state and the caller's history entry still satisfies the schema exactly when the state is allowed and the trimmed user is non-empty. |
| MantenimientoModel.NotasAppendValid | servicio-mantenimientos/src/models/Mantenimiento.js:22-38 | Valid notes with one more note appended stay valid exactly when that note is valid. |
| MantenimientoModel.HistorialAppendValid | servicio-mantenimientos/src/models/Mantenimiento.js:40-55 | A valid history with one more entry appended stays valid exactly when that entry is valid. |
| MantenimientoModel.CambiarEstadoHistorial | servicio-mantenimientos/src/models/Mantenimiento.js:177-207 | A state change saves one history entry from the method. When the state really changes, the hook adds a second, system entry. |
| MantenimientoModel.MantenimientoDoc.constructor | servicio-mantenimientos/src/controllers/mantenimientoController.js:119 | `new Mantenimiento(body)` holds the built record, with `estado` marked modified exactly when the body set it. |
| MantenimientoModel.MantenimientoDoc.Assign | servicio-mantenimientos/src/controllers/mantenimientoController.js:195 | Assigning a body updates the record in place and marks `estado` modified when its value changed. |
| MantenimientoModel.MantenimientoDoc.Save | servicio-mantenimientos/src/models/Mantenimiento.js:177-186 | `save()` validates first. If validation fails, nothing changes. Otherwise the hook runs and the dirty flag is cleared. |
| MantenimientoModel.MantenimientoDoc.AgregarNota | servicio-mantenimientos/src/models/Mantenimiento.js:194-197 | Appends the note in place, then saves. |
| MantenimientoModel.MantenimientoDoc.CambiarEstado | servicio-mantenimientos/src/models/Mantenimiento.js:199-207 | Sets the state and appends the entry in place, then saves. |
| MantenimientoModel.ConNotasAppends | servicio-mantenimientos/src/models/Mantenimiento.js:194-197 | Successive `agregarNota` steps keep every earlier note and append one note per call, in call order. Each note is dated by its call and holds its trimmed text and author. Nothing else changes. |
| MantenimientoRoutes.Sanitize | servicio-mantenimientos/src/routes/mantenimientoRoutes.js:8-79 | The route sanitisers trim text fields and leave the other fields as they were. |
| MantenimientoRoutes.SanitizeIdempotent | servicio-mantenimientos/src/routes/mantenimientoRoutes.js:8-79 | Sanitising twice is sanitising once. |
| MantenimientoRoutes.Each | servicio-mantenimientos/src/routes/mantenimientoRoutes.js:50-61 | A wildcard `piezas.*` rule reports nothing exactly when every element passes. |
| MantenimientoRoutes.EachReports | servicio-mantenimientos/src/routes/mantenimientoRoutes.js:50-61 | Every error of every element is among the wildcard rule's errors. |
| MantenimientoRoutes.ActivoIdErrors | servicio-mantenimientos/src/routes/mantenimientoRoutes.js:8-10 | `activoId` passes exactly when present and not blank after trimming. |
| MantenimientoRoutes.TipoErrors | servicio-mantenimientos/src/routes/mantenimientoRoutes.js:12-15 | `tipo` passes exactly when it is one of the four kinds. |
| MantenimientoRoutes.DescripcionErrors | servicio-mantenimientos/src/routes/mantenimientoRoutes.js:17-20 | `descripcion` passes exactly when it has at least 10 characters after trimming. |
| MantenimientoRoutes.FechasErrors | servicio-mantenimientos/src/routes/mantenimientoRoutes.js:22-28 | The dates pass exactly when the start is an ISO 8601 date and the end is absent or one too. |
| MantenimientoRoutes.TecnicoNombreErrors | servicio-mantenimientos/src/routes/mantenimientoRoutes.js:34-36 | `tecnico.nombre` passes exactly when present and not blank after trimming. |
| MantenimientoRoutes.FieldErrors | servicio-mantenimientos/src/routes/mantenimientoRoutes.js:8-44 | The required and scalar rules pass exactly when each field meets its rule. |
| MantenimientoRoutes.EachRulesIff | servicio-mantenimientos/src/routes/mantenimientoRoutes.js:50-61 | The three part rules pass exactly when every part has a name, a quantity of at least 1 and a non-negative cost. |
| MantenimientoRoutes.PiezasChainErrors | servicio-mantenimientos/src/routes/mantenimientoRoutes.js:46-61 | The parts chain passes exactly when `piezas` is absent, or is an array whose elements all pass. |
| MantenimientoRoutes.OptionalErrors | servicio-mantenimientos/src/routes/mantenimientoRoutes.js:63-79 | The optional `estado`, `prioridad`, `duracion_estimada` and `duracion_real` rules pass exactly when each value given is allowed. |
| MantenimientoRoutes.ValidationErrorsEmptyIff | servicio-mantenimientos/src/routes/mantenimientoRoutes.js:7-80 | `validationResult` is empty exactly when the body meets every rule of the chain. |
| MantenimientoRoutes.BlankPiezaNombreReported | servicio-mantenimientos/src/routes/mantenimientoRoutes.js:50-53 | A part with a blank name is reported at `piezas[i].nombre`, with that rule's message. |
| MantenimientoRoutes.BadPiezaCantidadReported | servicio-mantenimientos/src/routes/mantenimientoRoutes.js:55-57 | A part whose quantity is not an integer of at least 1 is reported at `piezas[i].cantidad`. |
| MantenimientoRoutes.BadPiezaCostoReported | servicio-mantenimientos/src/routes/mantenimientoRoutes.js:59-61 | A part whose cost is not a non-negative number is reported at `piezas[i].costo`. |
| MantenimientoRoutes.RouteAcceptedApartFromLists | servicio-mantenimientos/src/routes/mantenimientoRoutes.js:7-80 | Take a body the chain accepts, assigned over a record whose untouched fields are valid. The body casts onto the schema, and the result meets every rule except possibly the end-date rule and those on notes and history. |
| MantenimientoRoutes.RouteAcceptedSchemaErrors | servicio-mantenimientos/src/routes/mantenimientoRoutes.js:7-80 | For such a body and record, the schema's errors are exactly the end-date error and the errors of the notes and history entries. No rule of the chain looks at those two lists. A body without them can fail only on the end date. |
| MantenimientoRoutes.Accepted | servicio-mantenimientos/src/controllers/mantenimientoController.js:111-116 | The handler always runs. It answers 400 itself unless `validationResult` is empty, which happens exactly when the chain reports nothing. Past that check it works on the sanitised body, and that body casts. The same check opens the update handler (lines 154-159). |
| MantenimientoRoutes.AcceptedBuildOnlyDates | servicio-mantenimientos/src/controllers/mantenimientoController.js:119-141 | Creating from an accepted body that brings no notes and no history can fail schema validation only on the end date. |
| MantenimientoController.GetAll | servicio-mantenimientos/src/controllers/mantenimientoController.js:5-48 | Answers 500 exactly when the skip is negative. Otherwise the page holds at most `abs(limit)` rows. The pagination reports the filtered total, the page, the limit and `totalPages`. |
| MantenimientoController.GetAllRowsMatch | servicio-mantenimientos/src/controllers/mantenimientoController.js:17-28 | Every listed row is a stored record that the filters accept, and the page is ordered by start date, newest first. |
| MantenimientoController.EveryMatchOnSomePage | servicio-mantenimientos/src/controllers/mantenimientoController.js:25-38 | Every record the filters accept appears on some page, for any positive limit. |
| MantenimientoController.GetById | servicio-mantenimientos/src/controllers/mantenimientoController.js:51-83 | A malformed id gives 400. An unknown id gives 404. Otherwise the answer is 200 with the record holding that id. |
| MantenimientoController.GetByActivo | servicio-mantenimientos/src/controllers/mantenimientoController.js:86-106 | Returns exactly that asset's records, newest first, with `count` equal to their number. |
| MantenimientoController.GetByActivoComplete | servicio-mantenimientos/src/controllers/mantenimientoController.js:86-106 | A record is listed exactly when it is stored and belongs to the asset. |
| MantenimientoController.GetEstadisticas | servicio-mantenimientos/src/controllers/mantenimientoController.js:358-416 | The total, the counts by state, type and priority, and the summed cost, all over the stored records. |
| MantenimientoController.EstadisticasConsistent | servicio-mantenimientos/src/controllers/mantenimientoController.js:358-416 | Each grouping's counts add up to the total. Its keys are values the schema allows, and the summed cost is not negative. |
| MantenimientoController.UpdateSchemaRejectsIff | servicio-mantenimientos/src/controllers/mantenimientoController.js:165-226 | Take an update the route and the handler's date check accepted. Saving it fails exactly when one of three things holds: the body omits `fecha_fin` and the stored end date is before the new start; the body's notes include one whose text or author trims to nothing; or the body's history does. |
| MantenimientoController.UpdateCanEraseHistory | servicio-mantenimientos/src/controllers/mantenimientoController.js:195 | An accepted update whose body brings `historial: []` saves without error over a record with two or more history entries. The record it stores keeps at most the hook's one entry, so the old history is no longer a prefix. |
| MantenimientoController.KeepLogs | servicio-mantenimientos/src/controllers/mantenimientoController.js:195 | The body with `notas` and `historial` dropped, every other field as it was. |
| MantenimientoController.UpdatedKeepsLogs | servicio-mantenimientos/src/controllers/mantenimientoController.js:195-198 | An update over a body with its lists dropped keeps the stored notes as they are, and the stored history as a prefix of the new one. |
| MantenimientoController.InvariantAfterRemove | servicio-mantenimientos/src/controllers/mantenimientoController.js:237-269 | Deleting a record keeps ids unique and records valid, and leaves no record with the deleted id. |
| MantenimientoController.GrowsAfterReplace | servicio-mantenimientos/src/controllers/mantenimientoController.js:198 | Replacing a record by one with the same id that extends its history keeps every record's history growing. |
| MantenimientoController.InvariantAfterSavedReplace | servicio-mantenimientos/src/controllers/mantenimientoController.js:198 | Replacing a record by one whose save succeeded keeps ids unique and records valid. If the saved record extends the old history, every history still grows. |
| MantenimientoController.SavedIsValid | servicio-mantenimientos/src/models/Mantenimiento.js:177-186 | A record whose validation found nothing still satisfies the schema after the pre-save hook adds its history entry. |
| MantenimientoController.MantenimientoStore.Create | servicio-mantenimientos/src/controllers/mantenimientoController.js:109-149 | Route errors give 400. Schema errors give 400 "Error de validación". Otherwise the record is appended under a fresh id with 201. The store stays valid in every case. |
| MantenimientoController.MantenimientoStore.Append | servicio-mantenimientos/src/controllers/mantenimientoController.js:120 | Saving a new record that satisfies the schema stores it under the next id. The store stays valid and no history shrinks. |
| MantenimientoController.MantenimientoStore.Replace | servicio-mantenimientos/src/controllers/mantenimientoController.js:198 | Saving a stored record that passed validation puts the record after the pre-save hook in its place, under its own id. The store stays valid. No history shrinks when the saved record extends the old one. |
| MantenimientoController.MantenimientoStore.Update | servicio-mantenimientos/src/controllers/mantenimientoController.js:152-234 | The failures are checked in this order: route errors 400, inverted dates 400, malformed id 400, unknown id 404, then schema errors 400. Otherwise the record is replaced in place with 200. When the body carries no `historial`, no history shrinks; one that does replaces the stored history (see Findings). |
| MantenimientoController.MantenimientoStore.Delete | servicio-mantenimientos/src/controllers/mantenimientoController.js:237-269 | A malformed id gives 400. An unknown id gives 404. Otherwise the record is removed, and no record with that id remains. |
| MantenimientoController.MantenimientoStore.CambiarEstado | servicio-mantenimientos/src/controllers/mantenimientoController.js:272-316 | A missing state gives 400 before any lookup. Then the id checks, and a refused save gives 500. Otherwise the record carries the new state and its history entries. |
| MantenimientoController.MantenimientoStore.AgregarNota | servicio-mantenimientos/src/controllers/mantenimientoController.js:319-355 | A missing text or author gives 400. An unknown id gives 404. A malformed id or a refused save gives 500. Otherwise the note is appended. |
| ActivoModel.NotNullErrors | servicio-activos/src/models/Activo.js:10-70 | The row passes the NOT NULL checks exactly when every required column is present. |
| ActivoModel.NombreValidators | servicio-activos/src/models/Activo.js:10-17 | `nombre` passes exactly when it is not blank and has between 3 and 100 characters. |
| ActivoModel.CategoriaValidators | servicio-activos/src/models/Activo.js:32-42 | `categoria` passes exactly when it is one of the seven categories. |
| ActivoModel.FechaValidators | servicio-activos/src/models/Activo.js:43-50 | `fecha_adquisicion` passes exactly when it is a date. |
| ActivoModel.CostoValidators | servicio-activos/src/models/Activo.js:51-58 | `costo` passes exactly when it is a non-negative decimal. |
| ActivoModel.IfPresent | servicio-activos/src/models/Activo.js:10-70 | A validator is applied only to a value that is given. |
| ActivoModel.RequiredText | servicio-activos/src/models/Activo.js:22-31 | A column whose only validator is `notEmpty` (`numero_serie`, and `ubicacion` at lines 59-65) passes exactly when its text is not blank, and otherwise reports that one message on that column. |
| ActivoModel.ValidatorErrors | servicio-activos/src/models/Activo.js:10-70 | The validators report nothing exactly when each given value passes its own. |
| ActivoModel.CreateErrorsEmptyIff | servicio-activos/src/models/Activo.js:4-80 | `create` reports no validation error exactly when the row can be built. |
| ActivoModel.Build | servicio-activos/src/models/Activo.js:66-70 | A new row's state defaults to "activo", and the row meets every column rule. |
| ActivoModel.Merge | servicio-activos/src/controllers/activoController.js:143 | `update(body)` keeps each column the body leaves out and keeps the creation time. A valid row stays valid. |
| ActivoModel.StorableIff | servicio-activos/src/models/Activo.js:10-58 | A built row fits the table exactly when its text fits the column widths and its cost fits `DECIMAL(10,2)`. |
| ActivoRoutes.Sanitize | servicio-activos/src/routes/activoRoutes.js:8-53 | The sanitisers trim the text fields and leave the others as they were. |
| ActivoRoutes.SanitizeIdempotent | servicio-activos/src/routes/activoRoutes.js:8-53 | Sanitising twice is sanitising once. |
| ActivoRoutes.NombreErrors | servicio-activos/src/routes/activoRoutes.js:8-13 | `nombre` passes exactly when present with 3 to 100 characters after trimming. |
| ActivoRoutes.TrimmedRequired | servicio-activos/src/routes/activoRoutes.js:17-20 | A trimmed required field passes exactly when present and not blank. |
| ActivoRoutes.CategoriaErrors | servicio-activos/src/routes/activoRoutes.js:22-34 | `categoria` passes exactly when it is one of the seven categories. |
| ActivoRoutes.FechaErrors | servicio-activos/src/routes/activoRoutes.js:36-40 | `fecha_adquisicion` passes exactly when present and a date. |
| ActivoRoutes.ValidationErrorsEmptyIff | servicio-activos/src/routes/activoRoutes.js:7-54 | The chain reports nothing exactly when the body meets every rule. |
| ActivoRoutes.RouteErrors | servicio-activos/src/routes/activoRoutes.js:57-67 | The chain guards exactly the three write routes: POST `/`, POST `/crear` and PUT `/:id`. |
| ActivoRoutes.TrimmedNotBlank | servicio-activos/src/routes/activoRoutes.js:8-20 | Trimmed text that is not empty is not blank, so the model's `notEmpty` agrees with the route's. |
| ActivoRoutes.RouteAcceptedModelAccepts | servicio-activos/src/routes/activoRoutes.js:7-54 | A body the chain accepts passes every model validator and builds. This takes the chain's `isFloat` and the model's `isDecimal` to agree on numeric text (see Left out). |
| ActivoRoutes.RouteAcceptedStorableIff | servicio-activos/src/routes/activoRoutes.js:7-54 | A body the chain accepts fits the table exactly when its serial number and location fit their columns and its cost fits `DECIMAL(10,2)`. |
| ActivoController.InvariantAfterAppend | servicio-activos/src/controllers/activoController.js:89 | Inserting a valid row under a fresh key, with a serial number not yet used, keeps keys and serials unique. |
| ActivoController.InvariantAfterReplace | servicio-activos/src/controllers/activoController.js:143 | Updating a row with a valid row whose serial number no other row holds keeps the table's invariant. |
| ActivoController.InvariantAfterRemove | servicio-activos/src/controllers/activoController.js:170-196 | Deleting a row keeps the invariant and leaves no row with its key. |
| ActivoController.GetAll | servicio-activos/src/controllers/activoController.js:7-49 | Answers 500 exactly when the offset or the limit is negative, or when a truthy `estado` filter is not a value of the enumerated type the column is declared with (servicio-activos/src/models/Activo.js:66-70). Otherwise it returns at most `limit` rows, with `total` counting every match. |
| ActivoController.GetAllRowsMatch | servicio-activos/src/controllers/activoController.js:12-29 | Every listed row is a stored row that the filters accept, newest first. |
| ActivoController.EveryMatchOnSomePage | servicio-activos/src/controllers/activoController.js:10-40 | Every row the filters accept whose state is one of the enumerated values, which holds of every stored row, appears on some page, for any positive limit. |
| ActivoController.GetById | servicio-activos/src/controllers/activoController.js:52-76 | Text that is not a UUID gives 500. An unknown key gives 404. Otherwise the answer is 200 with the row holding that key. |
| ActivoController.Search | servicio-activos/src/controllers/activoController.js:199-236 | A missing or blank `q` gives 400. Otherwise at most 20 rows, newest first, with `count` equal to their number. |
| ActivoController.SearchReturnsNewest | servicio-activos/src/controllers/activoController.js:211-221 | A search returns as many matches as there are, up to 20. No match it leaves out is newer than a row it returns. |
| Queries.FirstWindowNewest | servicio-activos/src/controllers/activoController.js:218-221 | A row that the first window of a newest-first result leaves out is no newer than any row the window keeps. |
| ActivoController.SearchRowsMatch | servicio-activos/src/controllers/activoController.js:211-227 | Every row found matches the pattern in one of its four columns. When at most 20 rows match, every match is found. |
| ActivoController.LiteralSearchIsSubstring | servicio-activos/src/controllers/activoController.js:211-219 | For text free of `%`, `_` and backslash, a row is found exactly when one of its four searched columns contains it, ignoring case. |
| ActivoController.UnderscoreMatchesEveryRow | servicio-activos/src/controllers/activoController.js:211-219 | The search text reaches `ILIKE` unescaped, so the query "_" matches every stored row. |
| ActivoController.GetEstadisticas | servicio-activos/src/controllers/activoController.js:239-274 | The row count, and the counts by state and by category over the stored rows. |
| ActivoController.EstadisticasConsistent | servicio-activos/src/controllers/activoController.js:239-274 | Each grouping's counts add up to the total, and its keys are allowed states and categories. |
| ActivoController.GroupKeysAllowed | servicio-activos/src/controllers/activoController.js:242-255 | A grouping's keys are values of the grouped column. |
| ActivoController.CreatedFound | servicio-activos/src/controllers/activoController.js:89-95 | After a create, fetching the new key returns the new row. |
| ActivoController.DeletedNotFound | servicio-activos/src/controllers/activoController.js:170-196 | After a delete, fetching the deleted key gives 404. |
| ActivoController.ActivoStore.Create | servicio-activos/src/controllers/activoController.js:79-120 | Route errors give 400, and model errors give 400 with the model's list. A row that does not fit the table gives 500. A serial number already used gives 409. Otherwise the row is inserted under a fresh key with 201. |
| ActivoController.ActivoStore.Insert | servicio-activos/src/controllers/activoController.js:89 | Inserting a valid row that fits its columns, with an unused serial number, adds it under the next key. The table's invariant holds afterwards. |
| ActivoController.ActivoStore.Update | servicio-activos/src/controllers/activoController.js:123-167 | Route errors give 400, a non-UUID 500 and an unknown key 404. Validator errors give 400. A row that does not fit, or a serial number another row holds, gives 500. Otherwise the merged row replaces the old one with 200. |
| ActivoController.ActivoStore.Delete | servicio-activos/src/controllers/activoController.js:170-196 | A non-UUID gives 500. An unknown key gives 404. Otherwise the row is removed, and no row with that key remains. |
| Text.Before | api-gateway/src/index.js:19-21 | The text before the first occurrence of a character: a prefix that does not contain it, followed by that character unless it is the whole text. `req.path` is the URL before its first `?`. |
| Gateway.PathQuerySplit | api-gateway/src/index.js:20-23 | A path followed by a query string splits back into the same two parts. |
| Gateway.StripTrailingSlash | api-gateway/src/index.js:18-26 | Consider a path other than "/" that ends in "/". The middleware removes that last slash and keeps the query string. Any other URL is unchanged. |
| Gateway.TrailingSlashIgnored | api-gateway/src/index.js:14-26 | A path with and without one trailing slash reaches the handlers as the same URL. |
| Gateway.OneSlashOnly | api-gateway/src/index.js:18-26 | Only one trailing slash is removed. |
| Gateway.Request.DropTrailingSlash | api-gateway/src/index.js:18-26 | The middleware rewrites `req.url` in place to the stripped URL. |
| Gateway.Target | api-gateway/src/index.js:98-103 | The upstream is the configured address when it is set and not empty. Otherwise it is the production address under `NODE_ENV=production`, and the local one in any other environment. |
| Gateway.TargetsNotEmpty | api-gateway/src/index.js:134-138 | Each upstream address is non-empty, whichever way it is chosen. |
| Gateway.Rewrite | api-gateway/src/index.js:106-108 | `pathRewrite` replaces a leading prefix and leaves any other URL alone. |
| Gateway.RootOnlyAtSlash | api-gateway/src/index.js:164 | The root handler answers a GET or HEAD of the path `/` and of no other path: Express matches `/` against `^\/?$`, so `//` is not the root. |
| Gateway.TripleSlashNotFound | api-gateway/src/index.js:18-24 | `///` loses one slash to the middleware, and the `//` left gets the 404 that names it (lines 207-212). |
| Gateway.MountsApart | api-gateway/src/index.js:160-161 | No path is under both mounts. |
| Gateway.MountsAreNotOwnRoutes | api-gateway/src/index.js:47-164 | A path under either mount is none of the gateway's own GET routes, `/` included. |
| Gateway.Dispatch | api-gateway/src/index.js:47-213 | Paths under a mount go to that service's proxy with the rewritten URL. The 404 with the path is given exactly when the path is under neither mount and is no GET route. |
| Gateway.Serve | api-gateway/src/index.js:18-213 | The middleware rewrites the URL first, and the handlers then see the rewritten URL. |
| Gateway.ProxiedPath | api-gateway/src/index.js:106-108 | `/api/activos<rest>?q` reaches the asset service as `/activos<rest>?q`. `/api/mantenimientos` is forwarded to `/mantenimientos` the same way. |
| Gateway.MountedRewrite | api-gateway/src/index.js:141-143 | A mounted path keeps its rest and its query string through the rewrite. |
| Gateway.PrefixIsNotMount | api-gateway/src/index.js:160-213 | `/api/activosX` is not proxied; it gets the 404. |
| Gateway.ApiPathIsNoRoute | api-gateway/src/index.js:47-72 | No path under `/api` is one of the gateway's own GET routes. |
| Gateway.WritesOutsideServicesNotFound | api-gateway/src/index.js:207-213 | A method other than GET or HEAD on a path outside both services gets the 404 with its path. |
| Breadcrumbs.Segments | frontend/src/components/Breadcrumbs.js:19 | `split('/').filter(Boolean)` gives non-empty pieces without slashes. |
| Breadcrumbs.JoinPath | frontend/src/components/Breadcrumbs.js:24 | The accumulated path starts with a slash once any segment is added. |
| Breadcrumbs.JoinPathExtends | frontend/src/components/Breadcrumbs.js:24 | Each crumb's link is the previous link plus "/" and its segment. |
| Breadcrumbs.JoinPathAppend | frontend/src/components/Breadcrumbs.js:24 | Joining `a + b` is joining `a`, then `b`. |
| Breadcrumbs.SegmentsOfJoinPath | frontend/src/components/Breadcrumbs.js:19-24 | Splitting the path that segments spell gives the same segments back. |
| Text.BeforeConcat | frontend/src/components/Breadcrumbs.js:19 | Text without the character, followed by nothing or by that character, is read back whole. So a segment followed by a slash splits off intact. |
| Breadcrumbs.NameAsWritten | frontend/src/components/Breadcrumbs.js:27-38 | The name as the code computes it is not text exactly for a segment that is not an id, is not in the table, and is an inherited object property. |
| Breadcrumbs.ConstructorSegmentHasNoText | frontend/src/components/Breadcrumbs.js:38 | The segment `constructor` gets no text name. |
| Breadcrumbs.DisplayName | frontend/src/components/Breadcrumbs.js:34-38 | "Detalles" for a UUID or a number, the translation for a known route name, and otherwise the segment itself. |
| Breadcrumbs.DisplayNameAsWritten | frontend/src/components/Breadcrumbs.js:27-38 | Away from inherited property names, the code as written shows the same text as `DisplayName`. |
| Breadcrumbs.DisplayNameNotEmpty | frontend/src/components/Breadcrumbs.js:38 | A crumb is never nameless. |
| Breadcrumbs.GenerateBreadcrumbs | frontend/src/components/Breadcrumbs.js:18-45 | The home crumb comes first, then one crumb per segment: given the segment's corrected name (`DisplayName`), linking to the path up to it, and marked current exactly when it is the last. Away from inherited property names, that name is the text the code as written gives. |
| Breadcrumbs.Render | frontend/src/components/Breadcrumbs.js:47-52 | Nothing is shown exactly at "/". Elsewhere the trail has one crumb more than the path has segments. |
| Breadcrumbs.LastCrumbIsThePage | frontend/src/components/Breadcrumbs.js:37-41 | On a path spelled by its segments, the trail built from it has one crumb per segment after the home crumb. The last crumb links to the page itself and is the only one marked current. |
| Layout.IsActiveIff | frontend/src/components/Layout.js:10 | A link is active exactly on its own path and on paths that continue it after a slash. |
| Layout.NestedPageActivates | frontend/src/components/Layout.js:10 | A page below a section highlights the section's link. |
| Layout.SiblingDoesNotActivate | frontend/src/components/Layout.js:10 | `/activosX` does not highlight `/activos`. |
| Layout.RootActiveOnlyAtRoot | frontend/src/components/Layout.js:10 | The Dashboard link `/` is active exactly at `/` and on paths that start with `//`, since its prefix test is against `//`. So it is active on no page such as `/activos`. |

## Left out

- Date parsing: a date value is given as its text together with its parsed time, or with none. The ISO 8601 and `isDate` checks and the schema's cast are taken to agree on which texts parse.
- JSON values other than strings, numbers and arrays in request bodies (booleans, objects, `null`) are not modelled. Neither is the sanitiser creating a missing field, since express-validator's `trim` skips fields that are absent.
- Body fields that neither a rule nor the schema names are not modelled: a body holds only schema fields.
- A note or history entry in a body carries its own date. A missing `fecha` there, which the schema fills with the time of the cast, and one that does not parse are not modelled. So are a `notas` or `historial` value that is not an array, and the cast error it draws.
- Database order among rows with equal sort keys is unspecified. The model keeps insertion order. The order of group-by results is likewise taken as the order of first appearance.
- Text is compared by character, with no Unicode code-point or collation rules. `ILIKE` case folding covers ASCII letters only.
- Non-numeric `page` and `limit` query parameters (which give `NaN`) are not modelled: both are whole numbers or absent.
- The `_id` Mongoose gives to each note, part and history entry is not modelled.
- Clocks, I/O, the database connection and concurrent requests are not modelled: the current time is a parameter, and handlers run one at a time.
- ObjectIds and UUIDs are not generated: a store's counter gives fresh ids.
- MantenimientoController.MantenimientoStore.Create: takes the route chain's outcome (its errors and the sanitised body) rather than the raw body. `MantenimientoRoutes.Accepted` states how the two are linked.
- ActivoController.ActivoStore.Create: takes the route chain's outcome as its input, in the same way.
- The `min` comparison that express-validator applies to numeric text is modelled on numbers only.
- `updated_at` and Mongoose's `updatedAt` are not modelled. `created_at` is kept, for ordering.
- `DECIMAL(10,2)` rounding of stored costs is not modelled: only the column's range check is.
- Breadcrumbs.GenerateBreadcrumbs: the trail uses the corrected name `DisplayName`, not `names[path] || path` as written (frontend/src/components/Breadcrumbs.js:38). For the twelve property names every object inherits, the page shows the inherited value instead; `NameAsWritten` and the Findings row record that.
- ActivoRoutes.RouteAcceptedModelAccepts: numeric texts are taken to be read alike by the chain's `isFloat` and the model's `isDecimal`. A text they disagree on, such as `"+5"`, which `isFloat` accepts and `isDecimal` refuses with a 400, is not modelled.
- ActivoModel.Merge: states only that columns the body leaves out are kept and that validity is preserved. It does not say that given columns take the body's values, though its definition does that.
- MantenimientoModel.Assigned: states the fields a body leaves out and the length of a history the body brings, not each assigned field's new value.
- MantenimientoModel.Build: states the defaults, not each copied field.
- The gateway's CORS, helmet, rate limiting, request logging and body parsing are not modelled.
- The JSON bodies of the gateway's `/health`, `/debug/config`, `/health/all` and `/` routes are not modelled, nor the upstream calls `/health/all` makes.
- The proxy transport, the proxies' 503 error handlers and the global error handler are not modelled.
- Express's case-insensitive route matching is not modelled: paths are compared exactly.
- The proxy library's own use of `originalUrl` and of the mount path is not modelled. The rewrite is applied to the URL as the middleware leaves it.
- CORS `OPTIONS` preflight handling is not modelled.
- React rendering, Chakra UI markup and the Next.js router are not modelled: the trail and the active test are computed from a given pathname.
- Route dispatch inside each service (Express's matching of `/search` before `/:id`, and so on) is not modelled: each handler is a separate operation.

## Findings

| source | as written | input that shows it | evidently intended | confidence | as-written member | corrected member |
|---|---|---|---|---|---|---|
| frontend/src/components/Breadcrumbs.js:38 | The name is `names[path] \|\| path` on a plain object literal (lines 27-32), so the lookup also finds properties inherited from `Object.prototype`. | The pathname `/activos/constructor`: the last crumb's name is the `Object` function rather than text. `toString`, `valueOf` and `__proto__` behave alike. | A segment that is not a known route name is shown as its own text. | not executed | Breadcrumbs.NameAsWritten, Breadcrumbs.ConstructorSegmentHasNoText | Breadcrumbs.DisplayName, Breadcrumbs.DisplayNameAsWritten, Breadcrumbs.GenerateBreadcrumbs |
| servicio-mantenimientos/src/controllers/mantenimientoController.js:195 | `Object.assign(mantenimientoExistente, req.body)` copies every field of the body. No rule of the route chain (servicio-mantenimientos/src/routes/mantenimientoRoutes.js:7-80) strips or rejects `historial` or `notas`, so an update replaces the stored history and notes with the body's. | `PUT /mantenimientos/:id` with an otherwise valid body and `"historial": []`, over a record with two history entries: the save succeeds and the history is gone. | The history is an append-only audit log: entries are only added, by `cambiarEstado` and by the pre-save hook. An update leaves the notes and the history to those two mutators. | not executed | MantenimientoController.UpdateCanEraseHistory, MantenimientoModel.Assigned | MantenimientoController.KeepLogs, MantenimientoController.UpdatedKeepsLogs |

The store's `MantenimientoController.MantenimientoStore.Update` follows the update handler as written, so that its contract describes what the service does. Its promise that no history shrinks is made for a body without `historial`, and every `KeepLogs` body is one.

=== FILE: activo_controller.dfy ===
/**
 * The handlers of servicio-activos over the `activos` table: listing with
 * filters, search and pages, lookup, create, update, delete, the free-text
 * search and the statistics; each with the status code and body it answers
 * for every outcome.
 */
module ActivoController {

  import opened Wrappers
  import opened Text
  import opened Http
  import opened Queries
  import opened Aggregation
  import opened ActivoModel

  /** A row's primary key. How the table generates one is not modelled; the keys it holds are distinct. */
  type Uuid = nat

  /**
   * An `:id` route parameter: a UUID, or text that is not one. The handlers
   * have no branch for the latter: the database refuses to compare it with
   * the key column and the handler's catch-all answers 500.
   */
  datatype IdParam = IsUuid(uuid: Uuid) | NotUuid(raw: string)

  /** A stored row with its key. */
  datatype Row = Row(id: Uuid, activo: Activo)

  /** The filter parameters of `GET /activos`. */
  datatype Filtro = Filtro(categoria: Option<string>, estado: Option<string>, search: Option<string>)

  /** The query string of `GET /activos`, with `page` and `limit` already read as numbers. */
  datatype ListQuery = ListQuery(page: Option<int>, limit: Option<int>, filtro: Filtro)

  datatype Pagination = Pagination(total: nat, page: int, limit: int, totalPages: Option<int>)

  datatype Estadisticas = Estadisticas(total: nat, porEstado: seq<Group<string>>, porCategoria: seq<Group<string>>)

  /** The JSON body of a reply. */
  datatype Reply =
    | Listed(data: seq<Row>, pagination: Pagination)
    | Found(row: Row)
    | SearchResults(results: seq<Row>, count: nat)
    | Saved(message: string, saved: Row)
    | Stats(estadisticas: Estadisticas)
    | RuleErrors(errors: seq<FieldError>)
    | ValidationFailed(failures: seq<FieldError>)
    | Message(success: bool, text: string)

  datatype Response = Response(status: int, reply: Reply)

  const NO_ENCONTRADO := "Activo no encontrado"
  /** The most rows a search returns. */
  const SEARCH_LIMIT := 20

  // ---------------------------------------------------------------------
  // Filters and ordering
  // ---------------------------------------------------------------------

  /** The pattern ``%${q}%`` handed to `ILIKE`: `q` anywhere, with `q`'s own `%`, `_` and `\` still special. */
  function Pattern(q: string): string {
    "%" + q + "%"
  }

  /** The list's text search: the pattern matches the name, the description (when there is one) or the serial number. */
  predicate ListSearchHit(q: string, a: Activo) {
    || ILike(Pattern(q), a.nombre)
    || (a.descripcion.Some? && ILike(Pattern(q), a.descripcion.value))
    || ILike(Pattern(q), a.numeroSerie)
  }

  /** The search endpoint's test: the list's, and the location too. */
  predicate SearchHit(q: string, a: Activo) {
    ListSearchHit(q, a) || ILike(Pattern(q), a.ubicacion)
  }

  /** The list filter: each truthy query parameter must hold of the row. */
  predicate Matches(f: Filtro, a: Activo) {
    && (Truthy(f.categoria) ==> a.categoria == f.categoria.value)
    && (Truthy(f.estado) ==> a.estado == f.estado.value)
    && (Truthy(f.search) ==> ListSearchHit(f.search.value, a))
  }

  /** A truthy `estado` filter names one of the states the column's enumerated type holds. */
  predicate EstadoFilterKnown(f: Filtro) {
    Truthy(f.estado) ==> f.estado.value in ESTADOS_ACTIVO
  }

  function MatchesFiltro(f: Filtro): Row -> bool {
    (r: Row) => Matches(f, r.activo)
  }

  function SearchFor(q: string): Row -> bool {
    (r: Row) => SearchHit(q, r.activo)
  }

  /** The sort key `created_at`. */
  function CreatedKey(r: Row): int {
    r.activo.createdAt
  }

  /** The key `findByPk` looks a row up by. */
  function RowId(r: Row): Uuid {
    r.id
  }

  /** The column whose `unique` constraint makes `create` fail with a 409. */
  function RowSerial(r: Row): string {
    r.activo.numeroSerie
  }

  // ---------------------------------------------------------------------
  // The table's invariant
  // ---------------------------------------------------------------------

  ghost predicate UniqueIds(rows: seq<Row>) {
    forall i, j :: 0 <= i < j < |rows| ==> rows[i].id != rows[j].id
  }

  /** The `unique` constraint on `numero_serie`. */
  ghost predicate UniqueSerials(rows: seq<Row>) {
    forall i, j :: 0 <= i < j < |rows| ==> rows[i].activo.numeroSerie != rows[j].activo.numeroSerie
  }

  /**
   * The table's invariant: keys are distinct and below the next key to hand
   * out, serial numbers are distinct, and every row passed the model's
   * validators and fits the column types.
   */
  ghost predicate StoreInvariant(rows: seq<Row>, nextId: Uuid) {
    && UniqueIds(rows)
    && UniqueSerials(rows)
    && (forall i :: 0 <= i < |rows| ==> RowFits(rows[i], nextId))
  }

  /** A row's key is below the next key, and its values are valid and fit the columns. */
  ghost predicate RowFits(r: Row, nextId: Uuid) {
    r.id < nextId && ActivoValid(r.activo) && Storable(r.activo)
  }

  /** Inserting a valid row that fits, under the next key and with an unused serial number, keeps the invariant. */
  lemma InvariantAfterAppend(rows: seq<Row>, nextId: Uuid, a: Activo)
    requires StoreInvariant(rows, nextId) && ActivoValid(a) && Storable(a)
    requires IndexOf(rows, RowSerial, a.numeroSerie).None?
    ensures StoreInvariant(rows + [Row(nextId, a)], nextId + 1)
  {
    var after := rows + [Row(nextId, a)];
    forall i | 0 <= i < |after| ensures RowFits(after[i], nextId + 1) {
      if i < |rows| {
        assert after[i] == rows[i];
        assert RowFits(rows[i], nextId);
      }
    }
    forall o | 0 <= o < |rows| ensures rows[o].id < nextId {
      assert RowFits(rows[o], nextId);
    }
    UniqueAfterAppend(rows, nextId, a);
  }

  /** The key and serial-number half of `InvariantAfterAppend`. */
  lemma UniqueAfterAppend(rows: seq<Row>, nextId: Uuid, a: Activo)
    requires UniqueIds(rows) && UniqueSerials(rows)
    requires forall o :: 0 <= o < |rows| ==> rows[o].id < nextId
    requires IndexOf(rows, RowSerial, a.numeroSerie).None?
    ensures UniqueIds(rows + [Row(nextId, a)]) && UniqueSerials(rows + [Row(nextId, a)])
  {
    var after := rows + [Row(nextId, a)];
    forall i, j | 0 <= i < j < |after|
      ensures after[i].id != after[j].id && after[i].activo.numeroSerie != after[j].activo.numeroSerie
    {
      assert after[i] == rows[i];
      assert after[j] == if j < |rows| then rows[j] else Row(nextId, a);
    }
  }

  /** Replacing row `k`'s values, keeping its key, keeps the invariant when no other row holds the new serial number. */
  lemma InvariantAfterReplace(rows: seq<Row>, nextId: Uuid, k: nat, a: Activo)
    requires StoreInvariant(rows, nextId) && k < |rows| && ActivoValid(a) && Storable(a)
    requires IndexOf(rows, RowSerial, a.numeroSerie).None? || IndexOf(rows, RowSerial, a.numeroSerie) == Some(k)
    ensures StoreInvariant(rows[k := Row(rows[k].id, a)], nextId)
  {
    var after := rows[k := Row(rows[k].id, a)];
    forall i | 0 <= i < |after| ensures RowFits(after[i], nextId) {
      if i != k { assert after[i] == rows[i]; }
    }
    var owner := IndexOf(rows, RowSerial, a.numeroSerie);
    forall o | 0 <= o < |rows| && o != k ensures rows[o].activo.numeroSerie != a.numeroSerie {
      if owner.Some? {
        assert rows[k].activo.numeroSerie == a.numeroSerie;
      }
    }
    UniqueAfterReplace(rows, k, a);
  }

  /** The key and serial-number half of `InvariantAfterReplace`. */
  lemma UniqueAfterReplace(rows: seq<Row>, k: nat, a: Activo)
    requires UniqueIds(rows) && UniqueSerials(rows) && k < |rows|
    requires forall o :: 0 <= o < |rows| && o != k ==> rows[o].activo.numeroSerie != a.numeroSerie
    ensures UniqueIds(rows[k := Row(rows[k].id, a)]) && UniqueSerials(rows[k := Row(rows[k].id, a)])
  {
    var after := rows[k := Row(rows[k].id, a)];
    forall i, j | 0 <= i < j < |after|
      ensures after[i].id != after[j].id && after[i].activo.numeroSerie != after[j].activo.numeroSerie
    {
      assert after[i] == if i == k then Row(rows[k].id, a) else rows[i];
      assert after[j] == if j == k then Row(rows[k].id, a) else rows[j];
    }
  }

  /** Merging a body that passes the model's validators into a stored row gives a valid row. */
  lemma ValidAfterMerge(rows: seq<Row>, nextId: Uuid, k: nat, p: ActivoPayload)
    requires StoreInvariant(rows, nextId) && k < |rows| && ValidatorsPass(p)
    ensures ActivoValid(Merge(rows[k].activo, p))
  {
    assert RowFits(rows[k], nextId);
  }

  /** Removing a row keeps the invariant, and no row with its key is left. */
  lemma InvariantAfterRemove(rows: seq<Row>, nextId: Uuid, k: nat)
    requires StoreInvariant(rows, nextId) && k < |rows|
    ensures StoreInvariant(RemoveAt(rows, k), nextId)
    ensures forall i :: 0 <= i < |RemoveAt(rows, k)| ==> RemoveAt(rows, k)[i].id != rows[k].id
  {
    var after := RemoveAt(rows, k);
    forall i | 0 <= i < |after| ensures RowFits(after[i], nextId) {
      assert after[i] == rows[if i < k then i else i + 1];
    }
    UniqueAfterRemove(rows, k);
  }

  /** The key and serial-number half of `InvariantAfterRemove`. */
  lemma UniqueAfterRemove(rows: seq<Row>, k: nat)
    requires UniqueIds(rows) && UniqueSerials(rows) && k < |rows|
    ensures UniqueIds(RemoveAt(rows, k)) && UniqueSerials(RemoveAt(rows, k))
    ensures forall i :: 0 <= i < |RemoveAt(rows, k)| ==> RemoveAt(rows, k)[i].id != rows[k].id
  {
    var after := RemoveAt(rows, k);
    forall i, j | 0 <= i < j < |after|
      ensures after[i].id != after[j].id && after[i].activo.numeroSerie != after[j].activo.numeroSerie
    {
      assert after[i] == rows[if i < k then i else i + 1];
      assert after[j] == rows[if j < k then j else j + 1];
    }
    forall i | 0 <= i < |after| ensures after[i].id != rows[k].id {
      assert after[i] == rows[if i < k then i else i + 1];
    }
  }

  // ---------------------------------------------------------------------
  // The read handlers, over the rows the table holds
  // ---------------------------------------------------------------------

  /**
   * `GET /activos`: the rows the filter accepts, newest first, from row
   * `(page - 1) * limit` on, at most `limit` of them; `page` defaults to 1
   * and `limit` to 10. The database refuses a negative offset or limit,
   * and an `estado` filter that is not a value of the column's enumerated
   * type: 500. `total` counts every match before the page is cut.
   */
  function GetAll(rows: seq<Row>, q: ListQuery): (r: Response)
    ensures var page := q.page.GetOr(1); var limit := q.limit.GetOr(10);
      && (r.status == OK <==> Skip(page, limit) >= 0 && limit >= 0 && EstadoFilterKnown(q.filtro))
      && (r.status != OK ==> r == Response(SERVER_ERROR, Message(false, "Error al obtener activos")))
      && (r.status == OK ==>
            && r.reply.Listed?
            && |r.reply.data| <= limit
            && r.reply.pagination == Pagination(|Filter(rows, MatchesFiltro(q.filtro))|, page, limit,
                                                TotalPagesReply(|Filter(rows, MatchesFiltro(q.filtro))|, limit)))
  {
    var page := q.page.GetOr(1);
    var limit := q.limit.GetOr(10);
    var offset := Skip(page, limit);
    var matching := Filter(rows, MatchesFiltro(q.filtro));
    if offset < 0 || limit < 0 || !EstadoFilterKnown(q.filtro) then Response(SERVER_ERROR, Message(false, "Error al obtener activos"))
    else
      var data := if limit == 0 then [] else SkipLimit(SortDesc(matching, CreatedKey), offset, limit);
      Response(OK, Listed(data, Pagination(|matching|, page, limit, TotalPagesReply(|matching|, limit))))
  }

  /** `GET /activos/:id`: 404 for an unknown key, 500 for text that is not a key. */
  function GetById(rows: seq<Row>, id: IdParam): (r: Response)
    ensures id.NotUuid? ==> r == Response(SERVER_ERROR, Message(false, "Error al obtener activo"))
    ensures r.status == OK <==> id.IsUuid? && exists i :: 0 <= i < |rows| && rows[i].id == id.uuid
    ensures r.status == OK ==> r.reply.Found? && r.reply.row in rows && r.reply.row.id == id.uuid
    ensures id.IsUuid? && r.status != OK ==> r == Response(NOT_FOUND, Message(false, NO_ENCONTRADO))
  {
    if id.NotUuid? then Response(SERVER_ERROR, Message(false, "Error al obtener activo"))
    else
      var k := IndexOf(rows, RowId, id.uuid);
      if k.None? then Response(NOT_FOUND, Message(false, NO_ENCONTRADO))
      else Response(OK, Found(rows[k.value]))
  }

  /**
   * `GET /activos/search?q=`: a missing or blank `q` is 400; otherwise the
   * newest 20 rows whose name, description, serial number or location the
   * pattern matches, and how many were returned.
   */
  function Search(rows: seq<Row>, q: Option<string>): (r: Response)
    ensures r.status == OK <==> q.Some? && Trim(q.value) != ""
    ensures r.status != OK ==> r == Response(BAD_REQUEST, Message(false, "El parámetro de búsqueda es requerido"))
    ensures r.status == OK ==>
      && r.reply.SearchResults?
      && r.reply.count == |r.reply.results| <= SEARCH_LIMIT
      && SortedDesc(r.reply.results, CreatedKey)
  {
    if q.None? || Trim(q.value) == "" then
      Response(BAD_REQUEST, Message(false, "El parámetro de búsqueda es requerido"))
    else
      var sorted := SortDesc(Filter(rows, SearchFor(q.value)), CreatedKey);
      var found := SkipLimit(sorted, 0, SEARCH_LIMIT);
      SkipLimitSorted(sorted, 0, SEARCH_LIMIT, CreatedKey);
      Response(OK, SearchResults(found, |found|))
  }

  function Column(rows: seq<Row>, f: Activo -> string): (c: seq<string>)
    ensures |c| == |rows| && forall i :: 0 <= i < |rows| ==> c[i] == f(rows[i].activo)
  {
    seq(|rows|, i requires 0 <= i < |rows| => f(rows[i].activo))
  }

  /** `GET /activos/estadisticas`: the row count, and the rows per state and per category. */
  function GetEstadisticas(rows: seq<Row>): (r: Response)
    ensures r.status == OK && r.reply.Stats?
    ensures r.reply.estadisticas.total == |rows|
    ensures r.reply.estadisticas.porEstado == GroupCount(Column(rows, (a: Activo) => a.estado))
    ensures r.reply.estadisticas.porCategoria == GroupCount(Column(rows, (a: Activo) => a.categoria))
  {
    Response(OK, Stats(Estadisticas(
      |rows|,
      GroupCount(Column(rows, (a: Activo) => a.estado)),
      GroupCount(Column(rows, (a: Activo) => a.categoria)))))
  }

  // ---------------------------------------------------------------------
  // The writes
  // ---------------------------------------------------------------------

  /** The `activos` table. */
  class ActivoStore {
    var rows: seq<Row>
    var nextId: Uuid

    /** Keys and serial numbers are distinct, and every row is valid and fits its columns. */
    ghost predicate Valid()
      reads this
    {
      StoreInvariant(rows, nextId)
    }

    constructor ()
      ensures Valid() && rows == [] && nextId == 0
    {
      rows := [];
      nextId := 0;
    }

    /**
     * `POST /activos` and `POST /activos/crear`. `errors` is what the
     * route's chains found and `s` the body after its sanitisers. The
     * route's errors give 400; then the model's validation (400 "Error de
     * validación"); then the table: a row that does not fit its columns is
     * refused with an error the handler does not recognise (500), and a
     * serial number in use is the unique constraint (409). Otherwise the
     * row is inserted (201).
     */
    method Create(errors: seq<FieldError>, s: ActivoPayload, now: int) returns (r: Response)
      requires Valid()
      modifies this
      ensures Valid()
      ensures errors != [] ==>
        r == Response(BAD_REQUEST, RuleErrors(errors)) && rows == old(rows) && nextId == old(nextId)
      ensures errors == [] && CreateErrors(s) != [] ==>
        r == Response(BAD_REQUEST, ValidationFailed(CreateErrors(s))) && rows == old(rows) && nextId == old(nextId)
      ensures errors == [] ==> (CreateErrors(s) == [] <==> Buildable(s))
      ensures errors == [] && Buildable(s) ==>
        var a := Build(s, now);
        && (!Storable(a) ==>
              r == Response(SERVER_ERROR, Message(false, "Error al crear activo"))
              && rows == old(rows) && nextId == old(nextId))
        && (Storable(a) && IndexOf(old(rows), RowSerial, a.numeroSerie).Some? ==>
              r == Response(CONFLICT, Message(false, "El número de serie ya existe"))
              && rows == old(rows) && nextId == old(nextId))
        && (Storable(a) && IndexOf(old(rows), RowSerial, a.numeroSerie).None? ==>
              r == Response(CREATED, Saved("Activo creado exitosamente", Row(old(nextId), a)))
              && rows == old(rows) + [Row(old(nextId), a)] && nextId == old(nextId) + 1)
    {
      if errors != [] {
        return Response(BAD_REQUEST, RuleErrors(errors));
      }
      var failures := CreateErrors(s);
      if failures != [] {
        return Response(BAD_REQUEST, ValidationFailed(failures));
      }
      CreateErrorsEmptyIff(s);
      var a := Build(s, now);
      if !Storable(a) {
        return Response(SERVER_ERROR, Message(false, "Error al crear activo"));
      }
      if IndexOf(rows, RowSerial, a.numeroSerie).Some? {
        return Response(CONFLICT, Message(false, "El número de serie ya existe"));
      }
      var row := Insert(a);
      r := Response(CREATED, Saved("Activo creado exitosamente", row));
    }

    /** The `INSERT` of a valid row that fits its columns and carries an unused serial number, under the next key. */
    method Insert(a: Activo) returns (row: Row)
      requires Valid() && ActivoValid(a) && Storable(a) && IndexOf(rows, RowSerial, a.numeroSerie).None?
      modifies this
      ensures Valid()
      ensures row == Row(old(nextId), a) && rows == old(rows) + [row] && nextId == old(nextId) + 1
    {
      InvariantAfterAppend(rows, nextId, a);
      row := Row(nextId, a);
      var after := rows + [row];
      rows, nextId := after, nextId + 1;
      assert StoreInvariant(rows, nextId);
    }

    /**
     * `PUT /activos/:id`, with the route's `errors` and sanitised body `s`
     * as for `Create`: the route's errors (400), then the lookup (500 for
     * text that is not a key, 404 for an unknown key), then the model's
     * validators on the columns the body sets (400); then the table, whose
     * refusals, a serial number held by another row included, all end in
     * the catch-all 500. Otherwise the row takes the body's values (200).
     */
    method Update(id: IdParam, errors: seq<FieldError>, s: ActivoPayload) returns (r: Response)
      requires Valid()
      modifies this
      ensures Valid() && nextId == old(nextId)
      ensures errors != [] ==> r == Response(BAD_REQUEST, RuleErrors(errors)) && rows == old(rows)
      ensures errors == [] && id.NotUuid? ==>
        r == Response(SERVER_ERROR, Message(false, "Error al actualizar activo")) && rows == old(rows)
      ensures errors == [] && id.IsUuid? && IndexOf(old(rows), RowId, id.uuid).None? ==>
        r == Response(NOT_FOUND, Message(false, NO_ENCONTRADO)) && rows == old(rows)
      ensures errors == [] && id.IsUuid? && IndexOf(old(rows), RowId, id.uuid).Some? && ValidatorErrors(s) != [] ==>
        r == Response(BAD_REQUEST, ValidationFailed(ValidatorErrors(s))) && rows == old(rows)
      ensures errors == [] && id.IsUuid? && IndexOf(old(rows), RowId, id.uuid).Some? && ValidatorErrors(s) == [] ==>
        var k := IndexOf(old(rows), RowId, id.uuid).value;
        var a := Merge(old(rows)[k].activo, s);
        var owner := IndexOf(old(rows), RowSerial, a.numeroSerie);
        && (!Storable(a) || (owner.Some? && owner.value != k) ==>
              r == Response(SERVER_ERROR, Message(false, "Error al actualizar activo")) && rows == old(rows))
        && (Storable(a) && (owner.None? || owner.value == k) ==>
              r == Response(OK, Saved("Activo actualizado exitosamente", Row(id.uuid, a)))
              && rows == old(rows)[k := Row(id.uuid, a)])
    {
      if errors != [] {
        return Response(BAD_REQUEST, RuleErrors(errors));
      }
      if id.NotUuid? {
        return Response(SERVER_ERROR, Message(false, "Error al actualizar activo"));
      }
      var k := IndexOf(rows, RowId, id.uuid);
      if k.None? {
        return Response(NOT_FOUND, Message(false, NO_ENCONTRADO));
      }
      var failures := ValidatorErrors(s);
      if failures != [] {
        return Response(BAD_REQUEST, ValidationFailed(failures));
      }
      var a := Merge(rows[k.value].activo, s);
      var owner := IndexOf(rows, RowSerial, a.numeroSerie);
      if !Storable(a) || (owner.Some? && owner.value != k.value) {
        return Response(SERVER_ERROR, Message(false, "Error al actualizar activo"));
      }
      ValidAfterMerge(rows, nextId, k.value, s);
      Put(k.value, a);
      r := Response(OK, Saved("Activo actualizado exitosamente", Row(id.uuid, a)));
    }

    /** Row `k` takes the values `a`, keeping its key. */
    method Put(k: nat, a: Activo)
      requires Valid() && k < |rows| && ActivoValid(a) && Storable(a)
      requires IndexOf(rows, RowSerial, a.numeroSerie).None? || IndexOf(rows, RowSerial, a.numeroSerie) == Some(k)
      modifies this
      ensures Valid() && nextId == old(nextId)
      ensures rows == old(rows)[k := Row(old(rows)[k].id, a)]
    {
      var after := rows[k := Row(rows[k].id, a)];
      InvariantAfterReplace(rows, nextId, k, a);
      rows := after;
      assert StoreInvariant(rows, nextId);
    }

    /** `DELETE /activos/:id`: 500 for text that is not a key, 404 for an unknown key, else the row is removed (200). */
    method Delete(id: IdParam) returns (r: Response)
      requires Valid()
      modifies this
      ensures Valid() && nextId == old(nextId)
      ensures id.NotUuid? ==>
        r == Response(SERVER_ERROR, Message(false, "Error al eliminar activo")) && rows == old(rows)
      ensures id.IsUuid? && IndexOf(old(rows), RowId, id.uuid).None? ==>
        r == Response(NOT_FOUND, Message(false, NO_ENCONTRADO)) && rows == old(rows)
      ensures id.IsUuid? && IndexOf(old(rows), RowId, id.uuid).Some? ==>
        && r == Response(OK, Message(true, "Activo eliminado exitosamente"))
        && rows == RemoveAt(old(rows), IndexOf(old(rows), RowId, id.uuid).value)
      ensures id.IsUuid? ==> forall i :: 0 <= i < |rows| ==> rows[i].id != id.uuid
    {
      if id.NotUuid? {
        return Response(SERVER_ERROR, Message(false, "Error al eliminar activo"));
      }
      var k := IndexOf(rows, RowId, id.uuid);
      if k.None? {
        return Response(NOT_FOUND, Message(false, NO_ENCONTRADO));
      }
      var after := RemoveAt(rows, k.value);
      InvariantAfterRemove(rows, nextId, k.value);
      rows := after;
      assert StoreInvariant(rows, nextId);
      r := Response(OK, Message(true, "Activo eliminado exitosamente"));
    }
  }

  // ---------------------------------------------------------------------
  // What the handlers promise, across calls
  // ---------------------------------------------------------------------

  /** A listed page holds rows of the table that the filter accepts, newest first. */
  lemma GetAllRowsMatch(rows: seq<Row>, q: ListQuery)
    ensures var r := GetAll(rows, q);
      r.status == OK ==>
        && SortedDesc(r.reply.data, CreatedKey)
        && forall k :: 0 <= k < |r.reply.data| ==> r.reply.data[k] in rows && Matches(q.filtro, r.reply.data[k].activo)
  {
    var r := GetAll(rows, q);
    if r.status == OK && q.limit.GetOr(10) != 0 {
      var sorted := SortDesc(Filter(rows, MatchesFiltro(q.filtro)), CreatedKey);
      var skip := Skip(q.page.GetOr(1), q.limit.GetOr(10));
      assert r.reply.data == SkipLimit(sorted, skip, q.limit.GetOr(10));
      SkipLimitSorted(sorted, skip, q.limit.GetOr(10), CreatedKey);
      WindowMembers(rows, MatchesFiltro(q.filtro), CreatedKey, skip, q.limit.GetOr(10));
      var data := r.reply.data;
      forall k | 0 <= k < |data| ensures data[k] in rows && Matches(q.filtro, data[k].activo) {
        assert data[k] in data;
        assert MatchesFiltro(q.filtro)(data[k]);
      }
    }
  }

  /**
   * Paging through the list with any positive `limit` shows every row the
   * filter accepts: it is on page `i / limit + 1`, where `i` is its
   * position in the ordered result. A stored row's state is one of the
   * enumerated type's values, so a filter it passes is one the database
   * accepts.
   */
  lemma EveryMatchOnSomePage(rows: seq<Row>, q: ListQuery, row: Row, limit: nat)
    requires limit >= 1 && row in rows && Matches(q.filtro, row.activo) && row.activo.estado in ESTADOS_ACTIVO
    ensures exists page: nat ::
      && page >= 1
      && GetAll(rows, q.(page := Some(page), limit := Some(limit))).status == OK
      && row in GetAll(rows, q.(page := Some(page), limit := Some(limit))).reply.data
  {
    var sorted := SortDesc(Filter(rows, MatchesFiltro(q.filtro)), CreatedKey);
    MatchIsSorted(rows, q.filtro, row);
    var i :| 0 <= i < |sorted| && sorted[i] == row;
    var page := PageOfRow(sorted, limit, i);
    ListedPage(rows, q, page, limit);
  }

  /** A stored row the filter accepts is in the ordered result. */
  lemma MatchIsSorted(rows: seq<Row>, f: Filtro, row: Row)
    requires row in rows && Matches(f, row.activo)
    ensures row in SortDesc(Filter(rows, MatchesFiltro(f)), CreatedKey)
  {
    var matching := Filter(rows, MatchesFiltro(f));
    FilterMembers(rows, MatchesFiltro(f));
    assert MatchesFiltro(f)(row);
    assert row in multiset(matching);
    assert row in multiset(SortDesc(matching, CreatedKey));
  }

  /** With a positive page and limit, the list is that window of the ordered result. */
  lemma ListedPage(rows: seq<Row>, q: ListQuery, page: nat, limit: nat)
    requires page >= 1 && limit >= 1 && EstadoFilterKnown(q.filtro)
    ensures var r := GetAll(rows, q.(page := Some(page), limit := Some(limit)));
      && r.status == OK
      && r.reply.data == SkipLimit(SortDesc(Filter(rows, MatchesFiltro(q.filtro)), CreatedKey), Skip(page, limit), limit)
  {
    assert Skip(page, limit) >= 0;
  }

  /**
   * A search returns rows of the table the pattern matches; when at most 20
   * rows match, it returns every one of them.
   */
  lemma SearchRowsMatch(rows: seq<Row>, q: string)
    requires Trim(q) != ""
    ensures var found := Search(rows, Some(q)).reply.results;
      && (forall x :: x in found ==> x in rows && SearchHit(q, x.activo))
      && (|Filter(rows, SearchFor(q))| <= SEARCH_LIMIT ==>
            forall x :: x in rows && SearchHit(q, x.activo) ==> x in found)
  {
    var hits := Filter(rows, SearchFor(q));
    var sorted := SortDesc(hits, CreatedKey);
    var found := Search(rows, Some(q)).reply.results;
    assert found == SkipLimit(sorted, 0, SEARCH_LIMIT);
    WindowMembers(rows, SearchFor(q), CreatedKey, 0, SEARCH_LIMIT);
    FilterMembers(rows, SearchFor(q));
    forall x | x in found ensures x in rows && SearchHit(q, x.activo) {
      assert SearchFor(q)(x);
    }
    if |hits| <= SEARCH_LIMIT {
      assert found == sorted;
      forall x | x in rows && SearchHit(q, x.activo) ensures x in found {
        assert SearchFor(q)(x);
        assert x in multiset(hits);
        assert x in multiset(sorted);
      }
    }
  }

  /**
   * A search returns the newest hits: as many as there are, up to 20, and
   * no hit it leaves out is newer than a row it returns.
   */
  lemma SearchReturnsNewest(rows: seq<Row>, q: string)
    requires Trim(q) != ""
    ensures var found := Search(rows, Some(q)).reply.results;
      && |found| == Min(|Filter(rows, SearchFor(q))|, SEARCH_LIMIT)
      && forall x, y :: x in rows && SearchHit(q, x.activo) && x !in found && y in found ==>
           x.activo.createdAt <= y.activo.createdAt
  {
    var hits := Filter(rows, SearchFor(q));
    var sorted := SortDesc(hits, CreatedKey);
    var found := Search(rows, Some(q)).reply.results;
    assert found == SkipLimit(sorted, 0, SEARCH_LIMIT);
    assert |sorted| == |multiset(sorted)| == |multiset(hits)| == |hits|;
    FilterMembers(rows, SearchFor(q));
    forall x, y | x in rows && SearchHit(q, x.activo) && x !in found && y in found
      ensures x.activo.createdAt <= y.activo.createdAt
    {
      assert SearchFor(q)(x);
      assert x in multiset(sorted);
      FirstWindowNewest(sorted, SEARCH_LIMIT, CreatedKey, x, y);
    }
  }

  /**
   * For search text free of `%`, `_` and the backslash, a row is a hit
   * exactly when one of its four searched columns contains the text,
   * ignoring case.
   */
  lemma LiteralSearchIsSubstring(q: string, a: Activo)
    requires Literal(q)
    ensures SearchHit(q, a) <==>
      || Contains(Lower(a.nombre), Lower(q))
      || (a.descripcion.Some? && Contains(Lower(a.descripcion.value), Lower(q)))
      || Contains(Lower(a.numeroSerie), Lower(q))
      || Contains(Lower(a.ubicacion), Lower(q))
  {
    LiteralILikeContainsIgnoreCase(q, a.nombre);
    if a.descripcion.Some? {
      LiteralILikeContainsIgnoreCase(q, a.descripcion.value);
    }
    LiteralILikeContainsIgnoreCase(q, a.numeroSerie);
    LiteralILikeContainsIgnoreCase(q, a.ubicacion);
  }

  /**
   * The search text reaches `ILIKE` unescaped: `_` is a wildcard there, so
   * searching for "_" (which is not blank) finds every stored row, since
   * every stored name has at least three characters.
   */
  lemma UnderscoreMatchesEveryRow(a: Activo)
    requires ActivoValid(a)
    ensures SearchHit("_", a) && ListSearchHit("_", a)
  {
    AnyCharacterLike(a.nombre);
  }

  /**
   * The statistics agree with each other: each grouping's counts add up to
   * `total`, and its keys are states and categories the model allows.
   */
  lemma EstadisticasConsistent(rows: seq<Row>, nextId: Uuid)
    requires StoreInvariant(rows, nextId)
    ensures var s := GetEstadisticas(rows).reply.estadisticas;
      && SumCantidad(s.porEstado) == s.total
      && SumCantidad(s.porCategoria) == s.total
      && (forall i :: 0 <= i < |s.porEstado| ==> s.porEstado[i].key in ESTADOS_ACTIVO)
      && (forall i :: 0 <= i < |s.porCategoria| ==> s.porCategoria[i].key in CATEGORIAS)
  {
    var estados := Column(rows, (a: Activo) => a.estado);
    var categorias := Column(rows, (a: Activo) => a.categoria);
    GroupCountSum(estados);
    GroupCountSum(categorias);
    forall j | 0 <= j < |rows| ensures estados[j] in ESTADOS_ACTIVO && categorias[j] in CATEGORIAS {
      assert RowFits(rows[j], nextId);
    }
    GroupKeysAllowed(estados, ESTADOS_ACTIVO);
    GroupKeysAllowed(categorias, CATEGORIAS);
  }

  /** Grouping values drawn from `allowed` gives keys drawn from `allowed`. */
  lemma GroupKeysAllowed(column: seq<string>, allowed: seq<string>)
    requires forall j :: 0 <= j < |column| ==> column[j] in allowed
    ensures forall i :: 0 <= i < |GroupCount(column)| ==> GroupCount(column)[i].key in allowed
  {
    var g := GroupCount(column);
    forall i | 0 <= i < |g| ensures g[i].key in allowed {
      assert g[i].key in column;
    }
  }

  /** The row a create inserts is found under the key it was given. */
  lemma CreatedFound(rows: seq<Row>, nextId: Uuid, a: Activo)
    requires StoreInvariant(rows, nextId)
    ensures GetById(rows + [Row(nextId, a)], IsUuid(nextId)) == Response(OK, Found(Row(nextId, a)))
  {
    var after := rows + [Row(nextId, a)];
    forall i | 0 <= i < |rows| ensures after[i].id != nextId {
      assert RowFits(rows[i], nextId);
    }
    OnlyLastHasKey(after, nextId);
  }

  /** When only the last row has key `id`, the lookup finds that row. */
  lemma OnlyLastHasKey(xs: seq<Row>, id: Uuid)
    requires xs != [] && xs[|xs| - 1].id == id
    requires forall i :: 0 <= i < |xs| - 1 ==> xs[i].id != id
    ensures GetById(xs, IsUuid(id)) == Response(OK, Found(xs[|xs| - 1]))
  {
    assert exists i :: 0 <= i < |xs| && xs[i].id == id by {
      assert xs[|xs| - 1].id == id;
    }
  }

  /** After a delete, looking the key up answers 404. */
  lemma DeletedNotFound(rows: seq<Row>, nextId: Uuid, k: nat)
    requires StoreInvariant(rows, nextId) && k < |rows|
    ensures GetById(RemoveAt(rows, k), IsUuid(rows[k].id)) == Response(NOT_FOUND, Message(false, NO_ENCONTRADO))
  {
    InvariantAfterRemove(rows, nextId, k);
  }
}

=== FILE: activo_model.dfy ===
/**
 * The asset ("activo") of servicio-activos: the row of the `activos` table,
 * the validators the model runs before it writes a row, and what the table
 * itself refuses (a value too long or too large for its column, a state
 * outside its enumerated type, a serial number already in use).
 */
module ActivoModel {

  import opened Wrappers
  import opened Text
  import opened Http

  const CATEGORIAS: seq<string> :=
    ["electronico", "maquinaria", "vehiculo", "mobiliario", "equipo_computo", "herramienta", "otro"]
  const ESTADOS_ACTIVO: seq<string> := ["activo", "inactivo", "en_reparacion", "dado_de_baja"]
  const ESTADO_INICIAL := "activo"
  const NOMBRE_MIN := 3
  const NOMBRE_MAX := 100
  const NUMERO_SERIE_MAX := 50
  const CATEGORIA_MAX := 50
  const UBICACION_MAX := 100
  /** `DECIMAL(10, 2)`: the least amount that, rounded to cents, needs more than ten digits. */
  const COSTO_TOPE: real := 99999999.995

  /** A row of the `activos` table; `createdAt` is the instant the row was inserted. */
  datatype Activo = Activo(
    nombre: string,
    descripcion: Option<string>,
    numeroSerie: string,
    categoria: string,
    fechaAdquisicion: int,
    costo: real,
    ubicacion: string,
    estado: string,
    createdAt: int)

  /** The fields of a request body the model knows; `None` is an absent field. */
  datatype ActivoPayload = ActivoPayload(
    nombre: Option<string>,
    descripcion: Option<string>,
    numeroSerie: Option<string>,
    categoria: Option<string>,
    fechaAdquisicion: Option<DateInput>,
    costo: Option<Num>,
    ubicacion: Option<string>,
    estado: Option<string>)

  // ---------------------------------------------------------------------
  // The model's validation
  // ---------------------------------------------------------------------

  /** The model's `notEmpty` refuses text that matches `^\s*$`: text made of white space only. */
  predicate Blank(s: string) {
    AllSpace(s)
  }

  /** `allowNull: false`: the error for a required column with no value. */
  function NotNull(present: bool, field: string): (r: seq<FieldError>)
    ensures r == [] <==> present
  {
    When(!present, field, "Activo." + field + " cannot be null")
  }

  /**
   * The required columns the body leaves without a value. `estado` is not
   * among them: a new row takes its default, an updated row keeps its value.
   */
  function NotNullErrors(p: ActivoPayload): (r: seq<FieldError>)
    ensures r == [] <==>
      && p.nombre.Some? && p.numeroSerie.Some? && p.categoria.Some?
      && p.fechaAdquisicion.Some? && p.costo.Some? && p.ubicacion.Some?
  {
    NotNull(p.nombre.Some?, "nombre") + NotNull(p.numeroSerie.Some?, "numero_serie")
    + NotNull(p.categoria.Some?, "categoria") + NotNull(p.fechaAdquisicion.Some?, "fecha_adquisicion")
    + NotNull(p.costo.Some?, "costo") + NotNull(p.ubicacion.Some?, "ubicacion")
  }

  function NombreValidators(n: string): (r: seq<FieldError>)
    ensures r == [] <==> !Blank(n) && NOMBRE_MIN <= |n| <= NOMBRE_MAX
  {
    When(Blank(n), "nombre", "El nombre es requerido")
    + When(!(NOMBRE_MIN <= |n| <= NOMBRE_MAX), "nombre", "El nombre debe tener entre 3 y 100 caracteres")
  }

  /** No category is blank. */
  lemma CategoriasNotBlank()
    ensures forall c :: c in CATEGORIAS ==> !Blank(c)
  {
    forall c | c in CATEGORIAS ensures !Blank(c) {
      TrimUntouched(c);
    }
  }

  function CategoriaValidators(c: string): (r: seq<FieldError>)
    ensures r == [] <==> c in CATEGORIAS
  {
    CategoriasNotBlank();
    When(Blank(c), "categoria", "La categoría es requerida")
    + When(c !in CATEGORIAS, "categoria", "Categoría no válida")
  }

  function FechaValidators(d: DateInput): (r: seq<FieldError>)
    ensures r == [] <==> IsDate(d)
  {
    When(!IsDate(d), "fecha_adquisicion", "Debe ser una fecha válida")
    + When(Blank(d.raw), "fecha_adquisicion", "La fecha de adquisición es requerida")
  }

  /**
   * `isDecimal` and `min: 0`. The model's `min` lets through a value that
   * does not read as a number; only a number below zero fails it.
   */
  function CostoValidators(c: Num): (r: seq<FieldError>)
    ensures r == [] <==> IsNonNegativeFloat(c)
  {
    When(c.NonNumeric?, "costo", "El costo debe ser un número decimal")
    + When(c.Number? && c.value < 0.0, "costo", "El costo debe ser mayor o igual a 0")
  }

  /** A validator list applied to a column that may have no value: a column without one is skipped. */
  function IfPresent<T>(v: Option<T>, validators: T -> seq<FieldError>): (r: seq<FieldError>)
    ensures r == [] <==> (v.Some? ==> validators(v.value) == [])
  {
    if v.Some? then validators(v.value) else []
  }

  /** A column whose only validator is `notEmpty`, reporting `message` on `field` when the text is blank. */
  function RequiredText(field: string, message: string, t: string): (r: seq<FieldError>)
    ensures r == [] <==> !Blank(t)
    ensures r != [] ==> r == [FieldError(field, message)]
  {
    When(Blank(t), field, message)
  }

  /**
   * The attribute validators, column by column, for the columns that have a
   * value (`NotNullErrors` reports the others).
   */
  function ValidatorErrors(p: ActivoPayload): (r: seq<FieldError>)
    ensures r == [] <==> ValidatorsPass(p)
  {
    IfPresent(p.nombre, NombreValidators)
    + IfPresent(p.numeroSerie, t => RequiredText("numero_serie", "El número de serie es requerido", t))
    + IfPresent(p.categoria, CategoriaValidators)
    + IfPresent(p.fechaAdquisicion, FechaValidators)
    + IfPresent(p.costo, CostoValidators)
    + IfPresent(p.ubicacion, t => RequiredText("ubicacion", "La ubicación es requerida", t))
  }

  /** The columns the body gives a value pass their validators. */
  predicate ValidatorsPass(p: ActivoPayload) {
    && (p.nombre.Some? ==> !Blank(p.nombre.value) && NOMBRE_MIN <= |p.nombre.value| <= NOMBRE_MAX)
    && (p.numeroSerie.Some? ==> !Blank(p.numeroSerie.value))
    && (p.categoria.Some? ==> p.categoria.value in CATEGORIAS)
    && (p.fechaAdquisicion.Some? ==> IsDate(p.fechaAdquisicion.value))
    && (p.costo.Some? ==> IsNonNegativeFloat(p.costo.value))
    && (p.ubicacion.Some? ==> !Blank(p.ubicacion.value))
  }

  /**
   * The validation before an insert: first every required column without a
   * value, then the validators' findings, column by column (the null checks
   * are reported as the columns are visited, the validators only once they
   * have all run).
   */
  function CreateErrors(p: ActivoPayload): seq<FieldError> {
    NotNullErrors(p) + ValidatorErrors(p)
  }

  /** The model accepts a new row exactly when every required column has a value that passes its validators. */
  lemma CreateErrorsEmptyIff(p: ActivoPayload)
    ensures CreateErrors(p) == [] <==> Buildable(p)
  {
  }

  /** What a body must hold for the model to insert it. */
  predicate Buildable(p: ActivoPayload) {
    && p.nombre.Some? && p.numeroSerie.Some? && p.categoria.Some?
    && p.fechaAdquisicion.Some? && p.costo.Some? && p.ubicacion.Some?
    && ValidatorsPass(p)
  }

  /** The row a body the model accepts becomes, inserted at instant `now`; `estado` defaults to "activo". */
  function Build(p: ActivoPayload, now: int): (a: Activo)
    requires Buildable(p)
    ensures a.estado == p.estado.GetOr(ESTADO_INICIAL) && a.createdAt == now
    ensures ActivoValid(a)
  {
    Activo(p.nombre.value, p.descripcion, p.numeroSerie.value, p.categoria.value,
           p.fechaAdquisicion.value.time.value, p.costo.value.value, p.ubicacion.value,
           p.estado.GetOr(ESTADO_INICIAL), now)
  }

  /**
   * `update(body)`: the body's columns are set over the row's and the others
   * keep their values, `createdAt` included. Only the columns the body
   * gives are validated (`ValidatorErrors`).
   */
  function Merge(a: Activo, p: ActivoPayload): (r: Activo)
    requires ValidatorsPass(p)
    ensures r.createdAt == a.createdAt
    ensures p.nombre.None? ==> r.nombre == a.nombre
    ensures p.descripcion.None? ==> r.descripcion == a.descripcion
    ensures p.numeroSerie.None? ==> r.numeroSerie == a.numeroSerie
    ensures p.categoria.None? ==> r.categoria == a.categoria
    ensures p.fechaAdquisicion.None? ==> r.fechaAdquisicion == a.fechaAdquisicion
    ensures p.costo.None? ==> r.costo == a.costo
    ensures p.ubicacion.None? ==> r.ubicacion == a.ubicacion
    ensures p.estado.None? ==> r.estado == a.estado
    ensures ActivoValid(a) ==> ActivoValid(r)
  {
    Activo(
      p.nombre.GetOr(a.nombre),
      if p.descripcion.Some? then p.descripcion else a.descripcion,
      p.numeroSerie.GetOr(a.numeroSerie),
      p.categoria.GetOr(a.categoria),
      if p.fechaAdquisicion.Some? then p.fechaAdquisicion.value.time.value else a.fechaAdquisicion,
      if p.costo.Some? then p.costo.value.value else a.costo,
      p.ubicacion.GetOr(a.ubicacion),
      p.estado.GetOr(a.estado),
      a.createdAt)
  }

  /** A row whose every column passes the model's validators. */
  predicate ActivoValid(a: Activo) {
    && !Blank(a.nombre) && NOMBRE_MIN <= |a.nombre| <= NOMBRE_MAX
    && !Blank(a.numeroSerie)
    && a.categoria in CATEGORIAS
    && a.costo >= 0.0
    && !Blank(a.ubicacion)
  }

  // ---------------------------------------------------------------------
  // What the table refuses
  // ---------------------------------------------------------------------

  /**
   * The row fits the table's column types: strings within their declared
   * lengths, the cost within `DECIMAL(10, 2)`, the state one of the
   * enumerated type's values. The database refuses any other row with an
   * error the model does not report as a validation failure.
   */
  predicate Storable(a: Activo) {
    && |a.nombre| <= NOMBRE_MAX
    && |a.numeroSerie| <= NUMERO_SERIE_MAX
    && |a.categoria| <= CATEGORIA_MAX
    && |a.ubicacion| <= UBICACION_MAX
    && a.costo < COSTO_TOPE
    && a.estado in ESTADOS_ACTIVO
  }

  /**
   * A row built from a body the model accepts fits the table exactly when
   * its serial number, location, cost and state do: the validators already
   * bound the name's length and the category.
   */
  lemma StorableIff(p: ActivoPayload, now: int)
    requires Buildable(p)
    ensures Storable(Build(p, now)) <==>
      && |p.numeroSerie.value| <= NUMERO_SERIE_MAX
      && |p.ubicacion.value| <= UBICACION_MAX
      && p.costo.value.value < COSTO_TOPE
      && p.estado.GetOr(ESTADO_INICIAL) in ESTADOS_ACTIVO
  {
    CategoriaFits(p.categoria.value);
  }

  /** Every category fits the `categoria` column. */
  lemma CategoriaFits(c: string)
    requires c in CATEGORIAS
    ensures |c| <= CATEGORIA_MAX
  {
    var i :| 0 <= i < |CATEGORIAS| && CATEGORIAS[i] == c;
    assert |CATEGORIAS[i]| <= 14;
  }
}

=== FILE: activo_routes.dfy ===
/**
 * The validation chain in front of the asset writes (`POST /activos`,
 * `POST /activos/crear`, `PUT /activos/:id`): its sanitisers, its
 * validators in chain order, and what a body it lets through means for the
 * model and the table behind it.
 */
module ActivoRoutes {

  import opened Wrappers
  import opened Text
  import opened Http
  import opened ActivoModel

  /** The body after the chain's `trim()` sanitisers on `nombre`, `descripcion`, `numero_serie` and `ubicacion`. */
  function Sanitize(b: ActivoPayload): (r: ActivoPayload)
    ensures r.categoria == b.categoria && r.fechaAdquisicion == b.fechaAdquisicion
    ensures r.costo == b.costo && r.estado == b.estado
  {
    b.(nombre := TrimOpt(b.nombre), descripcion := TrimOpt(b.descripcion),
       numeroSerie := TrimOpt(b.numeroSerie), ubicacion := TrimOpt(b.ubicacion))
  }

  /** Sanitising a sanitised body changes nothing more. */
  lemma SanitizeIdempotent(b: ActivoPayload)
    ensures Sanitize(Sanitize(b)) == Sanitize(b)
  {
    forall s: Option<string> ensures TrimOpt(TrimOpt(s)) == TrimOpt(s) {
      if s.Some? { TrimIdempotent(s.value); }
    }
  }

  // ---------------------------------------------------------------------
  // Validators
  // ---------------------------------------------------------------------

  /** `nombre`: `.trim().notEmpty().isLength({min: 3, max: 100})`. */
  function NombreErrors(b: ActivoPayload): (r: seq<FieldError>)
    ensures r == [] <==> b.nombre.Some? && NOMBRE_MIN <= |Trim(b.nombre.value)| <= NOMBRE_MAX
  {
    var n := Shown(TrimOpt(b.nombre));
    When(n == "", "nombre", "El nombre es requerido")
    + When(!(NOMBRE_MIN <= |n| <= NOMBRE_MAX), "nombre", "El nombre debe tener entre 3 y 100 caracteres")
  }

  /** `.trim().notEmpty()`. */
  function TrimmedRequired(field: string, v: Option<string>, message: string): (r: seq<FieldError>)
    ensures r == [] <==> v.Some? && Trim(v.value) != ""
  {
    When(Shown(TrimOpt(v)) == "", field, message)
  }

  /** `categoria`: `.notEmpty().isIn(...)`, with no trimming. */
  function CategoriaErrors(b: ActivoPayload): (r: seq<FieldError>)
    ensures r == [] <==> b.categoria.Some? && b.categoria.value in CATEGORIAS
  {
    When(Shown(b.categoria) == "", "categoria", "La categoría es requerida")
    + When(Shown(b.categoria) !in CATEGORIAS, "categoria", "Categoría no válida")
  }

  /** `fecha_adquisicion`: `.notEmpty().isDate()`. */
  function FechaErrors(b: ActivoPayload): (r: seq<FieldError>)
    ensures r == [] <==> b.fechaAdquisicion.Some? && IsDate(b.fechaAdquisicion.value)
  {
    var d := b.fechaAdquisicion;
    When(d.None? || d.value.raw == "", "fecha_adquisicion", "La fecha de adquisición es requerida")
    + When(d.None? || !IsDate(d.value), "fecha_adquisicion", "Debe ser una fecha válida")
  }

  /** The chains of the route, in the order they are declared, over the raw body. */
  function ValidationErrors(b: ActivoPayload): seq<FieldError> {
    NombreErrors(b)
    + TrimmedRequired("numero_serie", b.numeroSerie, "El número de serie es requerido")
    + CategoriaErrors(b)
    + FechaErrors(b)
    + RequiredAmount("costo", b.costo, "El costo es requerido", "El costo debe ser un número mayor o igual a 0")
    + TrimmedRequired("ubicacion", b.ubicacion, "La ubicación es requerida")
    + OptionalIn("estado", b.estado, ESTADOS_ACTIVO, "Estado no válido")
  }

  /** What a body must be for the route to let it through; `descripcion` is free. */
  predicate ValidBody(b: ActivoPayload) {
    && b.nombre.Some? && NOMBRE_MIN <= |Trim(b.nombre.value)| <= NOMBRE_MAX
    && b.numeroSerie.Some? && Trim(b.numeroSerie.value) != ""
    && b.categoria.Some? && b.categoria.value in CATEGORIAS
    && b.fechaAdquisicion.Some? && IsDate(b.fechaAdquisicion.value)
    && b.costo.Some? && IsNonNegativeFloat(b.costo.value)
    && b.ubicacion.Some? && Trim(b.ubicacion.value) != ""
    && (b.estado.Some? ==> b.estado.value in ESTADOS_ACTIVO)
  }

  /** The route reports no error exactly when the body is one it accepts. */
  lemma ValidationErrorsEmptyIff(b: ActivoPayload)
    ensures ValidationErrors(b) == [] <==> ValidBody(b)
  {
  }

  /** The routes of the asset service. */
  datatype ActivoRoute =
    | List | Search | Estadisticas | GetOne | Create | CreateAlt | Update | Delete

  /** The three write routes run the chain; the others run none. */
  function RouteErrors(route: ActivoRoute, b: ActivoPayload): (r: seq<FieldError>)
    ensures route in {Create, CreateAlt, Update} ==> (r == [] <==> ValidBody(b))
    ensures route !in {Create, CreateAlt, Update} ==> r == []
  {
    ValidationErrorsEmptyIff(b);
    if route == Create || route == CreateAlt || route == Update then ValidationErrors(b) else []
  }

  // ---------------------------------------------------------------------
  // From the route to the model and the table
  // ---------------------------------------------------------------------

  /** A trimmed value that is not "" is not blank to the model either. */
  lemma TrimmedNotBlank(s: string)
    requires Trim(s) != ""
    ensures !Blank(Trim(s))
  {
    TrimIdempotent(s);
  }

  /**
   * A body the route accepts, sanitised, passes the model's validation, for
   * an insert as for an update: every validator of the model is implied by
   * one of the chain's.
   */
  lemma RouteAcceptedModelAccepts(b: ActivoPayload)
    requires ValidBody(b)
    ensures Buildable(Sanitize(b))
    ensures CreateErrors(Sanitize(b)) == [] && ValidatorErrors(Sanitize(b)) == []
  {
    TrimmedNotBlank(b.nombre.value);
    TrimmedNotBlank(b.numeroSerie.value);
    TrimmedNotBlank(b.ubicacion.value);
    CreateErrorsEmptyIff(Sanitize(b));
  }

  /**
   * The chain does not bound the lengths of `numero_serie` and `ubicacion`
   * nor the size of `costo`: a body it accepts still reaches a row the
   * table refuses exactly when one of those is too long or too large.
   */
  lemma RouteAcceptedStorableIff(b: ActivoPayload, now: int)
    requires ValidBody(b)
    ensures Buildable(Sanitize(b))
    ensures Storable(Build(Sanitize(b), now)) <==>
      && |Trim(b.numeroSerie.value)| <= NUMERO_SERIE_MAX
      && |Trim(b.ubicacion.value)| <= UBICACION_MAX
      && b.costo.value.value < COSTO_TOPE
  {
    RouteAcceptedModelAccepts(b);
    StorableIff(Sanitize(b), now);
  }
}

=== FILE: aggregation.dfy ===
/**
 * Group-by counting, as the statistics handlers ask of their stores
 * (`$group: {_id: "$field", cantidad: {$sum: 1}}` on the document store,
 * `GROUP BY field` with `COUNT(id)` on the relational one): one group per
 * distinct value, with the number of rows that carry it.
 */
module Aggregation {

  /** How many times `v` occurs in `xs`. */
  function Count<T(==,!new)>(xs: seq<T>, v: T): nat {
    if xs == [] then 0
    else Count(xs[..|xs| - 1], v) + (if xs[|xs| - 1] == v then 1 else 0)
  }

  /** No value occurs twice. */
  ghost predicate NoDuplicates<T>(xs: seq<T>) {
    forall i, j :: 0 <= i < j < |xs| ==> xs[i] != xs[j]
  }

  /** The distinct values of `xs`, in order of first appearance. */
  function Distinct<T(==,!new)>(xs: seq<T>): (ks: seq<T>)
    ensures NoDuplicates(ks)
    ensures forall k :: k in ks <==> k in xs
  {
    if xs == [] then []
    else
      var d := Distinct(xs[..|xs| - 1]);
      assert xs == xs[..|xs| - 1] + [xs[|xs| - 1]];
      if xs[|xs| - 1] in d then d else d + [xs[|xs| - 1]]
  }

  /** One row of a group-by result: `{_id: key, cantidad}`. */
  datatype Group<T> = Group(key: T, cantidad: nat)

  /** The group of each key in `keys`, counted over `xs`. */
  function Tally<T(==,!new)>(keys: seq<T>, xs: seq<T>): (g: seq<Group<T>>)
    ensures |g| == |keys|
    ensures forall i :: 0 <= i < |g| ==> g[i].key == keys[i] && g[i].cantidad == Count(xs, keys[i])
  {
    if keys == [] then []
    else Tally(keys[..|keys| - 1], xs) + [Group(keys[|keys| - 1], Count(xs, keys[|keys| - 1]))]
  }

  /**
   * The group-by of `xs`: every value of `xs` has exactly one group, no group
   * is empty, and each group counts the rows that carry its key.
   */
  function GroupCount<T(==,!new)>(xs: seq<T>): (g: seq<Group<T>>)
    ensures forall i, j :: 0 <= i < j < |g| ==> g[i].key != g[j].key
    ensures forall v :: v in xs <==> exists i :: 0 <= i < |g| && g[i].key == v
    ensures forall i :: 0 <= i < |g| ==> 0 < g[i].cantidad == Count(xs, g[i].key)
  {
    var keys := Distinct(xs);
    var g := Tally(keys, xs);
    forall i | 0 <= i < |g| ensures g[i].cantidad > 0 {
      assert keys[i] in xs;
      CountPositive(xs, keys[i]);
    }
    forall v | v in xs ensures exists i :: 0 <= i < |g| && g[i].key == v {
      var i :| 0 <= i < |keys| && keys[i] == v;
      assert g[i].key == v;
    }
    g
  }

  /** The sum of the `cantidad` fields. */
  function SumCantidad<T>(g: seq<Group<T>>): nat {
    if g == [] then 0 else SumCantidad(g[..|g| - 1]) + g[|g| - 1].cantidad
  }

  lemma {:induction false} CountPositive<T(!new)>(xs: seq<T>, v: T)
    ensures v in xs <==> Count(xs, v) > 0
  {
    if xs != [] {
      CountPositive(xs[..|xs| - 1], v);
      assert xs == xs[..|xs| - 1] + [xs[|xs| - 1]];
    }
  }

  /** In a sequence without duplicates a member occurs exactly once. */
  lemma {:induction false} CountInDistinct<T(!new)>(ks: seq<T>, v: T)
    requires NoDuplicates(ks)
    ensures Count(ks, v) == if v in ks then 1 else 0
  {
    if ks != [] {
      var init := ks[..|ks| - 1];
      CountInDistinct(init, v);
      CountPositive(init, v);
      assert ks == init + [ks[|ks| - 1]];
    }
  }

  /** Appending one row `x` adds one to the total of the groups whose key is `x`. */
  lemma {:induction false} TallyAppend<T(!new)>(keys: seq<T>, xs: seq<T>, x: T)
    ensures SumCantidad(Tally(keys, xs + [x])) == SumCantidad(Tally(keys, xs)) + Count(keys, x)
  {
    if keys != [] {
      var init := keys[..|keys| - 1];
      TallyAppend(init, xs, x);
      assert (xs + [x])[..|xs|] == xs;
      var t := Tally(keys, xs + [x]);
      assert t[..|t| - 1] == Tally(init, xs + [x]);
      var u := Tally(keys, xs);
      assert u[..|u| - 1] == Tally(init, xs);
    }
  }

  /** The group counts add up to the number of rows: `total` equals the sum over any group-by. */
  lemma {:induction false} GroupCountSum<T(!new)>(xs: seq<T>)
    ensures SumCantidad(GroupCount(xs)) == |xs|
  {
    if xs != [] {
      var init, x := xs[..|xs| - 1], xs[|xs| - 1];
      assert xs == init + [x];
      GroupCountSum(init);
      var d := Distinct(init);
      TallyAppend(d, init, x);
      CountInDistinct(d, x);
      if x !in d {
        var t := Tally(d + [x], xs);
        assert t[..|t| - 1] == Tally(d, xs);
        CountPositive(init, x);
        assert Count(xs, x) == Count(init, x) + 1;
      }
    }
  }
}

=== FILE: breadcrumbs.dfy ===
/**
 * The frontend's breadcrumb trail: the pathname cut into segments, one
 * crumb per segment after the home crumb, each linking to the path up to
 * its segment and named after it, and nothing shown on the home page.
 */
module Breadcrumbs {

  import opened Wrappers
  import opened Text

  // ---------------------------------------------------------------------
  // Segments and the paths they spell
  // ---------------------------------------------------------------------

  /** A piece of a path between slashes that is not empty. */
  predicate IsSegment(seg: string) {
    seg != [] && '/' !in seg
  }

  /** `pathname.split('/').filter(Boolean)`: the non-empty pieces between the slashes, in order. */
  function Segments(s: string): (segs: seq<string>)
    ensures forall i :: 0 <= i < |segs| ==> IsSegment(segs[i])
    decreases |s|
  {
    if s == [] then []
    else if s[0] == '/' then Segments(s[1..])
    else
      var h := Before(s, '/');
      [h] + Segments(s[|h|..])
  }

  /** `/` followed by each segment in turn: the path `currentPath` has reached after them. */
  function JoinPath(segs: seq<string>): (p: string)
    ensures |segs| > 0 ==> p != [] && p[0] == '/'
  {
    if segs == [] then "" else JoinPath(segs[..|segs| - 1]) + "/" + segs[|segs| - 1]
  }

  /** Joining one more segment extends the path: each crumb's link is a prefix of the next one's. */
  lemma JoinPathExtends(segs: seq<string>, k: nat)
    requires k < |segs|
    ensures JoinPath(segs[..k + 1]) == JoinPath(segs[..k]) + "/" + segs[k]
  {
    assert segs[..k + 1][..k] == segs[..k];
  }

  /** Joining a sequence `a + b` is joining `a`, then `b`. */
  lemma {:induction false} JoinPathAppend(a: seq<string>, b: seq<string>)
    ensures JoinPath(a + b) == JoinPath(a) + JoinPath(b)
    decreases |b|
  {
    if b != [] {
      var c := b[..|b| - 1];
      assert (a + b)[..|a + b| - 1] == a + c;
      JoinPathAppend(a, c);
      var last := b[|b| - 1];
      assert (a + b)[|a + b| - 1] == last;
      calc {
        JoinPath(a + b);
        JoinPath(a + c) + "/" + last;
        JoinPath(a) + JoinPath(c) + "/" + last;
        JoinPath(a) + (JoinPath(c) + "/" + last);
        JoinPath(a) + JoinPath(b);
      }
    } else {
      assert a + b == a;
    }
  }

  /** Cutting the path that segments spell gives the segments back. */
  lemma {:induction false} SegmentsOfJoinPath(segs: seq<string>)
    requires forall i :: 0 <= i < |segs| ==> IsSegment(segs[i])
    ensures Segments(JoinPath(segs)) == segs
    decreases |segs|
  {
    if segs != [] {
      var first := segs[0];
      var rest := segs[1..];
      assert segs == [first] + rest;
      JoinPathAppend([first], rest);
      assert [first][..0] == [];
      assert JoinPath([first]) == "/" + first;
      var s := "/" + first + JoinPath(rest);
      assert JoinPath(segs) == s;
      assert s[1..] == first + JoinPath(rest);
      BeforeConcat(first, JoinPath(rest), '/');
      assert (first + JoinPath(rest))[|first|..] == JoinPath(rest);
      SegmentsOfJoinPath(rest);
    }
  }

  // ---------------------------------------------------------------------
  // Crumb names
  // ---------------------------------------------------------------------

  predicate IsHexDigit(c: char) {
    '0' <= c <= '9' || 'a' <= c <= 'f' || 'A' <= c <= 'F'
  }

  /** `/^[0-9a-f]{8}-[0-9a-f]{4}-[0-9a-f]{4}-[0-9a-f]{4}-[0-9a-f]{12}$/i`. */
  predicate IsUuidText(s: string) {
    && |s| == 36
    && (forall i :: 0 <= i < 36 ==> if i in {8, 13, 18, 23} then s[i] == '-' else IsHexDigit(s[i]))
  }

  /** `/^\d+$/`. */
  predicate IsDigits(s: string) {
    s != [] && forall i :: 0 <= i < |s| ==> '0' <= s[i] <= '9'
  }

  /** A segment that names a record rather than a page. */
  predicate IsId(seg: string) {
    IsUuidText(seg) || IsDigits(seg)
  }

  /** The table that translates route names. */
  const NAMES: map<string, string> :=
    map["activos" := "Activos", "mantenimientos" := "Mantenimientos", "nuevo" := "Nuevo", "editar" := "Editar"]

  /**
   * The properties every plain object inherits from `Object.prototype`. A
   * lookup `names[path]` in an object literal finds them too, and each
   * holds a function or an object, which `||` keeps.
   */
  const INHERITED: set<string> := {
    "constructor", "hasOwnProperty", "isPrototypeOf", "propertyIsEnumerable",
    "toLocaleString", "toString", "valueOf", "__proto__",
    "__defineGetter__", "__defineSetter__", "__lookupGetter__", "__lookupSetter__"
  }

  /** What `name` holds as the code is written: text, or an inherited property's value. */
  datatype Label = Text(text: string) | Inherited(property: string)

  /** `isId ? 'Detalles' : (names[path] || path)`, as written. */
  function NameAsWritten(seg: string): (l: Label)
    ensures l.Inherited? <==> !IsId(seg) && seg !in NAMES && seg in INHERITED
  {
    if IsId(seg) then Text("Detalles")
    else if seg in NAMES then Text(NAMES[seg])
    else if seg in INHERITED then Inherited(seg)
    else Text(seg)
  }

  /** The segment `constructor`, as in `/activos/constructor`, is given `Object` itself as its name, not text. */
  lemma ConstructorSegmentHasNoText()
    ensures NameAsWritten("constructor").Inherited?
  {
    assert "constructor" in INHERITED;
    assert !IsDigits("constructor") by { assert !('0' <= "constructor"[0] <= '9'); }
  }

  /**
   * The corrected name, the one the trail shows: "Detalles" for an id, the
   * translation of a known route name, and otherwise the segment itself,
   * inherited property names included (where the code as written picks up
   * the inherited value, see `NameAsWritten`).
   */
  function DisplayName(seg: string): (name: string)
    ensures IsId(seg) ==> name == "Detalles"
    ensures !IsId(seg) && seg in NAMES ==> name == NAMES[seg]
    ensures !IsId(seg) && seg !in NAMES ==> name == seg
  {
    if IsId(seg) then "Detalles" else if seg in NAMES then NAMES[seg] else seg
  }

  /** Away from the inherited property names, the code as written shows the same text. */
  lemma DisplayNameAsWritten(seg: string)
    requires seg !in INHERITED
    ensures NameAsWritten(seg) == Text(DisplayName(seg))
  {
  }

  /** A crumb is never nameless: a segment's name is never empty. */
  lemma DisplayNameNotEmpty(seg: string)
    requires IsSegment(seg)
    ensures DisplayName(seg) != ""
  {
  }

  // ---------------------------------------------------------------------
  // The trail
  // ---------------------------------------------------------------------

  datatype Crumb = Crumb(name: string, href: string, isCurrentPage: bool)

  /** The home crumb; it sets no `isCurrentPage`, which reads as false. */
  const HOME := Crumb("Inicio", "/", false)

  /**
   * `generateBreadcrumbs`: the home crumb, then for the `k`-th segment a
   * crumb with its corrected name, linking to the first `k` segments, and
   * marked as the current page when it is the last. Away from the inherited
   * property names, the name is the text the code as written gives.
   */
  method GenerateBreadcrumbs(pathname: string) returns (crumbs: seq<Crumb>)
    ensures var segs := Segments(pathname);
      && |crumbs| == |segs| + 1
      && crumbs[0] == HOME
      && (forall k :: 1 <= k < |crumbs| ==>
           crumbs[k] == Crumb(DisplayName(segs[k - 1]), JoinPath(segs[..k]), k == |segs|))
      && (forall k :: 1 <= k < |crumbs| && segs[k - 1] !in INHERITED ==>
           NameAsWritten(segs[k - 1]) == Text(crumbs[k].name))
  {
    var paths := Segments(pathname);
    crumbs := [HOME];
    var currentPath := "";
    var index := 0;
    while index < |paths|
      invariant 0 <= index <= |paths|
      invariant |crumbs| == index + 1 && crumbs[0] == HOME
      invariant currentPath == JoinPath(paths[..index])
      invariant forall k :: 1 <= k < |crumbs| ==>
        crumbs[k] == Crumb(DisplayName(paths[k - 1]), JoinPath(paths[..k]), k == |paths|)
    {
      var path := paths[index];
      JoinPathExtends(paths, index);
      currentPath := currentPath + "/" + path;
      crumbs := crumbs + [Crumb(DisplayName(path), currentPath, index == |paths| - 1)];
      index := index + 1;
    }
    forall k | 1 <= k < |crumbs| && paths[k - 1] !in INHERITED
      ensures NameAsWritten(paths[k - 1]) == Text(crumbs[k].name)
    {
      DisplayNameAsWritten(paths[k - 1]);
    }
  }

  /** The component: the trail is computed, then nothing is shown at `/`. */
  method Render(pathname: string) returns (shown: Option<seq<Crumb>>)
    ensures shown.None? <==> pathname == "/"
    ensures shown.Some? ==> |shown.value| == |Segments(pathname)| + 1
  {
    var crumbs := GenerateBreadcrumbs(pathname);
    if pathname == "/" {
      return None;
    }
    return Some(crumbs);
  }

  /**
   * On a path spelled by its segments (no doubled and no trailing slash),
   * the trail has a crumb per segment; the last one links to the page
   * itself and is the only one marked current.
   */
  method LastCrumbIsThePage(segs: seq<string>) returns (crumbs: seq<Crumb>)
    requires forall i :: 0 <= i < |segs| ==> IsSegment(segs[i])
    ensures |crumbs| == |segs| + 1
    ensures segs != [] ==> crumbs[|segs|] == Crumb(DisplayName(segs[|segs| - 1]), JoinPath(segs), true)
    ensures forall k :: 0 <= k < |segs| ==> !crumbs[k].isCurrentPage
  {
    SegmentsOfJoinPath(segs);
    crumbs := GenerateBreadcrumbs(JoinPath(segs));
    assert segs[..|segs|] == segs;
  }
}

=== FILE: gateway.dfy ===
/**
 * The API gateway in front of the two services: the middleware that drops
 * one trailing slash from the request path, the choice of each service's
 * upstream address, the prefix each proxy rewrites, and which handler a
 * request reaches.
 */
module Gateway {

  import opened Wrappers
  import opened Text
  import opened Http

  // ---------------------------------------------------------------------
  // URLs
  // ---------------------------------------------------------------------

  /** `req.path`: the URL up to its first `?`. */
  function PathOf(url: string): string {
    Before(url, '?')
  }

  /** The query string, `?` included: what follows the path. */
  function QueryOf(url: string): (q: string)
    ensures PathOf(url) + q == url
    ensures q == [] || q[0] == '?'
  {
    url[|PathOf(url)|..]
  }

  /** A path followed by a query string splits back into the two. */
  lemma PathQuerySplit(p: string, q: string)
    requires '?' !in p && (q == [] || q[0] == '?')
    ensures PathOf(p + q) == p && QueryOf(p + q) == q
  {
    BeforeConcat(p, q, '?');
  }

  // ---------------------------------------------------------------------
  // The trailing-slash middleware
  // ---------------------------------------------------------------------

  /**
   * The URL the middleware leaves: for a path other than "/" that ends in
   * "/", the path without its last character followed by the same query
   * string; any other URL as it was.
   */
  function StripTrailingSlash(url: string): (r: string)
    ensures var p := PathOf(url);
      if p != "/" && EndsWith(p, "/") then
        PathOf(r) == p[..|p| - 1] && QueryOf(r) == QueryOf(url)
      else r == url
  {
    var p := PathOf(url);
    if p != "/" && EndsWith(p, "/") then
      var r := p[..|p| - 1] + url[|p|..];
      PathQuerySplit(p[..|p| - 1], url[|p|..]);
      r
    else url
  }

  /**
   * A path given with and without one trailing slash reaches the routes as
   * the same URL, which is what the middleware is for.
   */
  lemma TrailingSlashIgnored(p: string, q: string)
    requires p != [] && p[|p| - 1] != '/' && '?' !in p && (q == [] || q[0] == '?')
    ensures StripTrailingSlash(p + "/" + q) == StripTrailingSlash(p + q) == p + q
  {
    PathQuerySplit(p + "/", q);
    PathQuerySplit(p, q);
    assert (p + "/")[..|p + "/"| - 1] == p;
  }

  /** Only one slash goes: a path ending in two slashes still ends in one afterwards. */
  lemma OneSlashOnly(p: string, q: string)
    requires '?' !in p && (q == [] || q[0] == '?')
    ensures PathOf(StripTrailingSlash(p + "//" + q)) == p + "/"
  {
    PathQuerySplit(p + "//", q);
    assert (p + "//")[..|p + "//"| - 1] == p + "/";
  }

  /** The HTTP methods a request may carry. */
  datatype Method = GET | HEAD | POST | PUT | PATCH | DELETE

  /** A request as the middleware sees it: `req.url` is rewritten in place. */
  class Request {
    const verb: Method
    var url: string

    constructor (verb: Method, url: string)
      ensures this.verb == verb && this.url == url
    {
      this.verb := verb;
      this.url := url;
    }

    /** The middleware: `req.url` loses one trailing slash of its path, without a redirect. */
    method DropTrailingSlash()
      modifies this
      ensures url == StripTrailingSlash(old(url))
    {
      var p := PathOf(url);
      if p != "/" && EndsWith(p, "/") {
        var query := url[|p|..];
        var safepath := p[..|p| - 1];
        url := safepath + query;
      }
    }
  }

  // ---------------------------------------------------------------------
  // Upstreams and rewriting
  // ---------------------------------------------------------------------

  /** The environment variables the gateway reads. */
  datatype Env = Env(nodeEnv: Option<string>, activosUrl: Option<string>, mantenimientosUrl: Option<string>)

  /**
   * An upstream address: the service's variable when it is set and not
   * empty, else the production address when `NODE_ENV` is "production",
   * else the local one.
   */
  function Target(configured: Option<string>, nodeEnv: Option<string>, production: string, local: string): (r: string)
    ensures Truthy(configured) ==> r == configured.value
    ensures !Truthy(configured) && nodeEnv == Some("production") ==> r == production
    ensures !Truthy(configured) && nodeEnv != Some("production") ==> r == local
  {
    if Truthy(configured) then configured.value
    else if nodeEnv == Some("production") then production
    else local
  }

  function ActivosTarget(env: Env): string {
    Target(env.activosUrl, env.nodeEnv, "https://servicio-activos-production.up.railway.app", "http://localhost:3001")
  }

  function MantenimientosTarget(env: Env): string {
    Target(env.mantenimientosUrl, env.nodeEnv, "https://servicio-mantenimientos-production.up.railway.app", "http://localhost:3002")
  }

  /** Whichever way it is chosen, an upstream address is never empty. */
  lemma TargetsNotEmpty(env: Env)
    ensures ActivosTarget(env) != "" && MantenimientosTarget(env) != ""
  {
  }

  /** A `pathRewrite` rule `^prefix -> replacement`: a leading `prefix` of the URL becomes `replacement`. */
  function Rewrite(prefix: string, replacement: string, url: string): (r: string)
    ensures prefix <= url ==> |r| == |url| - |prefix| + |replacement| && replacement <= r
    ensures !(prefix <= url) ==> r == url
  {
    if prefix <= url then replacement + url[|prefix|..] else url
  }

  const ACTIVOS_PREFIX := "/api/activos"
  const MANTENIMIENTOS_PREFIX := "/api/mantenimientos"

  // ---------------------------------------------------------------------
  // Dispatch
  // ---------------------------------------------------------------------

  /** A mount point accepts its own path and every path below it. */
  predicate Mounted(prefix: string, path: string) {
    path == prefix || prefix + "/" <= path
  }

  /**
   * A `GET` route without strict routing accepts its path with or without one
   * trailing slash. The root route compiles to `^\/?$`, so it accepts `/` and
   * nothing else: `//` is not the root with a trailing slash.
   */
  predicate RouteMatches(route: string, path: string) {
    path == route || (route != "/" && path == route + "/")
  }

  /** Which upstream a proxy forwards to. */
  datatype Service = Activos | Mantenimientos

  /** The handler a request reaches, after the middleware. */
  datatype Handler =
    | Health
    | DebugConfig
    | HealthAll
    | Proxy(service: Service, target: string, forwarded: string)
    | Root
    | NotFound(path: string)

  const NOT_FOUND_MESSAGE := "Ruta no encontrada en el API Gateway"

  /** `app.get` serves `HEAD` requests too. */
  predicate Readable(m: Method) {
    m == GET || m == HEAD
  }

  /** The paths of the gateway's own `GET` routes other than `/`, with or without a trailing slash. */
  predicate OwnRoute(path: string) {
    RouteMatches("/health", path) || RouteMatches("/debug/config", path) || RouteMatches("/health/all", path)
  }

  /**
   * A path under either service starts with `/api/` and differs from the
   * other service's at its sixth character, so no path is under both mounts.
   */
  lemma MountsApart(path: string)
    ensures Mounted(ACTIVOS_PREFIX, path) ==> |path| >= 12 && path[..5] == "/api/" && path[5] == 'a'
    ensures Mounted(MANTENIMIENTOS_PREFIX, path) ==> |path| >= 19 && path[..5] == "/api/" && path[5] == 'm'
    ensures !(Mounted(ACTIVOS_PREFIX, path) && Mounted(MANTENIMIENTOS_PREFIX, path))
  {
    if Mounted(ACTIVOS_PREFIX, path) {
      assert path[..12] == ACTIVOS_PREFIX;
      assert path[..5] == ACTIVOS_PREFIX[..5];
    }
    if Mounted(MANTENIMIENTOS_PREFIX, path) {
      assert path[..19] == MANTENIMIENTOS_PREFIX;
      assert path[..5] == MANTENIMIENTOS_PREFIX[..5];
    }
  }

  /** A path under either mount is none of the gateway's own routes, `/` included. */
  lemma MountsAreNotOwnRoutes(path: string)
    ensures Mounted(ACTIVOS_PREFIX, path) || Mounted(MANTENIMIENTOS_PREFIX, path) ==>
      !OwnRoute(path) && !RouteMatches("/", path)
  {
    MountsApart(path);
    if Mounted(ACTIVOS_PREFIX, path) || Mounted(MANTENIMIENTOS_PREFIX, path) {
      assert path[1] == 'a' by { assert path[1] == path[..5][1]; }
      assert |path| > 2;
      assert "/health"[1] == 'h' && "/debug/config"[1] == 'd' && "/health/all"[1] == 'h';
      assert ("/health" + "/")[1] == 'h' && ("/debug/config" + "/")[1] == 'd' && ("/health/all" + "/")[1] == 'h';
    }
  }

  /**
   * The handlers in the order they are registered: the health and debug
   * routes, the two proxies, the root route, and the 404 fallback that
   * reports the path.
   */
  function Dispatch(m: Method, url: string, env: Env): (h: Handler)
    ensures var path := PathOf(url);
      && (Mounted(ACTIVOS_PREFIX, path) ==> h == Proxy(Activos, ActivosTarget(env), Rewrite(ACTIVOS_PREFIX, "/activos", url)))
      && (Mounted(MANTENIMIENTOS_PREFIX, path) ==>
            h == Proxy(Mantenimientos, MantenimientosTarget(env), Rewrite(MANTENIMIENTOS_PREFIX, "/mantenimientos", url)))
      && (h.NotFound? <==>
            && !Mounted(ACTIVOS_PREFIX, path) && !Mounted(MANTENIMIENTOS_PREFIX, path)
            && !(Readable(m) && (OwnRoute(path) || RouteMatches("/", path))))
      && (h.NotFound? ==> h.path == path)
  {
    var path := PathOf(url);
    MountsApart(path);
    MountsAreNotOwnRoutes(path);
    if Readable(m) && RouteMatches("/health", path) then Health
    else if Readable(m) && RouteMatches("/debug/config", path) then DebugConfig
    else if Readable(m) && RouteMatches("/health/all", path) then HealthAll
    else if Mounted(ACTIVOS_PREFIX, path) then Proxy(Activos, ActivosTarget(env), Rewrite(ACTIVOS_PREFIX, "/activos", url))
    else if Mounted(MANTENIMIENTOS_PREFIX, path) then
      Proxy(Mantenimientos, MantenimientosTarget(env), Rewrite(MANTENIMIENTOS_PREFIX, "/mantenimientos", url))
    else if Readable(m) && RouteMatches("/", path) then Root
    else NotFound(path)
  }

  /** The root handler answers a read of the path `/` and of no other path. */
  lemma RootOnlyAtSlash(m: Method, url: string, env: Env)
    ensures Dispatch(m, url, env).Root? <==> Readable(m) && PathOf(url) == "/"
  {
    MountsApart(PathOf(url));
  }

  /** `///` loses one slash to the middleware and the `//` left gets the 404 that names it. */
  lemma TripleSlashNotFound(env: Env)
    ensures Dispatch(GET, StripTrailingSlash("///"), env) == NotFound("//")
  {
    OneSlashOnly("/", "");
    assert "/" + "//" + "" == "///";
    MountsApart("//");
  }

  /**
   * A request, as the gateway handles it: the middleware rewrites its URL
   * in place, then the handlers are tried in order.
   */
  method Serve(req: Request, env: Env) returns (h: Handler)
    modifies req
    ensures req.url == StripTrailingSlash(old(req.url))
    ensures h == Dispatch(req.verb, req.url, env)
  {
    req.DropTrailingSlash();
    h := Dispatch(req.verb, req.url, env);
  }

  /**
   * A request under `/api/activos` reaches the asset service under
   * `/activos`, with the rest of its path and its query string unchanged;
   * likewise `/api/mantenimientos` and `/mantenimientos`.
   */
  lemma ProxiedPath(service: Service, rest: string, q: string, m: Method, env: Env)
    requires '?' !in rest && (rest == [] || rest[0] == '/')
    requires q == [] || q[0] == '?'
    ensures var prefix := if service == Activos then ACTIVOS_PREFIX else MANTENIMIENTOS_PREFIX;
      var local := if service == Activos then "/activos" else "/mantenimientos";
      var h := Dispatch(m, prefix + rest + q, env);
      && h.Proxy? && h.service == service
      && PathOf(h.forwarded) == local + rest && QueryOf(h.forwarded) == q
  {
    if service == Activos {
      MountedRewrite(ACTIVOS_PREFIX, "/activos", rest, q);
    } else {
      MountedRewrite(MANTENIMIENTOS_PREFIX, "/mantenimientos", rest, q);
    }
  }

  /** The mount accepts `prefix + rest`, and the rewrite keeps `rest` and the query string. */
  lemma MountedRewrite(prefix: string, local: string, rest: string, q: string)
    requires '?' !in prefix && '?' !in local && '?' !in rest && (rest == [] || rest[0] == '/')
    requires q == [] || q[0] == '?'
    ensures Mounted(prefix, PathOf(prefix + rest + q))
    ensures var r := Rewrite(prefix, local, prefix + rest + q);
      PathOf(r) == local + rest && QueryOf(r) == q
  {
    PathQuerySplit(prefix + rest, q);
    MountedPrefixRest(prefix, rest);
    RewriteKeepsRest(prefix, local, rest, q);
  }

  /** A mount point accepts itself followed by nothing or by a `/`. */
  lemma MountedPrefixRest(prefix: string, rest: string)
    requires rest == [] || rest[0] == '/'
    ensures Mounted(prefix, prefix + rest)
  {
    if rest != [] {
      PrefixExtend(prefix, rest);
      assert prefix + [rest[0]] == prefix + "/";
    } else {
      assert prefix + rest == prefix;
    }
  }

  /** Rewriting `prefix` to `local` keeps what follows the prefix, query string included. */
  lemma RewriteKeepsRest(prefix: string, local: string, rest: string, q: string)
    requires '?' !in local && '?' !in rest && (q == [] || q[0] == '?')
    ensures var r := Rewrite(prefix, local, prefix + rest + q);
      PathOf(r) == local + rest && QueryOf(r) == q
  {
    var url := prefix + rest + q;
    assert prefix <= url;
    assert url[|prefix|..] == rest + q;
    assert local + (rest + q) == (local + rest) + q;
    PathQuerySplit(local + rest, q);
  }

  /** `a` followed by the first character of `b` is a prefix of `a + b`. */
  lemma PrefixExtend(a: string, b: string)
    requires b != []
    ensures a + [b[0]] <= a + b
  {
    assert (a + b)[..|a| + 1] == a + [b[0]];
  }

  /** A path that merely starts with a service's prefix, such as `/api/activosX`, is not proxied: it gets the 404. */
  lemma PrefixIsNotMount(m: Method, env: Env)
    ensures Dispatch(m, "/api/activosX", env) == NotFound("/api/activosX")
  {
    var path := "/api/activosX";
    PathQuerySplit(path, "");
    assert path + "" == path;
    NeitherMount();
    ApiPathIsNoRoute(path);
  }

  /** `/api/activosX` is under neither mount: its thirteenth character is not `/`. */
  lemma NeitherMount()
    ensures !Mounted(ACTIVOS_PREFIX, "/api/activosX") && !Mounted(MANTENIMIENTOS_PREFIX, "/api/activosX")
  {
    var path := "/api/activosX";
    assert path[12] == 'X';
    assert !(ACTIVOS_PREFIX + "/" <= path) by {
      assert (ACTIVOS_PREFIX + "/")[12] == '/';
    }
    assert !(MANTENIMIENTOS_PREFIX + "/" <= path);
  }

  /** A path whose second character is `a`, as under `/api`, is none of the gateway's own `GET` routes. */
  lemma ApiPathIsNoRoute(path: string)
    requires |path| >= 2 && path[1] == 'a'
    ensures !RouteMatches("/health", path) && !RouteMatches("/debug/config", path)
    ensures !RouteMatches("/health/all", path) && !RouteMatches("/", path)
  {
    assert "/health"[1] == 'h' && "/health/"[1] == 'h';
    assert "/health/all"[1] == 'h' && "/health/all/"[1] == 'h';
    assert "/debug/config"[1] == 'd' && "/debug/config/"[1] == 'd';
    assert "//"[1] == '/';
  }

  /** Any method other than `GET` and `HEAD` on a path outside the two services gets the 404 with its path. */
  lemma WritesOutsideServicesNotFound(m: Method, url: string, env: Env)
    requires !Readable(m)
    requires !Mounted(ACTIVOS_PREFIX, PathOf(url)) && !Mounted(MANTENIMIENTOS_PREFIX, PathOf(url))
    ensures Dispatch(m, url, env) == NotFound(PathOf(url))
  {
  }
}

=== FILE: http.dfy ===
/**
 * What the two services' handlers exchange with their callers: the status
 * codes they answer with, the `{field, message}` items of a validation
 * failure, and the shapes a JSON body field can arrive in.
 */
module Http {

  import opened Wrappers
  import opened Text

  const OK := 200
  const CREATED := 201
  const BAD_REQUEST := 400
  const NOT_FOUND := 404
  const CONFLICT := 409
  const SERVER_ERROR := 500

  /** One item of a validation failure list. */
  datatype FieldError = FieldError(field: string, message: string)

  /**
   * A numeric body field. `Number(v)` is a value that reads as the number
   * `v` (a JSON number, or a string the validators and the model both parse
   * as `v`); `NonNumeric(raw)` is any other value, with its string form. A
   * text only some of them read as a number, such as "+5", has no form here.
   */
  datatype Num = Number(value: real) | NonNumeric(raw: string)

  /**
   * A date body field: its text and, when the text is a valid date, the
   * instant it denotes. Date syntax itself is not modelled: `time` is the
   * parser's verdict.
   */
  datatype DateInput = DateInput(raw: string, time: Option<int>)

  /** `isISO8601()`: a non-empty text the date parser accepts. */
  predicate IsISO8601(d: DateInput) {
    d.raw != "" && d.time.Some?
  }

  /** `isDate()`: text the date parser accepts; text made of white space alone is no date. */
  predicate IsDate(d: DateInput) {
    Trim(d.raw) != "" && d.time.Some?
  }

  /** `notEmpty()` on a number: its string form is never empty, a non-numeric text may be. */
  predicate NumNotEmpty(n: Num) {
    n.Number? || n.raw != ""
  }

  /** `isFloat({min: 0})`. */
  predicate IsNonNegativeFloat(n: Num) {
    n.Number? && n.value >= 0.0
  }

  /** `isInt({min: 1})`: an integral number of at least one. */
  predicate IsPositiveInt(n: Num) {
    n.Number? && n.value.Floor as real == n.value && n.value >= 1.0
  }

  /** JavaScript truthiness of an optional string: present and not empty. */
  predicate Truthy(v: Option<string>) {
    v.Some? && v.value != ""
  }

  // ---------------------------------------------------------------------
  // Building blocks of the validation chains
  // ---------------------------------------------------------------------

  /** `toString` of an absent field is "": the text a validator sees. */
  function Shown(v: Option<string>): string {
    v.GetOr("")
  }

  /** The one error a failing validator adds. */
  function When(failed: bool, field: string, message: string): (r: seq<FieldError>)
    ensures r == [] <==> !failed
  {
    if failed then [FieldError(field, message)] else []
  }

  /** `.notEmpty()` then `.isFloat({min: 0})`. */
  function RequiredAmount(field: string, v: Option<Num>, required: string, invalid: string): (r: seq<FieldError>)
    ensures r == [] <==> v.Some? && IsNonNegativeFloat(v.value)
  {
    When(v.None? || !NumNotEmpty(v.value), field, required)
    + When(v.None? || !IsNonNegativeFloat(v.value), field, invalid)
  }

  /** `.optional().isIn(values)`. */
  function OptionalIn(field: string, v: Option<string>, values: seq<string>, invalid: string): (r: seq<FieldError>)
    ensures r == [] <==> (v.Some? ==> v.value in values)
  {
    When(v.Some? && v.value !in values, field, invalid)
  }

  /** Decimal digits of `n`, for field paths such as `piezas[3].nombre`. */
  function NatToString(n: nat): (s: string)
    ensures |s| >= 1
    ensures forall i :: 0 <= i < |s| ==> '0' <= s[i] <= '9'
  {
    var d := [('0' as int + n % 10) as char];
    if n < 10 then d else NatToString(n / 10) + d
  }
}

=== FILE: layout.dfy ===
/**
 * The navigation bar's links: a link is highlighted on its own page and on
 * every page below it.
 */
module Layout {

  /** `pathname === href || pathname.startsWith(href + '/')`. */
  predicate IsActive(pathname: string, href: string) {
    pathname == href || href + "/" <= pathname
  }

  /**
   * A link is active exactly on its own path and on paths that continue it
   * with a `/`: it is never active on a path that merely shares its first
   * characters.
   */
  lemma IsActiveIff(pathname: string, href: string)
    ensures IsActive(pathname, href) <==>
      pathname == href || (|href| < |pathname| && pathname[..|href|] == href && pathname[|href|] == '/')
  {
    if |href| < |pathname| && pathname[..|href|] == href && pathname[|href|] == '/' {
      assert pathname[..|href| + 1] == href + "/";
    }
    if href + "/" <= pathname {
      assert pathname[..|href|] == (href + "/")[..|href|];
    }
  }

  /** A page below a section, such as `/mantenimientos/nuevo`, highlights the section's link. */
  lemma NestedPageActivates(href: string, rest: string)
    ensures IsActive(href + "/" + rest, href)
  {
  }

  /** A sibling that only shares a prefix, such as `/activosX`, does not highlight `/activos`. */
  lemma SiblingDoesNotActivate()
    ensures !IsActive("/activosX", "/activos")
  {
    assert "/activosX"[8] == 'X';
  }

  /**
   * The Dashboard link `/` is highlighted on `/` and, since its prefix test
   * is against `//`, on a path that starts with two slashes; on no other
   * path, so on no page such as `/activos`.
   */
  lemma RootActiveOnlyAtRoot(pathname: string)
    ensures IsActive(pathname, "/") <==> pathname == "/" || (|pathname| >= 2 && pathname[..2] == "//")
  {
    assert "/" + "/" == "//";
  }
}

=== FILE: mantenimiento_controller.dfy ===
/**
 * The handlers of servicio-mantenimientos over the `mantenimientos`
 * collection: listing with filters and pages, lookup by id and by asset,
 * create, update, delete, the state change, the note, and the statistics;
 * each with the status code and body it answers for every outcome.
 */
module MantenimientoController {

  import opened Wrappers
  import opened Text
  import opened Http
  import opened Queries
  import opened Aggregation
  import opened MantenimientoModel
  import opened MantenimientoRoutes

  /** A document id. How the store generates one is not modelled; the ids it holds are distinct. */
  type ObjectId = nat

  /** An `:id` route parameter: a well-formed ObjectId, or text the store cannot cast to one. */
  datatype IdParam = WellFormed(oid: ObjectId) | Malformed(raw: string)

  /** A stored document with its id. */
  datatype Entry = Entry(id: ObjectId, doc: Mantenimiento)

  /** The filter parameters of `GET /mantenimientos`. */
  datatype Filtro = Filtro(
    tipo: Option<string>,
    estado: Option<string>,
    prioridad: Option<string>,
    activoId: Option<string>)

  /** The query string of `GET /mantenimientos`, with `page` and `limit` already read as numbers. */
  datatype ListQuery = ListQuery(page: Option<int>, limit: Option<int>, filtro: Filtro)

  datatype Pagination = Pagination(total: nat, page: int, limit: int, totalPages: Option<int>)

  datatype Estadisticas = Estadisticas(
    total: nat,
    porEstado: seq<Group<string>>,
    porTipo: seq<Group<string>>,
    porPrioridad: seq<Group<string>>,
    costoTotal: real)

  /** The JSON body of a reply. */
  datatype Reply =
    | Listed(data: seq<Entry>, pagination: Pagination)
    | Found(entry: Entry)
    | ByActivo(rows: seq<Entry>, count: nat)
    | Saved(message: string, saved: Entry)
    | Stats(estadisticas: Estadisticas)
    | RuleErrors(errors: seq<FieldError>)
    | ValidationFailed(failures: seq<FieldError>)
    | Message(success: bool, text: string)

  datatype Response = Response(status: int, reply: Reply)

  const NO_ENCONTRADO := "Mantenimiento no encontrado"
  const ID_INVALIDO := "ID de mantenimiento inválido"
  const FECHA_FIN_ANTERIOR := FieldError("fecha_fin", "La fecha de fin debe ser posterior o igual a la fecha de inicio")

  /** The list filter: each truthy query parameter must equal the record's field. */
  predicate Matches(f: Filtro, m: Mantenimiento) {
    && (Truthy(f.tipo) ==> m.tipo == f.tipo.value)
    && (Truthy(f.estado) ==> m.estado == f.estado.value)
    && (Truthy(f.prioridad) ==> m.prioridad == f.prioridad.value)
    && (Truthy(f.activoId) ==> m.activoId == f.activoId.value)
  }

  function MatchesFiltro(f: Filtro): Entry -> bool {
    (e: Entry) => Matches(f, e.doc)
  }

  function OfActivo(activoId: string): Entry -> bool {
    (e: Entry) => e.doc.activoId == activoId
  }

  /** The sort key `fecha_inicio`; every stored record has one. */
  function FechaKey(e: Entry): int {
    e.doc.fechaInicio.GetOr(0)
  }

  /** The key `findById` looks a record up by. */
  function EntryId(e: Entry): ObjectId {
    e.id
  }

  ghost predicate UniqueIds(entries: seq<Entry>) {
    forall i, j :: 0 <= i < j < |entries| ==> entries[i].id != entries[j].id
  }

  /**
   * Between two states of the collection, every record present in both has
   * kept its history as a prefix: history entries are only ever appended.
   */
  ghost predicate HistorialGrows(before: seq<Entry>, after: seq<Entry>) {
    forall i, j :: 0 <= i < |before| && 0 <= j < |after| && before[i].id == after[j].id ==>
      before[i].doc.historial <= after[j].doc.historial
  }

  /**
   * The collection's invariant: ids are distinct and below the next id to
   * hand out, and every stored record satisfies the schema (every write
   * goes through `save`).
   */
  ghost predicate StoreInvariant(entries: seq<Entry>, nextId: ObjectId) {
    && UniqueIds(entries)
    && (forall i :: 0 <= i < |entries| ==> entries[i].id < nextId && SchemaValid(entries[i].doc))
  }

  lemma GrowsUnchanged(entries: seq<Entry>)
    requires UniqueIds(entries)
    ensures HistorialGrows(entries, entries)
  {
  }

  /** Storing a new valid record under the next id keeps the invariant and touches no other record. */
  lemma InvariantAfterAppend(entries: seq<Entry>, nextId: ObjectId, e: Entry)
    requires StoreInvariant(entries, nextId) && e.id == nextId && SchemaValid(e.doc)
    ensures StoreInvariant(entries + [e], nextId + 1)
    ensures HistorialGrows(entries, entries + [e])
  {
    var after := entries + [e];
    forall i, j | 0 <= i < |entries| && 0 <= j < |after| && entries[i].id == after[j].id
      ensures entries[i].doc.historial <= after[j].doc.historial
    {
      assert j < |entries| && after[j] == entries[j];
    }
  }

  /** Replacing a record by a valid one with the same id keeps the invariant. */
  lemma InvariantAfterReplace(entries: seq<Entry>, nextId: ObjectId, k: nat, e: Entry)
    requires StoreInvariant(entries, nextId) && k < |entries|
    requires e.id == entries[k].id && SchemaValid(e.doc)
    ensures StoreInvariant(entries[k := e], nextId)
  {
  }

  /** Replacing a record by one with the same id that extends its history keeps every history growing. */
  lemma GrowsAfterReplace(entries: seq<Entry>, k: nat, e: Entry)
    requires UniqueIds(entries) && k < |entries|
    requires e.id == entries[k].id && entries[k].doc.historial <= e.doc.historial
    ensures HistorialGrows(entries, entries[k := e])
  {
  }

  /** A record whose save succeeded satisfies the schema, the hook's entry included. */
  lemma SavedIsValid(c: Mantenimiento, flag: bool, now: int)
    requires SchemaErrors(c) == []
    ensures SchemaValid(AfterHook(c, flag, now))
  {
    SchemaErrorsEmptyIff(c);
    HookKeepsSchemaValid(c, flag, now);
  }

  /**
   * Replacing record `k` by one whose save succeeded keeps the invariant;
   * when the saved record extends the old history, every history still grows.
   */
  lemma InvariantAfterSavedReplace(entries: seq<Entry>, nextId: ObjectId, k: nat, c: Mantenimiento, flag: bool, now: int)
    requires StoreInvariant(entries, nextId) && k < |entries|
    requires SchemaErrors(c) == []
    ensures var e := Entry(entries[k].id, AfterHook(c, flag, now));
      && StoreInvariant(entries[k := e], nextId)
      && (entries[k].doc.historial <= c.historial ==> HistorialGrows(entries, entries[k := e]))
  {
    var e := Entry(entries[k].id, AfterHook(c, flag, now));
    SavedIsValid(c, flag, now);
    InvariantAfterReplace(entries, nextId, k, e);
    if entries[k].doc.historial <= c.historial {
      GrowsAfterReplace(entries, k, e);
    }
  }

  /** Removing a record keeps the invariant, and no record with its id is left. */
  lemma InvariantAfterRemove(entries: seq<Entry>, nextId: ObjectId, k: nat)
    requires StoreInvariant(entries, nextId) && k < |entries|
    ensures StoreInvariant(RemoveAt(entries, k), nextId)
    ensures HistorialGrows(entries, RemoveAt(entries, k))
    ensures forall i :: 0 <= i < |RemoveAt(entries, k)| ==> RemoveAt(entries, k)[i].id != entries[k].id
  {
    var after := RemoveAt(entries, k);
    forall i | 0 <= i < |after| ensures after[i].id < nextId && SchemaValid(after[i].doc) {
      assert after[i] == entries[if i < k then i else i + 1];
    }
    UniqueAfterRemove(entries, k);
  }

  /** The id half of `InvariantAfterRemove`: ids stay distinct and every record left keeps its history. */
  lemma UniqueAfterRemove(entries: seq<Entry>, k: nat)
    requires UniqueIds(entries) && k < |entries|
    ensures UniqueIds(RemoveAt(entries, k))
    ensures HistorialGrows(entries, RemoveAt(entries, k))
    ensures forall i :: 0 <= i < |RemoveAt(entries, k)| ==> RemoveAt(entries, k)[i].id != entries[k].id
  {
    var after := RemoveAt(entries, k);
    forall i, j | 0 <= i < j < |after| ensures after[i].id != after[j].id {
      assert after[i] == entries[if i < k then i else i + 1];
      assert after[j] == entries[if j < k then j else j + 1];
    }
    forall i, j | 0 <= i < |entries| && 0 <= j < |after| && entries[i].id == after[j].id
      ensures entries[i].doc.historial <= after[j].doc.historial
    {
      var j' := if j < k then j else j + 1;
      assert after[j] == entries[j'];
      assert i == j';
    }
    forall i | 0 <= i < |after| ensures after[i].id != entries[k].id {
      assert after[i] == entries[if i < k then i else i + 1];
    }
  }

  /** The record a successful create stores: the body over the defaults, and the hook's entry when the body set `estado`. */
  function Created(s: Payload, now: int): Mantenimiento
    requires Castable(s)
  {
    AfterHook(Build(s), s.estado.Some?, now)
  }

  /** The record a successful update stores: the body assigned, and the hook's entry when `estado` took a new value. */
  function Updated(m: Mantenimiento, s: Payload, now: int): Mantenimiento
    requires Castable(s)
  {
    AfterHook(Assigned(m, s), Assigned(m, s).estado != m.estado, now)
  }

  /** `if (req.body.fecha_fin && req.body.fecha_inicio)` and then `fechaFin < fechaInicio`. */
  predicate FechasInvertidas(b: Payload) {
    && b.fechaFin.Some? && b.fechaFin.value.raw != "" && b.fechaFin.value.time.Some?
    && b.fechaInicio.Some? && b.fechaInicio.value.raw != "" && b.fechaInicio.value.time.Some?
    && b.fechaFin.value.time.value < b.fechaInicio.value.time.value
  }

  /** The values of one text field of the records, in collection order. */
  function Column(es: seq<Entry>, f: Mantenimiento -> string): (c: seq<string>)
    ensures |c| == |es|
    ensures forall i :: 0 <= i < |es| ==> c[i] == f(es[i].doc)
  {
    seq(|es|, i requires 0 <= i < |es| => f(es[i].doc))
  }

  /** `$sum: "$costo"` over the records: the service costs only, parts not included. */
  function SumCosto(es: seq<Entry>): real {
    if es == [] then 0.0 else SumCosto(es[..|es| - 1]) + es[|es| - 1].doc.costo
  }

  lemma {:induction false} SumCostoNonNegative(es: seq<Entry>)
    requires forall i :: 0 <= i < |es| ==> es[i].doc.costo >= 0.0
    ensures SumCosto(es) >= 0.0
  {
    if es != [] {
      SumCostoNonNegative(es[..|es| - 1]);
    }
  }

  /**
   * After the handler's own date check, the schema can refuse an update
   * body the route accepted for these reasons only: the body leaves
   * `fecha_fin` out and the stored end date is before the new start date,
   * or the body carries a note or a history entry with a text that trims to
   * nothing.
   */
  lemma UpdateSchemaRejectsIff(m: Mantenimiento, b: Payload)
    requires SchemaValid(m) && ValidBody(b) && !FechasInvertidas(Sanitize(b))
    ensures Castable(Sanitize(b))
    ensures SchemaErrors(Assigned(m, Sanitize(b))) != [] <==>
      || (b.fechaFin.None? && m.fechaFin.Some? && m.fechaFin.value < b.fechaInicio.value.time.value)
      || (b.notas.Some? && !NotasValid(CastNotas(b.notas.value)))
      || (b.historial.Some? && !HistorialValid(CastHistorial(b.historial.value)))
  {
    assert FieldsValid(b);
    SchemaValidUntouchedValid(m);
    RouteAcceptedSchemaErrors(b, m);
    var r := Assigned(m, Sanitize(b));
    AssignedFechaFin(m, Sanitize(b));
    assert r.notas == NotasOr(b.notas, m.notas) && r.historial == HistorialOr(b.historial, m.historial);
    var f, n, h := FechaFinErrors(r), NotasErrors(r.notas, 0), HistorialErrors(r.historial, 0);
    assert |SchemaErrors(r)| == |f| + |n| + |h|;
  }

  /**
   * `Object.assign` copies a `historial` the body carries over the stored
   * one: an update the route and the schema accept, whose body brings an
   * empty history, leaves a record of two or more entries with at most the
   * hook's one.
   */
  lemma UpdateCanEraseHistory(m: Mantenimiento, b: Payload, now: int)
    requires SchemaValid(m) && |m.historial| >= 2
    requires ValidBody(b) && !FechasInvertidas(Sanitize(b)) && b.fechaFin.Some?
    requires b.notas.None? && b.historial == Some([])
    ensures Castable(Sanitize(b)) && SchemaErrors(Assigned(m, Sanitize(b))) == []
    ensures |Updated(m, Sanitize(b), now).historial| <= 1
    ensures !(m.historial <= Updated(m, Sanitize(b), now).historial)
  {
    UpdateSchemaRejectsIff(m, b);
    assert CastHistorial([]) == [];
  }

  /** The body with `notas` and `historial` dropped: the two lists only the two mutators append to. */
  function KeepLogs(p: Payload): (r: Payload)
    ensures r.notas.None? && r.historial.None?
    ensures r.(notas := p.notas, historial := p.historial) == p
  {
    p.(notas := None, historial := None)
  }

  /**
   * An update whose body has its lists dropped keeps the stored notes as
   * they are and the stored history as a prefix of the new one.
   */
  lemma UpdatedKeepsLogs(m: Mantenimiento, s: Payload, now: int)
    requires Castable(s)
    ensures Castable(KeepLogs(s))
    ensures Updated(m, KeepLogs(s), now).notas == m.notas
    ensures m.historial <= Updated(m, KeepLogs(s), now).historial
  {
  }

  /** The end-date rule on a stored record with a body assigned over it. */
  lemma AssignedFechaFin(m: Mantenimiento, s: Payload)
    requires Castable(s) && s.fechaInicio.Some? && s.fechaInicio.value.time.Some?
    requires s.fechaFin.Some? ==> s.fechaFin.value.time.Some?
    ensures FechaFinErrors(Assigned(m, s)) != [] <==>
      if s.fechaFin.Some? then s.fechaFin.value.time.value < s.fechaInicio.value.time.value
      else m.fechaFin.Some? && m.fechaFin.value < s.fechaInicio.value.time.value
  {
    var a := Assigned(m, s);
    assert a.fechaInicio == s.fechaInicio.value.time;
    assert a.fechaFin == DateOr(s.fechaFin, m.fechaFin);
  }

  // ---------------------------------------------------------------------
  // The read handlers, over the records the collection holds
  // ---------------------------------------------------------------------

  /**
   * `GET /mantenimientos`: the records the filter accepts, newest start
   * date first, from row `(page - 1) * limit` on; `page` defaults to 1 and
   * `limit` to 10. A negative skip is refused by the store: 500.
   */
  function GetAll(entries: seq<Entry>, q: ListQuery): (r: Response)
    ensures var page := q.page.GetOr(1); var limit := q.limit.GetOr(10);
      && (r.status == OK <==> Skip(page, limit) >= 0)
      && (r.status != OK ==> r == Response(SERVER_ERROR, Message(false, "Error al obtener mantenimientos")))
      && (r.status == OK ==>
            && r.reply.Listed?
            && (limit != 0 ==> |r.reply.data| <= Abs(limit))
            && r.reply.pagination == Pagination(|Filter(entries, MatchesFiltro(q.filtro))|, page, limit,
                                                TotalPagesReply(|Filter(entries, MatchesFiltro(q.filtro))|, limit)))
  {
    var page := q.page.GetOr(1);
    var limit := q.limit.GetOr(10);
    var skip := Skip(page, limit);
    var matching := Filter(entries, MatchesFiltro(q.filtro));
    if skip < 0 then Response(SERVER_ERROR, Message(false, "Error al obtener mantenimientos"))
    else
      Response(OK, Listed(SkipLimit(SortDesc(matching, FechaKey), skip, limit),
                          Pagination(|matching|, page, limit, TotalPagesReply(|matching|, limit))))
  }

  /** `GET /mantenimientos/:id`. */
  function GetById(entries: seq<Entry>, id: IdParam): (r: Response)
    ensures id.Malformed? ==> r == Response(BAD_REQUEST, Message(false, ID_INVALIDO))
    ensures r.status == OK <==> id.WellFormed? && exists i :: 0 <= i < |entries| && entries[i].id == id.oid
    ensures r.status == OK ==> r.reply.Found? && r.reply.entry in entries && r.reply.entry.id == id.oid
    ensures id.WellFormed? && r.status != OK ==> r == Response(NOT_FOUND, Message(false, NO_ENCONTRADO))
  {
    if id.Malformed? then Response(BAD_REQUEST, Message(false, ID_INVALIDO))
    else
      var k := IndexOf(entries, EntryId, id.oid);
      if k.None? then Response(NOT_FOUND, Message(false, NO_ENCONTRADO))
      else Response(OK, Found(entries[k.value]))
  }

  /** `GET /mantenimientos/activo/:activoId`: that asset's records, newest start date first, and how many. */
  function GetByActivo(entries: seq<Entry>, activoId: string): (r: Response)
    ensures r.status == OK && r.reply.ByActivo? && r.reply.count == |r.reply.rows|
    ensures multiset(r.reply.rows) == multiset(Filter(entries, OfActivo(activoId)))
    ensures SortedDesc(r.reply.rows, FechaKey)
  {
    var rows := SortDesc(Filter(entries, OfActivo(activoId)), FechaKey);
    Response(OK, ByActivo(rows, |rows|))
  }

  /** `GET /mantenimientos/estadisticas`. */
  function GetEstadisticas(entries: seq<Entry>): (r: Response)
    ensures r.status == OK && r.reply.Stats?
    ensures r.reply.estadisticas.total == |entries|
    ensures r.reply.estadisticas.porEstado == GroupCount(Column(entries, (m: Mantenimiento) => m.estado))
    ensures r.reply.estadisticas.porTipo == GroupCount(Column(entries, (m: Mantenimiento) => m.tipo))
    ensures r.reply.estadisticas.porPrioridad == GroupCount(Column(entries, (m: Mantenimiento) => m.prioridad))
    ensures r.reply.estadisticas.costoTotal == SumCosto(entries)
  {
    Response(OK, Stats(Estadisticas(
      |entries|,
      GroupCount(Column(entries, (m: Mantenimiento) => m.estado)),
      GroupCount(Column(entries, (m: Mantenimiento) => m.tipo)),
      GroupCount(Column(entries, (m: Mantenimiento) => m.prioridad)),
      SumCosto(entries))))
  }

  /** The collection of maintenance records. */
  class MantenimientoStore {
    var entries: seq<Entry>
    var nextId: ObjectId

    /** Ids are distinct and below `nextId`, and every stored record satisfies the schema. */
    ghost predicate Valid()
      reads this
    {
      StoreInvariant(entries, nextId)
    }

    constructor ()
      ensures Valid() && entries == [] && nextId == 0
    {
      entries := [];
      nextId := 0;
    }

    /**
     * `POST /mantenimientos`. `errors` is what the route's chains found and
     * `s` the body after the route's sanitisers; a body the chains accept
     * is castable (`AcceptedCastable`). The route's errors give 400, then
     * the schema's (400 with "Error de validación"); otherwise the new
     * record is stored under a fresh id (201).
     */
    method Create(errors: seq<FieldError>, s: Payload, now: int) returns (r: Response)
      requires Valid() && (errors == [] ==> Castable(s))
      modifies this
      ensures Valid()
      ensures HistorialGrows(old(entries), entries)
      ensures errors != [] ==>
        r == Response(BAD_REQUEST, RuleErrors(errors)) && entries == old(entries) && nextId == old(nextId)
      ensures errors == [] && SchemaErrors(Build(s)) != [] ==>
        && r == Response(BAD_REQUEST, ValidationFailed(SchemaErrors(Build(s))))
        && entries == old(entries) && nextId == old(nextId)
      ensures errors == [] && SchemaErrors(Build(s)) == [] ==>
        var e := Entry(old(nextId), Created(s, now));
        && r == Response(CREATED, Saved("Mantenimiento creado exitosamente", e))
        && entries == old(entries) + [e] && nextId == old(nextId) + 1
    {
      GrowsUnchanged(entries);
      if errors != [] {
        return Response(BAD_REQUEST, RuleErrors(errors));
      }
      var doc := new MantenimientoDoc(s);
      var failures := doc.Save(now);
      if failures != [] {
        return Response(BAD_REQUEST, ValidationFailed(failures));
      }
      SavedIsValid(Build(s), s.estado.Some?, now);
      var e := Append(doc.data);
      r := Response(CREATED, Saved("Mantenimiento creado exitosamente", e));
    }

    /** `doc.save()` of a new record that passed validation: it is stored under the next id. */
    method Append(m: Mantenimiento) returns (e: Entry)
      requires Valid() && SchemaValid(m)
      modifies this
      ensures Valid() && HistorialGrows(old(entries), entries)
      ensures e == Entry(old(nextId), m) && entries == old(entries) + [e] && nextId == old(nextId) + 1
    {
      e := Entry(nextId, m);
      InvariantAfterAppend(entries, nextId, e);
      var after := entries + [e];
      entries, nextId := after, nextId + 1;
      assert StoreInvariant(entries, nextId);
    }

    /**
     * `PUT /mantenimientos/:id`, with the route's `errors` and sanitised
     * body `s` as for `Create`: the route's errors, then the handler's own
     * date check, then the id (400 malformed, 404 unknown), then the schema
     * on the stored record with the body assigned over it; on success the
     * record is replaced in place (200). A body that carries `historial`
     * replaces the stored history (see `UpdateCanEraseHistory`), so the
     * histories are only known to grow when it does not.
     */
    method Update(id: IdParam, errors: seq<FieldError>, s: Payload, now: int) returns (r: Response)
      requires Valid() && (errors == [] ==> Castable(s))
      modifies this
      ensures Valid() && nextId == old(nextId)
      ensures s.historial.None? ==> HistorialGrows(old(entries), entries)
      ensures errors != [] ==>
        r == Response(BAD_REQUEST, RuleErrors(errors)) && entries == old(entries)
      ensures errors == [] && FechasInvertidas(s) ==>
        r == Response(BAD_REQUEST, ValidationFailed([FECHA_FIN_ANTERIOR])) && entries == old(entries)
      ensures errors == [] && !FechasInvertidas(s) && id.Malformed? ==>
        r == Response(BAD_REQUEST, Message(false, ID_INVALIDO)) && entries == old(entries)
      ensures errors == [] && !FechasInvertidas(s) && id.WellFormed? && IndexOf(old(entries), EntryId, id.oid).None? ==>
        r == Response(NOT_FOUND, Message(false, NO_ENCONTRADO)) && entries == old(entries)
      ensures errors == [] && !FechasInvertidas(s) && id.WellFormed? && IndexOf(old(entries), EntryId, id.oid).Some? ==>
        var k := IndexOf(old(entries), EntryId, id.oid).value;
        var m := old(entries)[k].doc;
        var failures := SchemaErrors(Assigned(m, s));
        && (failures != [] ==> r == Response(BAD_REQUEST, ValidationFailed(failures)) && entries == old(entries))
        && (failures == [] ==>
              var e := Entry(id.oid, Updated(m, s, now));
              r == Response(OK, Saved("Mantenimiento actualizado exitosamente", e)) && entries == old(entries)[k := e])
    {
      GrowsUnchanged(entries);
      if errors != [] {
        return Response(BAD_REQUEST, RuleErrors(errors));
      }
      if FechasInvertidas(s) {
        return Response(BAD_REQUEST, ValidationFailed([FECHA_FIN_ANTERIOR]));
      }
      if id.Malformed? {
        return Response(BAD_REQUEST, Message(false, ID_INVALIDO));
      }
      var k := IndexOf(entries, EntryId, id.oid);
      if k.None? {
        return Response(NOT_FOUND, Message(false, NO_ENCONTRADO));
      }
      var m := entries[k.value].doc;
      var doc := new MantenimientoDoc.Load(m);
      doc.Assign(s);
      var failures := doc.Save(now);
      if failures != [] {
        return Response(BAD_REQUEST, ValidationFailed(failures));
      }
      var e := Replace(k.value, Assigned(m, s), Assigned(m, s).estado != m.estado, now);
      assert e == Entry(id.oid, doc.data);
      r := Response(OK, Saved("Mantenimiento actualizado exitosamente", e));
    }

    /** `DELETE /mantenimientos/:id`: 400 malformed, 404 unknown, else the record is removed (200). */
    method Delete(id: IdParam) returns (r: Response)
      requires Valid()
      modifies this
      ensures Valid() && nextId == old(nextId)
      ensures HistorialGrows(old(entries), entries)
      ensures id.Malformed? ==> r == Response(BAD_REQUEST, Message(false, ID_INVALIDO)) && entries == old(entries)
      ensures id.WellFormed? && IndexOf(old(entries), EntryId, id.oid).None? ==>
        r == Response(NOT_FOUND, Message(false, NO_ENCONTRADO)) && entries == old(entries)
      ensures id.WellFormed? && IndexOf(old(entries), EntryId, id.oid).Some? ==>
        var k := IndexOf(old(entries), EntryId, id.oid).value;
        && r == Response(OK, Message(true, "Mantenimiento eliminado exitosamente"))
        && entries == RemoveAt(old(entries), k)
      ensures id.WellFormed? ==> forall i :: 0 <= i < |entries| ==> entries[i].id != id.oid
    {
      GrowsUnchanged(entries);
      if id.Malformed? {
        return Response(BAD_REQUEST, Message(false, ID_INVALIDO));
      }
      var k := IndexOf(entries, EntryId, id.oid);
      if k.None? {
        return Response(NOT_FOUND, Message(false, NO_ENCONTRADO));
      }
      var after := RemoveAt(entries, k.value);
      InvariantAfterRemove(entries, nextId, k.value);
      entries := after;
      assert StoreInvariant(entries, nextId);
      r := Response(OK, Message(true, "Mantenimiento eliminado exitosamente"));
    }

    /**
     * `PATCH /mantenimientos/:id/estado`: a missing or empty `estado` is
     * 400 before any lookup; then the id (400 malformed, 404 unknown); a
     * save the schema refuses (a value outside the four states, a blank
     * user) is not told apart from other failures: 500.
     */
    method CambiarEstado(id: IdParam, estado: Option<string>, usuario: Option<string>, now: int) returns (r: Response)
      requires Valid()
      modifies this
      ensures Valid() && nextId == old(nextId)
      ensures HistorialGrows(old(entries), entries)
      ensures !Truthy(estado) ==>
        r == Response(BAD_REQUEST, Message(false, "El estado es requerido")) && entries == old(entries)
      ensures Truthy(estado) && id.Malformed? ==>
        r == Response(BAD_REQUEST, Message(false, ID_INVALIDO)) && entries == old(entries)
      ensures Truthy(estado) && id.WellFormed? && IndexOf(old(entries), EntryId, id.oid).None? ==>
        r == Response(NOT_FOUND, Message(false, NO_ENCONTRADO)) && entries == old(entries)
      ensures Truthy(estado) && id.WellFormed? && IndexOf(old(entries), EntryId, id.oid).Some? ==>
        var k := IndexOf(old(entries), EntryId, id.oid).value;
        var m := old(entries)[k].doc;
        var c := ConEstado(m, estado.value, usuario.GetOr(SISTEMA), now);
        && (SchemaErrors(c) != [] ==>
              r == Response(SERVER_ERROR, Message(false, "Error al cambiar estado")) && entries == old(entries))
        && (SchemaErrors(c) == [] ==>
              var e := Entry(id.oid, AfterHook(c, estado.value != m.estado, now));
              r == Response(OK, Saved("Estado actualizado exitosamente", e)) && entries == old(entries)[k := e])
    {
      GrowsUnchanged(entries);
      if !Truthy(estado) {
        return Response(BAD_REQUEST, Message(false, "El estado es requerido"));
      }
      if id.Malformed? {
        return Response(BAD_REQUEST, Message(false, ID_INVALIDO));
      }
      var k := IndexOf(entries, EntryId, id.oid);
      if k.None? {
        return Response(NOT_FOUND, Message(false, NO_ENCONTRADO));
      }
      var m := entries[k.value].doc;
      var doc := new MantenimientoDoc.Load(m);
      var errors := doc.CambiarEstado(estado.value, Some(usuario.GetOr(SISTEMA)), now);
      if errors != [] {
        return Response(SERVER_ERROR, Message(false, "Error al cambiar estado"));
      }
      var c := ConEstado(m, estado.value, usuario.GetOr(SISTEMA), now);
      var e := Replace(k.value, c, estado.value != m.estado, now);
      assert e == Entry(id.oid, doc.data);
      r := Response(OK, Saved("Estado actualizado exitosamente", e));
    }

    /**
     * `POST /mantenimientos/:id/notas`: a missing or empty `descripcion` or
     * `autor` is 400 before any lookup; then 404 for an unknown id; a
     * malformed id and a save the schema refuses both end in the catch-all
     * 500.
     */
    method AgregarNota(id: IdParam, descripcion: Option<string>, autor: Option<string>, now: int) returns (r: Response)
      requires Valid()
      modifies this
      ensures Valid() && nextId == old(nextId)
      ensures HistorialGrows(old(entries), entries)
      ensures !Truthy(descripcion) || !Truthy(autor) ==>
        r == Response(BAD_REQUEST, Message(false, "La descripción y el autor son requeridos")) && entries == old(entries)
      ensures Truthy(descripcion) && Truthy(autor) && id.Malformed? ==>
        r == Response(SERVER_ERROR, Message(false, "Error al agregar nota")) && entries == old(entries)
      ensures Truthy(descripcion) && Truthy(autor) && id.WellFormed? && IndexOf(old(entries), EntryId, id.oid).None? ==>
        r == Response(NOT_FOUND, Message(false, NO_ENCONTRADO)) && entries == old(entries)
      ensures Truthy(descripcion) && Truthy(autor) && id.WellFormed? && IndexOf(old(entries), EntryId, id.oid).Some? ==>
        var k := IndexOf(old(entries), EntryId, id.oid).value;
        var n := ConNota(old(entries)[k].doc, descripcion.value, autor.value, now);
        && (SchemaErrors(n) != [] ==>
              r == Response(SERVER_ERROR, Message(false, "Error al agregar nota")) && entries == old(entries))
        && (SchemaErrors(n) == [] ==>
              r == Response(OK, Saved("Nota agregada exitosamente", Entry(id.oid, n)))
              && entries == old(entries)[k := Entry(id.oid, n)])
    {
      GrowsUnchanged(entries);
      if !Truthy(descripcion) || !Truthy(autor) {
        return Response(BAD_REQUEST, Message(false, "La descripción y el autor son requeridos"));
      }
      if id.Malformed? {
        return Response(SERVER_ERROR, Message(false, "Error al agregar nota"));
      }
      var k := IndexOf(entries, EntryId, id.oid);
      if k.None? {
        return Response(NOT_FOUND, Message(false, NO_ENCONTRADO));
      }
      var m := entries[k.value].doc;
      var doc := new MantenimientoDoc.Load(m);
      var errors := doc.AgregarNota(descripcion.value, autor.value, now);
      if errors != [] {
        return Response(SERVER_ERROR, Message(false, "Error al agregar nota"));
      }
      var n := ConNota(m, descripcion.value, autor.value, now);
      assert AfterHook(n, false, now) == n;
      var e := Replace(k.value, n, false, now);
      assert e == Entry(id.oid, doc.data);
      r := Response(OK, Saved("Nota agregada exitosamente", e));
    }

    /**
     * `doc.save()` of a stored record that passed validation: record `k`
     * becomes `c` after the pre-save hook, under its own id.
     */
    method Replace(k: nat, c: Mantenimiento, flag: bool, now: int) returns (e: Entry)
      requires Valid() && k < |entries|
      requires SchemaErrors(c) == []
      modifies this
      ensures Valid() && nextId == old(nextId)
      ensures old(entries)[k].doc.historial <= c.historial ==> HistorialGrows(old(entries), entries)
      ensures e == Entry(old(entries)[k].id, AfterHook(c, flag, now)) && entries == old(entries)[k := e]
    {
      InvariantAfterSavedReplace(entries, nextId, k, c, flag, now);
      e := Entry(entries[k].id, AfterHook(c, flag, now));
      var after := entries[k := e];
      entries := after;
      assert StoreInvariant(entries, nextId);
    }
  }

  // ---------------------------------------------------------------------
  // Properties of the read handlers
  // ---------------------------------------------------------------------

  /** Every listed row is a stored record the filter accepts, and the page is newest first. */
  lemma GetAllRowsMatch(entries: seq<Entry>, q: ListQuery)
    ensures var r := GetAll(entries, q);
      r.status == OK ==>
        && SortedDesc(r.reply.data, FechaKey)
        && forall k :: 0 <= k < |r.reply.data| ==> r.reply.data[k] in entries && Matches(q.filtro, r.reply.data[k].doc)
  {
    var r := GetAll(entries, q);
    if r.status == OK {
      var sorted := SortDesc(Filter(entries, MatchesFiltro(q.filtro)), FechaKey);
      var skip := Skip(q.page.GetOr(1), q.limit.GetOr(10));
      assert r.reply.data == SkipLimit(sorted, skip, q.limit.GetOr(10));
      SkipLimitSorted(sorted, skip, q.limit.GetOr(10), FechaKey);
      WindowMembers(entries, MatchesFiltro(q.filtro), FechaKey, skip, q.limit.GetOr(10));
      var data := r.reply.data;
      forall k | 0 <= k < |data| ensures data[k] in entries && Matches(q.filtro, data[k].doc) {
        assert data[k] in data;
        assert MatchesFiltro(q.filtro)(data[k]);
      }
    }
  }

  /**
   * Paging through the list with any positive `limit` shows every record
   * the filter accepts: it is on page `i / limit + 1`, where `i` is its
   * position in the ordered result.
   */
  lemma EveryMatchOnSomePage(entries: seq<Entry>, q: ListQuery, e: Entry, limit: nat)
    requires limit >= 1 && e in entries && Matches(q.filtro, e.doc)
    ensures exists page: nat ::
      && page >= 1
      && GetAll(entries, q.(page := Some(page), limit := Some(limit))).status == OK
      && e in GetAll(entries, q.(page := Some(page), limit := Some(limit))).reply.data
  {
    var sorted := SortDesc(Filter(entries, MatchesFiltro(q.filtro)), FechaKey);
    MatchIsSorted(entries, q.filtro, e);
    var i :| 0 <= i < |sorted| && sorted[i] == e;
    var page := PageOfRow(sorted, limit, i);
    ListedPage(entries, q, page, limit);
  }

  /** A stored row the filter accepts is in the ordered result. */
  lemma MatchIsSorted(entries: seq<Entry>, f: Filtro, e: Entry)
    requires e in entries && Matches(f, e.doc)
    ensures e in SortDesc(Filter(entries, MatchesFiltro(f)), FechaKey)
  {
    var matching := Filter(entries, MatchesFiltro(f));
    FilterMembers(entries, MatchesFiltro(f));
    assert MatchesFiltro(f)(e);
    assert e in multiset(matching);
    assert e in multiset(SortDesc(matching, FechaKey));
  }

  /** With a positive page and limit, the list is that window of the ordered result. */
  lemma ListedPage(entries: seq<Entry>, q: ListQuery, page: nat, limit: nat)
    requires page >= 1 && limit >= 1
    ensures var r := GetAll(entries, q.(page := Some(page), limit := Some(limit)));
      && r.status == OK
      && r.reply.data == SkipLimit(SortDesc(Filter(entries, MatchesFiltro(q.filtro)), FechaKey), Skip(page, limit), limit)
  {
    assert Skip(page, limit) >= 0;
  }

  /** `count` is the number of the asset's records, and each of them is listed. */
  lemma GetByActivoComplete(entries: seq<Entry>, activoId: string)
    ensures var rows := GetByActivo(entries, activoId).reply.rows;
      forall e :: e in rows <==> e in entries && e.doc.activoId == activoId
  {
    var rows := GetByActivo(entries, activoId).reply.rows;
    FilterMembers(entries, OfActivo(activoId));
    forall e ensures e in rows <==> e in entries && e.doc.activoId == activoId {
      assert e in rows <==> e in multiset(rows);
      assert e in Filter(entries, OfActivo(activoId)) <==> e in multiset(Filter(entries, OfActivo(activoId)));
    }
  }

  /**
   * The statistics agree with each other: each grouping's counts add up to
   * `total`, its keys are values the schema allows, and the cost total is
   * not negative.
   */
  lemma EstadisticasConsistent(entries: seq<Entry>, nextId: ObjectId)
    requires StoreInvariant(entries, nextId)
    ensures var s := GetEstadisticas(entries).reply.estadisticas;
      && SumCantidad(s.porEstado) == s.total
      && SumCantidad(s.porTipo) == s.total
      && SumCantidad(s.porPrioridad) == s.total
      && (forall i :: 0 <= i < |s.porEstado| ==> s.porEstado[i].key in ESTADOS)
      && (forall i :: 0 <= i < |s.porTipo| ==> s.porTipo[i].key in TIPOS)
      && (forall i :: 0 <= i < |s.porPrioridad| ==> s.porPrioridad[i].key in PRIORIDADES)
      && s.costoTotal >= 0.0
  {
    var es := entries;
    var estados := Column(es, (m: Mantenimiento) => m.estado);
    var tipos := Column(es, (m: Mantenimiento) => m.tipo);
    var prioridades := Column(es, (m: Mantenimiento) => m.prioridad);
    GroupCountSum(estados);
    GroupCountSum(tipos);
    GroupCountSum(prioridades);
    var g := GroupCount(estados);
    forall i | 0 <= i < |g| ensures g[i].key in ESTADOS {
      assert g[i].key in estados;
    }
    var t := GroupCount(tipos);
    forall i | 0 <= i < |t| ensures t[i].key in TIPOS {
      assert t[i].key in tipos;
    }
    var p := GroupCount(prioridades);
    forall i | 0 <= i < |p| ensures p[i].key in PRIORIDADES {
      assert p[i].key in prioridades;
    }
    SumCostoNonNegative(es);
  }
}

=== FILE: mantenimiento_model.dfy ===
/**
 * The maintenance record ("mantenimiento") of servicio-mantenimientos: its
 * sub-records (parts, notes, history entries, technician), the field
 * constraints the document schema enforces on every save, the derived total
 * cost, and the document object whose two mutators and pre-save hook append
 * to the notes and to the history.
 */
module MantenimientoModel {

  import opened Wrappers
  import opened Text
  import opened Http

  const TIPOS: seq<string> := ["preventivo", "correctivo", "predictivo", "emergencia"]
  const ESTADOS: seq<string> := ["pendiente", "en_proceso", "completado", "cancelado"]
  const PRIORIDADES: seq<string> := ["baja", "media", "alta", "critica"]
  const ESTADO_INICIAL := "pendiente"
  const PRIORIDAD_INICIAL := "media"
  const DESCRIPCION_MIN := 10
  /** The author of the history entries nobody else signs. */
  const SISTEMA := "Sistema"

  /** A part used: name, quantity and unit cost. */
  datatype Pieza = Pieza(nombre: string, cantidad: real, costo: real)

  /** A note: when, what and who. */
  datatype Nota = Nota(fecha: int, descripcion: string, autor: string)

  /** A history entry: when, which change and who made it. */
  datatype Cambio = Cambio(fecha: int, cambio: string, usuario: string)

  datatype Tecnico = Tecnico(nombre: string, contacto: Option<string>, especialidad: Option<string>)

  /**
   * A stored maintenance record. A required string the document never
   * received is "" (the schema rejects "" and a missing value alike); dates
   * are instants; `tecnico` is absent until a body provides one.
   */
  datatype Mantenimiento = Mantenimiento(
    activoId: string,
    tipo: string,
    descripcion: string,
    fechaInicio: Option<int>,
    fechaFin: Option<int>,
    costo: real,
    tecnico: Option<Tecnico>,
    piezas: seq<Pieza>,
    estado: string,
    prioridad: string,
    notas: seq<Nota>,
    historial: seq<Cambio>,
    duracionEstimada: Option<real>,
    duracionReal: Option<real>)

  // ---------------------------------------------------------------------
  // Request bodies, as handed to the document constructor and to Object.assign
  // ---------------------------------------------------------------------

  datatype PiezaPayload = PiezaPayload(nombre: Option<string>, cantidad: Option<Num>, costo: Option<Num>)

  /** The `piezas` field of a body: an array, or some other JSON value. */
  datatype PiezasPayload = Items(items: seq<PiezaPayload>) | NotArray

  datatype TecnicoPayload = TecnicoPayload(nombre: Option<string>, contacto: Option<string>, especialidad: Option<string>)

  /** A note or a history entry of a body: its date and its two texts, either of which may be absent. */
  datatype NotaPayload = NotaPayload(fecha: int, descripcion: Option<string>, autor: Option<string>)

  datatype CambioPayload = CambioPayload(fecha: int, cambio: Option<string>, usuario: Option<string>)

  /** The fields of a request body the rules and the schema know; `None` is an absent field. */
  datatype Payload = Payload(
    activoId: Option<string>,
    tipo: Option<string>,
    descripcion: Option<string>,
    fechaInicio: Option<DateInput>,
    fechaFin: Option<DateInput>,
    costo: Option<Num>,
    tecnico: Option<TecnicoPayload>,
    piezas: Option<PiezasPayload>,
    estado: Option<string>,
    prioridad: Option<string>,
    notas: Option<seq<NotaPayload>>,
    historial: Option<seq<CambioPayload>>,
    duracionEstimada: Option<Num>,
    duracionReal: Option<Num>)

  predicate DateCastable(d: Option<DateInput>) {
    d.None? || d.value.time.Some?
  }

  predicate NumCastable(n: Option<Num>) {
    n.None? || n.value.Number?
  }

  predicate PiezaCastable(x: PiezaPayload) {
    x.cantidad.Some? && x.cantidad.value.Number? && x.costo.Some? && x.costo.value.Number?
  }

  /**
   * The body's values can be stored in the schema's types (dates parse,
   * numbers are numbers, `piezas` is an array of parts with their numbers);
   * otherwise the document store refuses them with a cast error.
   */
  predicate Castable(p: Payload) {
    && DateCastable(p.fechaInicio) && DateCastable(p.fechaFin)
    && NumCastable(p.costo) && NumCastable(p.duracionEstimada) && NumCastable(p.duracionReal)
    && PiezasCastable(p.piezas)
  }

  predicate PiezasCastable(p: Option<PiezasPayload>) {
    p.Some? ==> p.value.Items? && forall i :: 0 <= i < |p.value.items| ==> PiezaCastable(p.value.items[i])
  }

  /** Every string field of the sub-schemas is declared `trim: true`. */
  function CastTecnico(t: TecnicoPayload): Tecnico {
    Tecnico(Trim(t.nombre.GetOr("")), TrimOpt(t.contacto), TrimOpt(t.especialidad))
  }

  function CastPieza(x: PiezaPayload): Pieza
    requires PiezaCastable(x)
  {
    Pieza(Trim(x.nombre.GetOr("")), x.cantidad.value.value, x.costo.value.value)
  }

  function CastNota(x: NotaPayload): Nota {
    Nota(x.fecha, Trim(x.descripcion.GetOr("")), Trim(x.autor.GetOr("")))
  }

  function CastCambio(x: CambioPayload): Cambio {
    Cambio(x.fecha, Trim(x.cambio.GetOr("")), Trim(x.usuario.GetOr("")))
  }

  /** The notes of a body, in order, each with its two texts trimmed. */
  function CastNotas(items: seq<NotaPayload>): (ns: seq<Nota>)
    ensures |ns| == |items|
    ensures forall i :: 0 <= i < |items| ==> ns[i] == CastNota(items[i])
  {
    seq(|items|, i requires 0 <= i < |items| => CastNota(items[i]))
  }

  /** The history entries of a body, in order, each with its two texts trimmed. */
  function CastHistorial(items: seq<CambioPayload>): (cs: seq<Cambio>)
    ensures |cs| == |items|
    ensures forall i :: 0 <= i < |items| ==> cs[i] == CastCambio(items[i])
  {
    seq(|items|, i requires 0 <= i < |items| => CastCambio(items[i]))
  }

  /** The parts of a body, in order, each with its name trimmed. */
  function CastPiezas(items: seq<PiezaPayload>): (ps: seq<Pieza>)
    requires forall i :: 0 <= i < |items| ==> PiezaCastable(items[i])
    ensures |ps| == |items|
    ensures forall i :: 0 <= i < |items| ==> ps[i] == CastPieza(items[i])
  {
    seq(|items|, i requires 0 <= i < |items| => CastPieza(items[i]))
  }

  function TrimmedOr(v: Option<string>, d: string): string {
    if v.Some? then Trim(v.value) else d
  }

  function DateOr(v: Option<DateInput>, d: Option<int>): Option<int> {
    if v.Some? then v.value.time else d
  }

  function NumOr(v: Option<Num>, d: real): real
    requires NumCastable(v)
  {
    if v.Some? then v.value.value else d
  }

  function OptNumOr(v: Option<Num>, d: Option<real>): Option<real>
    requires NumCastable(v)
  {
    if v.Some? then Some(v.value.value) else d
  }

  function TecnicoOr(v: Option<TecnicoPayload>, d: Option<Tecnico>): Option<Tecnico> {
    if v.Some? then Some(CastTecnico(v.value)) else d
  }

  function PiezasOr(v: Option<PiezasPayload>, d: seq<Pieza>): seq<Pieza>
    requires PiezasCastable(v)
  {
    if v.Some? then CastPiezas(v.value.items) else d
  }

  function NotasOr(v: Option<seq<NotaPayload>>, d: seq<Nota>): seq<Nota> {
    if v.Some? then CastNotas(v.value) else d
  }

  function HistorialOr(v: Option<seq<CambioPayload>>, d: seq<Cambio>): seq<Cambio> {
    if v.Some? then CastHistorial(v.value) else d
  }

  /**
   * `Object.assign(doc, body)`: every field the body carries replaces the
   * document's (a nested `tecnico`, `piezas`, `notas` or `historial` as a
   * whole); every other field keeps its value.
   */
  function Assigned(m: Mantenimiento, p: Payload): (r: Mantenimiento)
    requires Castable(p)
    ensures p.notas.None? ==> r.notas == m.notas
    ensures p.historial.None? ==> r.historial == m.historial
    ensures p.historial.Some? ==> |r.historial| == |p.historial.value|
    ensures p.estado.None? ==> r.estado == m.estado
    ensures p.fechaFin.None? ==> r.fechaFin == m.fechaFin
    ensures p.piezas.None? ==> r.piezas == m.piezas
  {
    Mantenimiento(
      p.activoId.GetOr(m.activoId),
      p.tipo.GetOr(m.tipo),
      TrimmedOr(p.descripcion, m.descripcion),
      DateOr(p.fechaInicio, m.fechaInicio),
      DateOr(p.fechaFin, m.fechaFin),
      NumOr(p.costo, m.costo),
      TecnicoOr(p.tecnico, m.tecnico),
      PiezasOr(p.piezas, m.piezas),
      p.estado.GetOr(m.estado),
      p.prioridad.GetOr(m.prioridad),
      NotasOr(p.notas, m.notas),
      HistorialOr(p.historial, m.historial),
      OptNumOr(p.duracionEstimada, m.duracionEstimada),
      OptNumOr(p.duracionReal, m.duracionReal))
  }

  /** A body with no field at all. */
  const EMPTY_PAYLOAD := Payload(None, None, None, None, None, None, None, None, None, None, None, None, None, None)

  /** An empty body changes nothing. */
  lemma AssignEmptyIsIdentity(m: Mantenimiento)
    ensures Assigned(m, EMPTY_PAYLOAD) == m
  {
  }

  /** Assigning the same body twice is assigning it once. */
  lemma AssignIdempotent(m: Mantenimiento, p: Payload)
    requires Castable(p)
    ensures Assigned(Assigned(m, p), p) == Assigned(m, p)
  {
    var once := Assigned(m, p);
    var twice := Assigned(once, p);
    if p.descripcion.Some? {
      TrimIdempotent(p.descripcion.value);
    }
    assert twice.descripcion == once.descripcion;
    assert twice.piezas == once.piezas;
    assert twice.tecnico == once.tecnico;
  }

  /** The document before any body is applied: the schema's defaults, nothing else. */
  const BLANK := Mantenimiento("", "", "", None, None, 0.0, None, [], ESTADO_INICIAL, PRIORIDAD_INICIAL, [], [], None, None)

  /** `new Mantenimiento(body)`: the body over the schema's defaults. */
  function Build(p: Payload): (r: Mantenimiento)
    requires Castable(p)
    ensures p.estado.None? ==> r.estado == "pendiente"
    ensures p.prioridad.None? ==> r.prioridad == "media"
    ensures p.costo.None? ==> r.costo == 0.0
    ensures p.piezas.None? ==> r.piezas == []
    ensures p.notas.None? ==> r.notas == []
    ensures p.historial.None? ==> r.historial == []
  {
    Assigned(BLANK, p)
  }

  // ---------------------------------------------------------------------
  // Derived total cost
  // ---------------------------------------------------------------------

  /** `piezas.reduce((total, p) => total + p.costo * p.cantidad, 0)`. */
  function SumPiezas(ps: seq<Pieza>): real {
    if ps == [] then 0.0
    else SumPiezas(ps[..|ps| - 1]) + ps[|ps| - 1].costo * ps[|ps| - 1].cantidad
  }

  /** The `costo_total` virtual: the service cost plus what the parts cost. */
  function CostoTotal(m: Mantenimiento): (r: real)
    ensures r == m.costo + SumPiezas(m.piezas)
    ensures m.piezas == [] ==> r == m.costo
  {
    m.costo + SumPiezas(m.piezas)
  }

  /** Valid parts never cost less than nothing. */
  lemma {:induction false} SumPiezasNonNegative(ps: seq<Pieza>)
    requires forall i :: 0 <= i < |ps| ==> PiezaValid(ps[i])
    ensures SumPiezas(ps) >= 0.0
  {
    if ps != [] {
      SumPiezasNonNegative(ps[..|ps| - 1]);
      var last := ps[|ps| - 1];
      assert PiezaValid(last);
      assert last.costo * last.cantidad >= 0.0;
    }
  }

  /** On a record the schema accepts, the total is at least the service cost. */
  lemma CostoTotalAtLeastCosto(m: Mantenimiento)
    requires SchemaValid(m)
    ensures CostoTotal(m) >= m.costo >= 0.0
  {
    SumPiezasNonNegative(m.piezas);
  }

  /** The parts' cost is additive over any split of the parts list. */
  lemma {:induction false} SumPiezasAppend(a: seq<Pieza>, b: seq<Pieza>)
    ensures SumPiezas(a + b) == SumPiezas(a) + SumPiezas(b)
  {
    if b != [] {
      var ab := a + b;
      assert ab[..|ab| - 1] == a + b[..|b| - 1];
      SumPiezasAppend(a, b[..|b| - 1]);
    } else {
      assert a + b == a;
    }
  }

  /** One more part of `cantidad` units at `costo` each raises the total by exactly their product. */
  lemma CostoTotalAddPieza(m: Mantenimiento, p: Pieza)
    ensures CostoTotal(m.(piezas := m.piezas + [p])) == CostoTotal(m) + p.costo * p.cantidad
  {
    SumPiezasAppend(m.piezas, [p]);
    assert SumPiezas([p]) == p.costo * p.cantidad by {
      assert [p][..0] == [];
    }
  }

  // ---------------------------------------------------------------------
  // Schema validation
  // ---------------------------------------------------------------------

  predicate PiezaValid(p: Pieza) {
    p.nombre != "" && p.cantidad >= 1.0 && p.costo >= 0.0
  }

  predicate NotaValid(n: Nota) {
    n.descripcion != "" && n.autor != ""
  }

  predicate CambioValid(c: Cambio) {
    c.cambio != "" && c.usuario != ""
  }

  predicate PiezasValid(ps: seq<Pieza>) {
    forall i :: 0 <= i < |ps| ==> PiezaValid(ps[i])
  }

  predicate NotasValid(ns: seq<Nota>) {
    forall i :: 0 <= i < |ns| ==> NotaValid(ns[i])
  }

  predicate HistorialValid(cs: seq<Cambio>) {
    forall i :: 0 <= i < |cs| ==> CambioValid(cs[i])
  }

  /**
   * What the schema demands of a stored record: the required fields, the
   * three enumerations, a description of at least ten characters, an end
   * date not before the start date, non-negative amounts, and valid parts,
   * notes and history entries.
   */
  ghost predicate SchemaValid(m: Mantenimiento) {
    SchemaValidApartFromFechaFin(m) && FechaFinErrors(m) == []
  }

  /** Every constraint of the schema except the end-date rule. */
  ghost predicate SchemaValidApartFromFechaFin(m: Mantenimiento) {
    && m.activoId != ""
    && m.tipo in TIPOS
    && |m.descripcion| >= DESCRIPCION_MIN
    && m.fechaInicio.Some?
    && m.costo >= 0.0
    && m.tecnico.Some? && m.tecnico.value.nombre != ""
    && PiezasValid(m.piezas)
    && m.estado in ESTADOS
    && m.prioridad in PRIORIDADES
    && NotasValid(m.notas)
    && HistorialValid(m.historial)
    && (m.duracionEstimada.Some? ==> m.duracionEstimada.value >= 0.0)
    && (m.duracionReal.Some? ==> m.duracionReal.value >= 0.0)
  }

  /** With a start date, the end-date rule accepts a missing end or one not before the start. */
  lemma FechaFinRule(m: Mantenimiento)
    requires m.fechaInicio.Some?
    ensures FechaFinErrors(m) == [] <==> (m.fechaFin.Some? ==> m.fechaFin.value >= m.fechaInicio.value)
  {
  }

  function Path(list: string, i: nat, field: string): string {
    list + "." + NatToString(i) + "." + field
  }

  /** A required field with an enumeration: "required" when empty, the enum message otherwise. */
  function EnumErrors(field: string, v: string, values: seq<string>, required: string, invalid: string): (r: seq<FieldError>)
    ensures r == [] <==> v in values
    ensures |r| <= 1
  {
    if v in values then []
    else if v == "" then [FieldError(field, required)]
    else [FieldError(field, v + invalid)]
  }

  function PiezaErrors(p: Pieza, i: nat): seq<FieldError> {
    (if p.nombre == "" then [FieldError(Path("piezas", i, "nombre"), "El nombre de la pieza es requerido")] else [])
    + (if p.cantidad < 1.0 then [FieldError(Path("piezas", i, "cantidad"), "La cantidad debe ser al menos 1")] else [])
    + (if p.costo < 0.0 then [FieldError(Path("piezas", i, "costo"), "El costo debe ser mayor o igual a 0")] else [])
  }

  /** The errors of the parts `ps`, the first of which sits at index `start`. */
  function PiezasErrors(ps: seq<Pieza>, start: nat): (r: seq<FieldError>)
    ensures r == [] <==> PiezasValid(ps)
  {
    if ps == [] then [] else PiezaErrors(ps[0], start) + PiezasErrors(ps[1..], start + 1)
  }

  function NotaErrors(n: Nota, i: nat): seq<FieldError> {
    (if n.descripcion == "" then [FieldError(Path("notas", i, "descripcion"), "La descripción de la nota es requerida")] else [])
    + (if n.autor == "" then [FieldError(Path("notas", i, "autor"), "El autor de la nota es requerido")] else [])
  }

  function NotasErrors(ns: seq<Nota>, start: nat): (r: seq<FieldError>)
    ensures r == [] <==> NotasValid(ns)
  {
    if ns == [] then [] else NotaErrors(ns[0], start) + NotasErrors(ns[1..], start + 1)
  }

  function CambioErrors(c: Cambio, i: nat): seq<FieldError> {
    (if c.cambio == "" then [FieldError(Path("historial", i, "cambio"), "Path `cambio` is required.")] else [])
    + (if c.usuario == "" then [FieldError(Path("historial", i, "usuario"), "Path `usuario` is required.")] else [])
  }

  function HistorialErrors(cs: seq<Cambio>, start: nat): (r: seq<FieldError>)
    ensures r == [] <==> HistorialValid(cs)
  {
    if cs == [] then [] else CambioErrors(cs[0], start) + HistorialErrors(cs[1..], start + 1)
  }

  function FechaFinErrors(m: Mantenimiento): seq<FieldError> {
    if m.fechaFin.Some? && (m.fechaInicio.None? || m.fechaFin.value < m.fechaInicio.value) then
      [FieldError("fecha_fin", "La fecha de fin debe ser posterior a la fecha de inicio")]
    else []
  }

  function TecnicoErrors(t: Option<Tecnico>): seq<FieldError> {
    if t.None? then [FieldError("tecnico", "La información del técnico es requerida")]
    else if t.value.nombre == "" then [FieldError("tecnico.nombre", "El nombre del técnico es requerido")]
    else []
  }

  /**
   * The errors a save reports, one per failing path (the first validator of
   * that path to fail), in schema order.
   */
  function SchemaErrors(m: Mantenimiento): seq<FieldError> {
    HeadErrors(m) + FechaFinErrors(m) + BodyErrors(m) + ListErrors(m)
  }

  /** The paths before `fecha_fin`: `activoId`, `tipo`, `descripcion`, `fecha_inicio`. */
  function HeadErrors(m: Mantenimiento): (r: seq<FieldError>)
    ensures r == [] <==>
      m.activoId != "" && m.tipo in TIPOS && |m.descripcion| >= DESCRIPCION_MIN && m.fechaInicio.Some?
  {
    (if m.activoId == "" then [FieldError("activoId", "El ID del activo es requerido")] else [])
    + EnumErrors("tipo", m.tipo, TIPOS, "El tipo de mantenimiento es requerido", " no es un tipo de mantenimiento válido")
    + (if m.descripcion == "" then [FieldError("descripcion", "La descripción es requerida")]
       else if |m.descripcion| < DESCRIPCION_MIN then [FieldError("descripcion", "La descripción debe tener al menos 10 caracteres")]
       else [])
    + (if m.fechaInicio.None? then [FieldError("fecha_inicio", "La fecha de inicio es requerida")] else [])
  }

  /** The paths from `costo` to `prioridad`: the amounts, the technician, the parts and the two enumerations. */
  function BodyErrors(m: Mantenimiento): (r: seq<FieldError>)
    ensures r == [] <==>
      && m.costo >= 0.0
      && m.tecnico.Some? && m.tecnico.value.nombre != ""
      && PiezasValid(m.piezas)
      && m.estado in ESTADOS
      && m.prioridad in PRIORIDADES
  {
    (if m.costo < 0.0 then [FieldError("costo", "El costo debe ser mayor o igual a 0")] else [])
    + TecnicoErrors(m.tecnico)
    + PiezasErrors(m.piezas, 0)
    + EnumErrors("estado", m.estado, ESTADOS, "Path `estado` is required.", " no es un estado válido")
    + EnumErrors("prioridad", m.prioridad, PRIORIDADES, "Path `prioridad` is required.", " no es una prioridad válida")
  }

  /** The last paths: the notes, the history and the two durations. */
  function ListErrors(m: Mantenimiento): (r: seq<FieldError>)
    ensures r == [] <==>
      && NotasValid(m.notas)
      && HistorialValid(m.historial)
      && (m.duracionEstimada.Some? ==> m.duracionEstimada.value >= 0.0)
      && (m.duracionReal.Some? ==> m.duracionReal.value >= 0.0)
  {
    NotasErrors(m.notas, 0)
    + HistorialErrors(m.historial, 0)
    + (if m.duracionEstimada.Some? && m.duracionEstimada.value < 0.0 then
         [FieldError("duracion_estimada", "La duración estimada debe ser mayor o igual a 0")] else [])
    + (if m.duracionReal.Some? && m.duracionReal.value < 0.0 then
         [FieldError("duracion_real", "La duración real debe ser mayor o igual a 0")] else [])
  }

  /** A save reports no error exactly when the record satisfies the schema. */
  lemma SchemaErrorsEmptyIff(m: Mantenimiento)
    ensures SchemaErrors(m) == [] <==> SchemaValid(m)
  {
    var h, f, b, l := HeadErrors(m), FechaFinErrors(m), BodyErrors(m), ListErrors(m);
    assert |SchemaErrors(m)| == |h| + |f| + |b| + |l|;
    assert SchemaValid(m) <==> |h| == 0 && |f| == 0 && |b| == 0 && |l| == 0;
  }

  /** A record valid apart from the end-date rule is reported for that rule alone. */
  lemma SchemaErrorsOnlyFechaFin(m: Mantenimiento)
    requires SchemaValidApartFromFechaFin(m)
    ensures SchemaErrors(m) == FechaFinErrors(m)
  {
    assert HeadErrors(m) == [] && BodyErrors(m) == [] && ListErrors(m) == [];
    assert [] + FechaFinErrors(m) + [] + [] == FechaFinErrors(m);
  }

  /**
   * A record valid apart from the end-date rule and its two lists is
   * reported for that rule and for its invalid notes and history entries,
   * in that order, and for nothing else.
   */
  lemma SchemaErrorsApartFromLists(m: Mantenimiento)
    requires SchemaValidApartFromFechaFin(m.(notas := [], historial := []))
    ensures SchemaErrors(m) == FechaFinErrors(m) + NotasErrors(m.notas, 0) + HistorialErrors(m.historial, 0)
  {
    assert HeadErrors(m) == [] && BodyErrors(m) == [];
    var n, h := NotasErrors(m.notas, 0), HistorialErrors(m.historial, 0);
    assert ListErrors(m) == n + h + [] + [];
    assert [] + FechaFinErrors(m) + [] + (n + h + [] + []) == FechaFinErrors(m) + n + h;
  }

  /** The end-date rule accepts equal dates and rejects an earlier end. */
  lemma FechaFinBoundary(m: Mantenimiento, t: int)
    requires m.fechaInicio == Some(t)
    ensures FechaFinErrors(m.(fechaFin := Some(t))) == []
    ensures FechaFinErrors(m.(fechaFin := Some(t - 1))) != []
    ensures FechaFinErrors(m.(fechaFin := None)) == []
  {
  }

  // ---------------------------------------------------------------------
  // The document object
  // ---------------------------------------------------------------------

  function EstadoCambiadoA(estado: string): string {
    "Estado cambiado a: " + estado
  }

  /**
   * What the pre-save hook appends: one 'Sistema' entry when `estado` was
   * modified, nothing otherwise. The hook runs after validation, so `estado`
   * is one of the four states and the entry's text has no white space at
   * either end to trim; the entry `cambiarEstado` pushes itself, by contrast,
   * is trimmed when it is cast, before validation.
   */
  function HookEntries(estadoModificado: bool, estado: string, now: int): (r: seq<Cambio>)
    ensures |r| == if estadoModificado then 1 else 0
    ensures estadoModificado ==> r[0].usuario == SISTEMA && r[0].cambio == EstadoCambiadoA(estado)
  {
    if estadoModificado then [Cambio(now, EstadoCambiadoA(estado), SISTEMA)] else []
  }

  /** The record after a save that passed validation: the hook's entry, if any, appended to the history. */
  function AfterHook(m: Mantenimiento, estadoModificado: bool, now: int): (r: Mantenimiento)
    ensures m.historial <= r.historial
    ensures r.(historial := m.historial) == m
  {
    m.(historial := m.historial + HookEntries(estadoModificado, m.estado, now))
  }

  /** The hook's entry is a valid history entry, so a valid record stays valid. */
  lemma HookKeepsSchemaValid(m: Mantenimiento, estadoModificado: bool, now: int)
    requires SchemaValid(m)
    ensures SchemaValid(AfterHook(m, estadoModificado, now))
  {
    var h := AfterHook(m, estadoModificado, now).historial;
    forall i | 0 <= i < |h| ensures CambioValid(h[i]) {
      if i >= |m.historial| {
        assert h[i] == Cambio(now, EstadoCambiadoA(m.estado), SISTEMA);
      }
    }
  }

  /** `agregarNota` before its save: one note, dated `now`, with its two fields trimmed. */
  function ConNota(m: Mantenimiento, descripcion: string, autor: string, now: int): (r: Mantenimiento)
    ensures r.notas == m.notas + [Nota(now, Trim(descripcion), Trim(autor))]
    ensures r.(notas := m.notas) == m
  {
    m.(notas := m.notas + [Nota(now, Trim(descripcion), Trim(autor))])
  }

  /** `cambiarEstado` before its save: the new `estado` and an entry signed by `usuario`. */
  function ConEstado(m: Mantenimiento, nuevoEstado: string, usuario: string, now: int): (r: Mantenimiento)
    ensures r.estado == nuevoEstado
    ensures r.historial == m.historial + [Cambio(now, Trim(EstadoCambiadoA(nuevoEstado)), Trim(usuario))]
    ensures r.(estado := m.estado, historial := m.historial) == m
  {
    m.(estado := nuevoEstado,
       historial := m.historial + [Cambio(now, Trim(EstadoCambiadoA(nuevoEstado)), Trim(usuario))])
  }

  /** The text of a history entry never trims to nothing: it starts with a letter. */
  lemma EstadoCambiadoANotBlank(estado: string)
    ensures Trim(EstadoCambiadoA(estado)) != ""
  {
    var t := EstadoCambiadoA(estado);
    TrimEmptyIff(t);
    assert t[0] == 'E' && !IsSpace(t[0]);
  }

  /**
   * On a valid record, the save that ends `agregarNota` succeeds exactly
   * when neither the note's text nor its author is blank.
   */
  lemma AgregarNotaSavesIff(m: Mantenimiento, descripcion: string, autor: string, now: int)
    requires SchemaValid(m)
    ensures SchemaErrors(ConNota(m, descripcion, autor, now)) == [] <==> Trim(descripcion) != "" && Trim(autor) != ""
  {
    SchemaErrorsEmptyIff(ConNota(m, descripcion, autor, now));
    ConNotaValidIff(m, descripcion, autor, now);
  }

  /** The schema half of `AgregarNotaSavesIff`: only the new note can make the record invalid. */
  lemma ConNotaValidIff(m: Mantenimiento, descripcion: string, autor: string, now: int)
    requires SchemaValid(m)
    ensures SchemaValid(ConNota(m, descripcion, autor, now)) <==> Trim(descripcion) != "" && Trim(autor) != ""
  {
    var x := Nota(now, Trim(descripcion), Trim(autor));
    assert ConNota(m, descripcion, autor, now) == m.(notas := m.notas + [x]);
    NotasAppendValid(m.notas, x);
  }

  /** Appending a note to valid notes leaves them valid exactly when the note is. */
  lemma NotasAppendValid(ns: seq<Nota>, x: Nota)
    requires NotasValid(ns)
    ensures NotasValid(ns + [x]) <==> NotaValid(x)
  {
    assert (ns + [x])[|ns|] == x;
    forall i | 0 <= i < |ns| ensures (ns + [x])[i] == ns[i] {}
  }

  /** Appending an entry to a valid history leaves it valid exactly when the entry is. */
  lemma HistorialAppendValid(cs: seq<Cambio>, x: Cambio)
    requires HistorialValid(cs)
    ensures HistorialValid(cs + [x]) <==> CambioValid(x)
  {
    assert (cs + [x])[|cs|] == x;
    forall i | 0 <= i < |cs| ensures (cs + [x])[i] == cs[i] {}
  }

  /**
   * On a valid record, the save that ends `cambiarEstado` succeeds exactly
   * when the new value is one of the four states and the user is not blank;
   * any other value is refused by the schema.
   */
  lemma CambiarEstadoSavesIff(m: Mantenimiento, nuevoEstado: string, usuario: string, now: int)
    requires SchemaValid(m)
    ensures SchemaErrors(ConEstado(m, nuevoEstado, usuario, now)) == [] <==> nuevoEstado in ESTADOS && Trim(usuario) != ""
  {
    SchemaErrorsEmptyIff(ConEstado(m, nuevoEstado, usuario, now));
    ConEstadoValidIff(m, nuevoEstado, usuario, now);
  }

  /** The schema half of `CambiarEstadoSavesIff`: only the new state and the new entry can make the record invalid. */
  lemma ConEstadoValidIff(m: Mantenimiento, nuevoEstado: string, usuario: string, now: int)
    requires SchemaValid(m)
    ensures SchemaValid(ConEstado(m, nuevoEstado, usuario, now)) <==> nuevoEstado in ESTADOS && Trim(usuario) != ""
  {
    var x := Cambio(now, Trim(EstadoCambiadoA(nuevoEstado)), Trim(usuario));
    SchemaValidWith(m, nuevoEstado, m.historial + [x]);
    HistorialAppendValid(m.historial, x);
    EstadoCambiadoANotBlank(nuevoEstado);
  }

  /** The schema reads `estado` and `historial` only through their own rules. */
  lemma SchemaValidWith(m: Mantenimiento, estado: string, historial: seq<Cambio>)
    requires SchemaValid(m)
    ensures SchemaValid(m.(estado := estado, historial := historial)) <==> estado in ESTADOS && HistorialValid(historial)
  {
  }

  /**
   * A successful `cambiarEstado` on a loaded record leaves the earlier
   * history in place and adds the caller's entry, followed by the hook's
   * 'Sistema' entry exactly when the value changed: one or two entries,
   * never none.
   */
  lemma CambiarEstadoHistorial(m: Mantenimiento, nuevoEstado: string, usuario: string, now: int)
    ensures var h := AfterHook(ConEstado(m, nuevoEstado, usuario, now), nuevoEstado != m.estado, now).historial;
      && m.historial <= h
      && |h| == |m.historial| + (if nuevoEstado != m.estado then 2 else 1)
      && h[|m.historial|].usuario == Trim(usuario)
      && (nuevoEstado != m.estado ==> h[|h| - 1] == Cambio(now, EstadoCambiadoA(nuevoEstado), SISTEMA))
  {
  }

  /**
   * A loaded or newly built document: its current values and whether
   * `estado` has been set to a new value since it was built or loaded (the
   * document store's dirty flag for that path, which the pre-save hook reads).
   */
  class MantenimientoDoc {
    var data: Mantenimiento
    var estadoModificado: bool

    /**
     * `new Mantenimiento(body)`. On a new document every path the body sets
     * counts as modified; a defaulted `estado` does not.
     */
    constructor (p: Payload)
      requires Castable(p)
      ensures data == Build(p)
      ensures estadoModificado == p.estado.Some?
    {
      data := Build(p);
      estadoModificado := p.estado.Some?;
    }

    /** A document as `findById` returns it: nothing modified yet. */
    constructor Load(m: Mantenimiento)
      ensures data == m && !estadoModificado
    {
      data := m;
      estadoModificado := false;
    }

    /** `Object.assign(doc, body)`: `estado` becomes modified when it takes a different value. */
    method Assign(p: Payload)
      requires Castable(p)
      modifies this
      ensures data == Assigned(old(data), p)
      ensures estadoModificado == (old(estadoModificado) || data.estado != old(data).estado)
    {
      var before := data.estado;
      data := Assigned(data, p);
      estadoModificado := estadoModificado || data.estado != before;
    }

    /**
     * `save()`: validation runs first; a record the schema rejects is left
     * as it was and the errors are returned. Otherwise the pre-save hook
     * appends its entry when `estado` was modified, and the dirty flag clears.
     */
    method Save(now: int) returns (errors: seq<FieldError>)
      modifies this
      ensures errors == SchemaErrors(old(data))
      ensures errors != [] ==> data == old(data) && estadoModificado == old(estadoModificado)
      ensures errors == [] ==> data == AfterHook(old(data), old(estadoModificado), now) && !estadoModificado
    {
      errors := SchemaErrors(data);
      if errors == [] {
        data := data.(historial := data.historial + HookEntries(estadoModificado, data.estado, now));
        estadoModificado := false;
      }
    }

    /** `agregarNota`: appends one note at the end of `notas`, then saves. */
    method AgregarNota(descripcion: string, autor: string, now: int) returns (errors: seq<FieldError>)
      modifies this
      ensures errors == SchemaErrors(ConNota(old(data), descripcion, autor, now))
      ensures errors != [] ==> data == ConNota(old(data), descripcion, autor, now)
      ensures errors == [] ==> data == AfterHook(ConNota(old(data), descripcion, autor, now), old(estadoModificado), now)
    {
      data := ConNota(data, descripcion, autor, now);
      errors := Save(now);
    }

    /**
     * `cambiarEstado(nuevoEstado, usuario = 'Sistema')`: sets `estado`,
     * appends an entry signed by `usuario`, then saves, so that a new value
     * also draws the hook's 'Sistema' entry after it.
     */
    method CambiarEstado(nuevoEstado: string, usuario: Option<string>, now: int) returns (errors: seq<FieldError>)
      modifies this
      ensures var c := ConEstado(old(data), nuevoEstado, usuario.GetOr(SISTEMA), now);
        && errors == SchemaErrors(c)
        && (errors != [] ==> data == c)
        && (errors == [] ==> data == AfterHook(c, old(estadoModificado) || nuevoEstado != old(data).estado, now))
    {
      estadoModificado := estadoModificado || nuevoEstado != data.estado;
      data := ConEstado(data, nuevoEstado, usuario.GetOr(SISTEMA), now);
      errors := Save(now);
    }
  }

  /** One `agregarNota` call: the description, the author and the time it runs at. */
  datatype NotaCall = NotaCall(descripcion: string, autor: string, now: int)

  /**
   * The record after the calls, one after the other. A successful save of a
   * note leaves the record as `ConNota` made it (the hook adds nothing, since
   * `estado` is untouched), so these are also the records the successive
   * saves store.
   */
  function ConNotas(m: Mantenimiento, calls: seq<NotaCall>): Mantenimiento
    decreases |calls|
  {
    if calls == [] then m
    else ConNotas(ConNota(m, calls[0].descripcion, calls[0].autor, calls[0].now), calls[1..])
  }

  /**
   * Successive notes are all kept, in call order, after the earlier ones,
   * each dated by its own call with its texts trimmed; nothing else changes.
   */
  lemma {:induction false} ConNotasAppends(m: Mantenimiento, calls: seq<NotaCall>)
    ensures var r := ConNotas(m, calls);
      && m.notas <= r.notas && |r.notas| == |m.notas| + |calls|
      && (forall i :: 0 <= i < |calls| ==>
            r.notas[|m.notas| + i] == Nota(calls[i].now, Trim(calls[i].descripcion), Trim(calls[i].autor)))
      && r.(notas := m.notas) == m
    decreases |calls|
  {
    if calls != [] {
      var c := calls[0];
      var m1 := ConNota(m, c.descripcion, c.autor, c.now);
      ConNotasAppends(m1, calls[1..]);
      var r := ConNotas(m, calls);
      assert r == ConNotas(m1, calls[1..]);
      forall i | 0 <= i < |calls|
        ensures r.notas[|m.notas| + i] == Nota(calls[i].now, Trim(calls[i].descripcion), Trim(calls[i].autor))
      {
        if i == 0 {
          assert r.notas[|m.notas|] == m1.notas[|m.notas|];
        } else {
          assert calls[1..][i - 1] == calls[i];
          assert |m.notas| + i == |m1.notas| + (i - 1);
        }
      }
    }
  }
}

=== FILE: mantenimiento_routes.dfy ===
/**
 * The validation chain in front of `POST /mantenimientos` and
 * `PUT /mantenimientos/:id`: its sanitisers (which rewrite the body the
 * handler then reads) and its validators (each failing one adds its own
 * `{path, msg}` item, in chain order), and what a body that passes them
 * means for the document schema behind it.
 */
module MantenimientoRoutes {

  import opened Wrappers
  import opened Text
  import opened Http
  import opened MantenimientoModel

  // ---------------------------------------------------------------------
  // Sanitisers
  // ---------------------------------------------------------------------

  function SanitizePieza(x: PiezaPayload): PiezaPayload {
    x.(nombre := TrimOpt(x.nombre))
  }

  function SanitizeTecnico(t: TecnicoPayload): TecnicoPayload {
    TecnicoPayload(TrimOpt(t.nombre), TrimOpt(t.contacto), TrimOpt(t.especialidad))
  }

  function SanitizePiezas(v: Option<PiezasPayload>): (r: Option<PiezasPayload>)
    ensures v.None? <==> r.None?
    ensures v.Some? && v.value.NotArray? ==> r == v
    ensures v.Some? && v.value.Items? ==>
      r.value.Items? && |r.value.items| == |v.value.items| &&
      forall i :: 0 <= i < |v.value.items| ==> r.value.items[i] == SanitizePieza(v.value.items[i])
  {
    if v.Some? && v.value.Items? then
      Some(Items(seq(|v.value.items|, i requires 0 <= i < |v.value.items| => SanitizePieza(v.value.items[i]))))
    else v
  }

  /**
   * The body as the handler sees it after the chain's `trim()` sanitisers:
   * `activoId`, `descripcion`, the technician's three fields and every
   * part's `nombre` are trimmed; nothing else changes.
   */
  function Sanitize(b: Payload): (r: Payload)
    ensures r.tipo == b.tipo && r.estado == b.estado && r.prioridad == b.prioridad
    ensures r.fechaInicio == b.fechaInicio && r.fechaFin == b.fechaFin && r.costo == b.costo
    ensures r.duracionEstimada == b.duracionEstimada && r.duracionReal == b.duracionReal
    ensures r.notas == b.notas && r.historial == b.historial
  {
    b.(activoId := TrimOpt(b.activoId),
       descripcion := TrimOpt(b.descripcion),
       tecnico := if b.tecnico.Some? then Some(SanitizeTecnico(b.tecnico.value)) else None,
       piezas := SanitizePiezas(b.piezas))
  }

  /** Sanitising a sanitised body changes nothing more. */
  lemma SanitizeIdempotent(b: Payload)
    ensures Sanitize(Sanitize(b)) == Sanitize(b)
  {
    forall s: Option<string> ensures TrimOpt(TrimOpt(s)) == TrimOpt(s) {
      if s.Some? { TrimIdempotent(s.value); }
    }
    var once := Sanitize(b);
    var twice := Sanitize(once);
    if b.piezas.Some? && b.piezas.value.Items? {
      assert twice.piezas.value.items == once.piezas.value.items;
    }
    if b.tecnico.Some? {
      assert twice.tecnico == once.tecnico;
    }
  }

  // ---------------------------------------------------------------------
  // Validators
  // ---------------------------------------------------------------------

  /** `.notEmpty()` then `.isISO8601()`. */
  function RequiredDate(field: string, v: Option<DateInput>, required: string): seq<FieldError> {
    When(v.None? || v.value.raw == "", field, required)
    + When(v.None? || !IsISO8601(v.value), field, "Debe ser una fecha válida")
  }

  /** `.optional().isFloat({min: 0})`. */
  function OptionalAmount(field: string, v: Option<Num>, invalid: string): seq<FieldError> {
    When(v.Some? && !IsNonNegativeFloat(v.value), field, invalid)
  }

  /** The path of a part's field in a validation error: `piezas[i].field`. */
  function PiezaPath(i: nat, field: string): string {
    "piezas[" + NatToString(i) + "]." + field
  }

  function NombreRule(x: PiezaPayload, i: nat): seq<FieldError> {
    When(Trim(Shown(x.nombre)) == "", PiezaPath(i, "nombre"), "El nombre de la pieza es requerido")
  }

  function CantidadRule(x: PiezaPayload, i: nat): seq<FieldError> {
    When(x.cantidad.None? || !IsPositiveInt(x.cantidad.value), PiezaPath(i, "cantidad"), "La cantidad debe ser al menos 1")
  }

  function CostoRule(x: PiezaPayload, i: nat): seq<FieldError> {
    When(x.costo.None? || !IsNonNegativeFloat(x.costo.value), PiezaPath(i, "costo"),
         "El costo de la pieza debe ser mayor o igual a 0")
  }

  /**
   * A `piezas.*.field` chain: the rule applied to every element of the
   * array, in index order; it finds nothing to check when `piezas` is
   * absent or not an array.
   */
  function Each(items: seq<PiezaPayload>, rule: (PiezaPayload, nat) -> seq<FieldError>): (r: seq<FieldError>)
    ensures r == [] <==> forall i :: 0 <= i < |items| ==> rule(items[i], i) == []
  {
    if items == [] then []
    else
      var init := items[..|items| - 1];
      assert forall i :: 0 <= i < |init| ==> init[i] == items[i];
      Each(init, rule) + rule(items[|items| - 1], |items| - 1)
  }

  function Elements(v: Option<PiezasPayload>): seq<PiezaPayload> {
    if v.Some? && v.value.Items? then v.value.items else []
  }

  /** Every error of the element at index `i` is among the chain's errors. */
  lemma {:induction false} EachReports(items: seq<PiezaPayload>, rule: (PiezaPayload, nat) -> seq<FieldError>, i: nat)
    requires i < |items|
    ensures forall e :: e in rule(items[i], i) ==> e in Each(items, rule)
  {
    var init := items[..|items| - 1];
    if i < |items| - 1 {
      EachReports(init, rule, i);
      assert init[i] == items[i];
    }
  }

  /** `activoId`: `.trim().notEmpty()`. */
  function ActivoIdErrors(b: Payload): (r: seq<FieldError>)
    ensures r == [] <==> b.activoId.Some? && Trim(b.activoId.value) != ""
  {
    When(Shown(TrimOpt(b.activoId)) == "", "activoId", "El ID del activo es requerido")
  }

  /** `tipo`: `.notEmpty().isIn(...)`; an absent or empty value fails both. */
  function TipoErrors(b: Payload): (r: seq<FieldError>)
    ensures r == [] <==> b.tipo.Some? && b.tipo.value in TIPOS
  {
    When(Shown(b.tipo) == "", "tipo", "El tipo de mantenimiento es requerido")
    + When(Shown(b.tipo) !in TIPOS, "tipo", "Tipo de mantenimiento no válido")
  }

  /** `descripcion`: `.trim().notEmpty().isLength({min: 10})`. */
  function DescripcionErrors(b: Payload): (r: seq<FieldError>)
    ensures r == [] <==> b.descripcion.Some? && |Trim(b.descripcion.value)| >= DESCRIPCION_MIN
  {
    var d := Shown(TrimOpt(b.descripcion));
    var short := FieldError("descripcion", "La descripción debe tener al menos 10 caracteres");
    if d == "" then [FieldError("descripcion", "La descripción es requerida"), short]
    else if |d| < DESCRIPCION_MIN then [short]
    else []
  }

  /** `fecha_inicio` (required) and `fecha_fin` (optional), both ISO 8601 dates. */
  function FechasErrors(b: Payload): (r: seq<FieldError>)
    ensures r == [] <==>
      && b.fechaInicio.Some? && IsISO8601(b.fechaInicio.value)
      && (b.fechaFin.Some? ==> IsISO8601(b.fechaFin.value))
  {
    RequiredDate("fecha_inicio", b.fechaInicio, "La fecha de inicio es requerida")
    + When(b.fechaFin.Some? && !IsISO8601(b.fechaFin.value), "fecha_fin", "Debe ser una fecha válida")
  }

  /** `tecnico.nombre`: `.trim().notEmpty()`. */
  function TecnicoNombreErrors(b: Payload): (r: seq<FieldError>)
    ensures r == [] <==> b.tecnico.Some? && b.tecnico.value.nombre.Some? && Trim(b.tecnico.value.nombre.value) != ""
  {
    var nombre := if b.tecnico.Some? then Shown(TrimOpt(b.tecnico.value.nombre)) else "";
    When(nombre == "", "tecnico.nombre", "El nombre del técnico es requerido")
  }

  /** The chains for the record's own fields, from `activoId` to `tecnico.nombre`. */
  function FieldErrors(b: Payload): (r: seq<FieldError>)
    ensures r == [] <==> FieldsValid(b)
  {
    ActivoIdErrors(b) + TipoErrors(b) + DescripcionErrors(b) + FechasErrors(b)
    + RequiredAmount("costo", b.costo, "El costo es requerido", "El costo debe ser mayor o igual a 0")
    + TecnicoNombreErrors(b)
  }

  /** The three per-element chains together accept exactly the parts the route accepts. */
  lemma EachRulesIff(items: seq<PiezaPayload>)
    ensures Each(items, NombreRule) + Each(items, CantidadRule) + Each(items, CostoRule) == []
      <==> forall i :: 0 <= i < |items| ==> PiezaBodyValid(items[i])
  {
    var nombres, cantidades, costos := Each(items, NombreRule), Each(items, CantidadRule), Each(items, CostoRule);
    assert |nombres + cantidades + costos| == |nombres| + |cantidades| + |costos|;
    forall i | 0 <= i < |items|
      ensures PiezaBodyValid(items[i]) <==>
        NombreRule(items[i], i) == [] && CantidadRule(items[i], i) == [] && CostoRule(items[i], i) == []
    {
      PiezaRulesIff(items[i], i);
    }
  }

  /** One part passes the three element chains exactly when the route accepts it. */
  lemma PiezaRulesIff(x: PiezaPayload, i: nat)
    ensures PiezaBodyValid(x) <==> NombreRule(x, i) == [] && CantidadRule(x, i) == [] && CostoRule(x, i) == []
  {
  }

  /** The chains for the parts: `piezas` itself, then each element's name, quantity and cost. */
  function PiezasChainErrors(b: Payload): (r: seq<FieldError>)
    ensures r == [] <==> PiezasBodyValid(b)
  {
    var items := Elements(b.piezas);
    EachRulesIff(items);
    When(b.piezas.Some? && b.piezas.value.NotArray?, "piezas", "Las piezas deben ser un array")
    + (Each(items, NombreRule) + Each(items, CantidadRule) + Each(items, CostoRule))
  }

  /** The chains for the optional fields. */
  function OptionalErrors(b: Payload): (r: seq<FieldError>)
    ensures r == [] <==> OptionalsValid(b)
  {
    OptionalIn("estado", b.estado, ESTADOS, "Estado no válido")
    + OptionalIn("prioridad", b.prioridad, PRIORIDADES, "Prioridad no válida")
    + OptionalAmount("duracion_estimada", b.duracionEstimada, "La duración estimada debe ser mayor o igual a 0")
    + OptionalAmount("duracion_real", b.duracionReal, "La duración real debe ser mayor o igual a 0")
  }

  /** The chains of the route, in the order they are declared, over the raw body. */
  function ValidationErrors(b: Payload): seq<FieldError> {
    FieldErrors(b) + PiezasChainErrors(b) + OptionalErrors(b)
  }

  /** A part the route accepts: a name that is not blank, a whole quantity of at least one, a cost of at least zero. */
  predicate PiezaBodyValid(x: PiezaPayload) {
    && x.nombre.Some? && Trim(x.nombre.value) != ""
    && x.cantidad.Some? && IsPositiveInt(x.cantidad.value)
    && x.costo.Some? && IsNonNegativeFloat(x.costo.value)
  }

  /** The record's own fields are present and well formed. */
  ghost predicate FieldsValid(b: Payload) {
    && b.activoId.Some? && Trim(b.activoId.value) != ""
    && b.tipo.Some? && b.tipo.value in TIPOS
    && b.descripcion.Some? && |Trim(b.descripcion.value)| >= DESCRIPCION_MIN
    && b.fechaInicio.Some? && IsISO8601(b.fechaInicio.value)
    && (b.fechaFin.Some? ==> IsISO8601(b.fechaFin.value))
    && b.costo.Some? && IsNonNegativeFloat(b.costo.value)
    && b.tecnico.Some? && b.tecnico.value.nombre.Some? && Trim(b.tecnico.value.nombre.value) != ""
  }

  /** `piezas`, when given, is an array of parts the route accepts. */
  ghost predicate PiezasBodyValid(b: Payload) {
    b.piezas.Some? ==>
      b.piezas.value.Items? && forall i :: 0 <= i < |b.piezas.value.items| ==> PiezaBodyValid(b.piezas.value.items[i])
  }

  /** The optional fields, when given, are well formed. */
  ghost predicate OptionalsValid(b: Payload) {
    && (b.estado.Some? ==> b.estado.value in ESTADOS)
    && (b.prioridad.Some? ==> b.prioridad.value in PRIORIDADES)
    && (b.duracionEstimada.Some? ==> IsNonNegativeFloat(b.duracionEstimada.value))
    && (b.duracionReal.Some? ==> IsNonNegativeFloat(b.duracionReal.value))
  }

  /** What a body must be for the route to let it through. */
  ghost predicate ValidBody(b: Payload) {
    FieldsValid(b) && PiezasBodyValid(b) && OptionalsValid(b)
  }

  /** The route reports no error exactly when the body is one it accepts. */
  lemma ValidationErrorsEmptyIff(b: Payload)
    ensures ValidationErrors(b) == [] <==> ValidBody(b)
  {
  }

  /** What the parts' chains report is among the route's errors. */
  lemma InPiezasChainReported(b: Payload, e: FieldError)
    requires e in Each(Elements(b.piezas), NombreRule) + Each(Elements(b.piezas), CantidadRule)
                  + Each(Elements(b.piezas), CostoRule)
    ensures e in ValidationErrors(b)
  {
    assert e in PiezasChainErrors(b);
  }

  /** A part with a blank name is reported under its own index. */
  lemma BlankPiezaNombreReported(b: Payload, i: nat)
    requires b.piezas.Some? && b.piezas.value.Items? && i < |b.piezas.value.items|
    requires Trim(Shown(b.piezas.value.items[i].nombre)) == ""
    ensures FieldError(PiezaPath(i, "nombre"), "El nombre de la pieza es requerido") in ValidationErrors(b)
  {
    var items := b.piezas.value.items;
    EachReports(items, NombreRule, i);
    var e := FieldError(PiezaPath(i, "nombre"), "El nombre de la pieza es requerido");
    assert NombreRule(items[i], i) == [e];
    assert e in NombreRule(items[i], i);
    assert e in Each(items, NombreRule);
    InPiezasChainReported(b, e);
  }

  /** A part whose quantity is not a whole number of at least one is reported under its own index. */
  lemma BadPiezaCantidadReported(b: Payload, i: nat)
    requires b.piezas.Some? && b.piezas.value.Items? && i < |b.piezas.value.items|
    requires var c := b.piezas.value.items[i].cantidad; c.None? || !IsPositiveInt(c.value)
    ensures FieldError(PiezaPath(i, "cantidad"), "La cantidad debe ser al menos 1") in ValidationErrors(b)
  {
    var items := b.piezas.value.items;
    EachReports(items, CantidadRule, i);
    var e := FieldError(PiezaPath(i, "cantidad"), "La cantidad debe ser al menos 1");
    assert CantidadRule(items[i], i) == [e];
    assert e in CantidadRule(items[i], i);
    assert e in Each(items, CantidadRule);
    InPiezasChainReported(b, e);
  }

  /** A part whose cost is not a number of at least zero is reported under its own index. */
  lemma BadPiezaCostoReported(b: Payload, i: nat)
    requires b.piezas.Some? && b.piezas.value.Items? && i < |b.piezas.value.items|
    requires var c := b.piezas.value.items[i].costo; c.None? || !IsNonNegativeFloat(c.value)
    ensures FieldError(PiezaPath(i, "costo"), "El costo de la pieza debe ser mayor o igual a 0") in ValidationErrors(b)
  {
    var items := b.piezas.value.items;
    EachReports(items, CostoRule, i);
    var e := FieldError(PiezaPath(i, "costo"), "El costo de la pieza debe ser mayor o igual a 0");
    assert CostoRule(items[i], i) == [e];
    assert e in CostoRule(items[i], i);
    assert e in Each(items, CostoRule);
    InPiezasChainReported(b, e);
  }

  // ---------------------------------------------------------------------
  // From the route to the schema
  // ---------------------------------------------------------------------

  /** The fields of a document that an accepted body may leave as they are are valid. */
  ghost predicate UntouchedValid(m: Mantenimiento) {
    && m.estado in ESTADOS && m.prioridad in PRIORIDADES
    && (forall i :: 0 <= i < |m.piezas| ==> PiezaValid(m.piezas[i]))
    && (forall i :: 0 <= i < |m.notas| ==> NotaValid(m.notas[i]))
    && (forall i :: 0 <= i < |m.historial| ==> CambioValid(m.historial[i]))
    && (m.duracionEstimada.Some? ==> m.duracionEstimada.value >= 0.0)
    && (m.duracionReal.Some? ==> m.duracionReal.value >= 0.0)
  }

  /** A stored record the schema accepted qualifies, and so does a new document. */
  lemma SchemaValidUntouchedValid(m: Mantenimiento)
    requires SchemaValid(m)
    ensures UntouchedValid(m)
  {
  }

  lemma BlankUntouchedValid()
    ensures UntouchedValid(BLANK)
  {
  }

  /**
   * The parts of a body the route accepts can be cast, and cast they satisfy
   * the part schema; a body without parts keeps parts `d` that already did.
   */
  lemma AcceptedPiezasCast(b: Payload, d: seq<Pieza>)
    requires ValidBody(b)
    requires forall i :: 0 <= i < |d| ==> PiezaValid(d[i])
    ensures PiezasCastable(Sanitize(b).piezas)
    ensures var ps := PiezasOr(Sanitize(b).piezas, d); forall i :: 0 <= i < |ps| ==> PiezaValid(ps[i])
  {
    var s := Sanitize(b);
    if b.piezas.Some? {
      var items := b.piezas.value.items;
      forall i | 0 <= i < |items| ensures PiezaCastable(s.piezas.value.items[i]) {
        assert PiezaBodyValid(items[i]);
      }
      var ps := CastPiezas(s.piezas.value.items);
      forall i | 0 <= i < |ps| ensures PiezaValid(ps[i]) {
        assert PiezaBodyValid(items[i]);
        TrimIdempotent(items[i].nombre.value);
      }
    }
  }

  /**
   * A body the route accepts, once sanitised, can be cast into the schema's
   * types, and assigned over a document whose untouched fields are valid it
   * meets every constraint of the schema but the end-date rule and those on
   * the notes and history entries.
   */
  lemma RouteAcceptedApartFromLists(b: Payload, m: Mantenimiento)
    requires ValidBody(b) && UntouchedValid(m)
    ensures Castable(Sanitize(b))
    ensures SchemaValidApartFromFechaFin(Assigned(m, Sanitize(b)).(notas := [], historial := []))
  {
    var s := Sanitize(b);
    AcceptedPiezasCast(b, m.piezas);
    var r := Assigned(m, s);
    assert r.activoId == Trim(b.activoId.value) != "";
    assert r.tipo == b.tipo.value;
    assert r.descripcion == Trim(Trim(b.descripcion.value));
    TrimIdempotent(b.descripcion.value);
    assert r.fechaInicio.Some?;
    assert r.costo >= 0.0;
    assert r.tecnico == Some(CastTecnico(s.tecnico.value));
    TrimIdempotent(b.tecnico.value.nombre.value);
    assert r.piezas == PiezasOr(s.piezas, m.piezas);
  }

  /**
   * Assigned over a document whose untouched fields are valid (a new
   * document included), a body the route accepts can be rejected by the
   * schema only for an end date before the start date and for the notes and
   * history entries the body itself carries, which no rule of the chain
   * looks at.
   */
  lemma RouteAcceptedSchemaErrors(b: Payload, m: Mantenimiento)
    requires ValidBody(b) && UntouchedValid(m)
    ensures Castable(Sanitize(b))
    ensures var r := Assigned(m, Sanitize(b));
      SchemaErrors(r) == FechaFinErrors(r) + NotasErrors(r.notas, 0) + HistorialErrors(r.historial, 0)
    ensures b.notas.None? && b.historial.None? ==>
      SchemaErrors(Assigned(m, Sanitize(b))) == FechaFinErrors(Assigned(m, Sanitize(b)))
  {
    RouteAcceptedApartFromLists(b, m);
    var r := Assigned(m, Sanitize(b));
    SchemaErrorsApartFromLists(r);
    if b.notas.None? && b.historial.None? {
      assert NotasErrors(r.notas, 0) == [] && HistorialErrors(r.historial, 0) == [];
      assert SchemaErrors(r) == FechaFinErrors(r) + [] + [];
    }
  }

  /**
   * The body a handler behind the chain acts on: the sanitised body when the
   * chains report nothing (and then it can be cast into the schema's types),
   * `None` when they report something.
   */
  function Accepted(b: Payload): (r: Option<Payload>)
    ensures r.Some? <==> ValidationErrors(b) == []
    ensures r.Some? ==> r.value == Sanitize(b) && ValidBody(b) && Castable(r.value)
  {
    ValidationErrorsEmptyIff(b);
    if ValidationErrors(b) == [] then
      AcceptedCastable(b);
      Some(Sanitize(b))
    else None
  }

  lemma AcceptedCastable(b: Payload)
    requires ValidBody(b)
    ensures Castable(Sanitize(b))
  {
    AcceptedPiezasCast(b, []);
  }

  /**
   * A new document built from an accepted body that brings no notes and no
   * history fails the schema only on its dates.
   */
  lemma AcceptedBuildOnlyDates(b: Payload)
    requires Accepted(b).Some? && b.notas.None? && b.historial.None?
    ensures SchemaErrors(Build(Accepted(b).value)) == FechaFinErrors(Build(Accepted(b).value))
  {
    BlankUntouchedValid();
    RouteAcceptedSchemaErrors(b, BLANK);
  }
}

=== FILE: queries.dfy ===
/**
 * What the two stores' query engines do with a `find`: keep the rows a
 * condition accepts, order them by a key from newest to oldest, skip
 * `(page - 1) * limit` rows and return at most `limit`; and `Math.ceil` of
 * `total / limit` for the page count both list handlers report.
 */
module Queries {

  import opened Wrappers

  /**
   * Where the first row whose key is `target` sits, if anywhere: a lookup
   * by a unique column (`findById`, `findByPk`, or the check a `unique`
   * constraint makes on insert).
   */
  function IndexOf<T, K(==)>(xs: seq<T>, key: T -> K, target: K): (i: Option<nat>)
    ensures i.Some? ==> i.value < |xs| && key(xs[i.value]) == target
    ensures i.Some? ==> forall j :: 0 <= j < i.value ==> key(xs[j]) != target
    ensures i.None? ==> forall j :: 0 <= j < |xs| ==> key(xs[j]) != target
  {
    if xs == [] then None
    else if key(xs[0]) == target then Some(0)
    else
      var i := IndexOf(xs[1..], key, target);
      if i.Some? then Some(i.value + 1) else None
  }

  /** The rows of `xs` that `p` accepts, in store order (a `find(filter)`). */
  function Filter<T(!new)>(xs: seq<T>, p: T -> bool): (r: seq<T>)
    ensures |r| <= |xs|
    ensures forall x :: multiset(r)[x] == if p(x) then multiset(xs)[x] else 0
  {
    if xs == [] then []
    else
      var rest := Filter(xs[..|xs| - 1], p);
      assert xs == xs[..|xs| - 1] + [xs[|xs| - 1]];
      if p(xs[|xs| - 1]) then rest + [xs[|xs| - 1]] else rest
  }

  /** Every row `Filter` returns is accepted and comes from `xs`. */
  lemma FilterMembers<T(!new)>(xs: seq<T>, p: T -> bool)
    ensures forall x :: x in Filter(xs, p) <==> x in xs && p(x)
  {
    var r := Filter(xs, p);
    forall x ensures x in r <==> x in xs && p(x) {
      assert x in r <==> multiset(r)[x] > 0;
      assert x in xs <==> multiset(xs)[x] > 0;
    }
  }

  /** `xs` without the row at index `k`; the rows after it move down by one (a delete). */
  function RemoveAt<T>(xs: seq<T>, k: nat): (r: seq<T>)
    requires k < |xs|
    ensures |r| == |xs| - 1
    ensures forall j :: 0 <= j < |r| ==> r[j] == xs[if j < k then j else j + 1]
  {
    xs[..k] + xs[k + 1..]
  }

  /** `key` never increases from left to right: newest first. */
  ghost predicate SortedDesc<T>(xs: seq<T>, key: T -> int) {
    forall i, j :: 0 <= i < j < |xs| ==> key(xs[i]) >= key(xs[j])
  }

  /** Puts `x` into the newest-first sequence `s`, after every row whose key is not smaller. */
  function InsertDesc<T>(x: T, s: seq<T>, key: T -> int): (r: seq<T>)
    requires SortedDesc(s, key)
    ensures SortedDesc(r, key)
    ensures multiset(r) == multiset(s) + multiset{x}
    ensures r[0] == x || (s != [] && r[0] == s[0])
  {
    if s == [] then [x]
    else if key(s[0]) < key(x) then
      ConsSorted(x, s, key);
      [x] + s
    else
      var tail := InsertDesc(x, s[1..], key);
      assert s == [s[0]] + s[1..];
      ConsSorted(s[0], tail, key);
      [s[0]] + tail
  }

  /** A row no older than the first of a newest-first sequence can go in front of it. */
  lemma ConsSorted<T>(x: T, s: seq<T>, key: T -> int)
    requires SortedDesc(s, key) && (s == [] || key(x) >= key(s[0]))
    ensures SortedDesc([x] + s, key)
  {
    var r := [x] + s;
    forall i, j | 0 <= i < j < |r| ensures key(r[i]) >= key(r[j]) {
      assert r[j] == s[j - 1];
      if i > 0 {
        assert r[i] == s[i - 1];
      }
    }
  }

  /** `.sort({key: -1})`: a newest-first rearrangement of `xs`. */
  function SortDesc<T>(xs: seq<T>, key: T -> int): (r: seq<T>)
    ensures SortedDesc(r, key)
    ensures multiset(r) == multiset(xs)
  {
    if xs == [] then []
    else
      assert xs == xs[..|xs| - 1] + [xs[|xs| - 1]];
      InsertDesc(xs[|xs| - 1], SortDesc(xs[..|xs| - 1], key), key)
  }

  function Min(a: int, b: int): int { if a <= b then a else b }

  /**
   * The number of rows a page skips: `(page - 1) * limit`, which the store
   * refuses when it is negative.
   */
  function Skip(page: int, limit: int): (s: int)
    ensures page >= 1 && limit >= 0 ==> s >= 0
  {
    (page - 1) * limit
  }

  /**
   * `.skip((page - 1) * limit).limit(limit)`: the rows from position
   * `Skip(page, limit)` on, at most `limit` of them; a page shorter than
   * `limit` reaches the end of `xs`.
   */
  function PageOf<T>(xs: seq<T>, page: nat, limit: nat): (r: seq<T>)
    requires page >= 1 && limit >= 1
    ensures |r| <= limit
    ensures |r| > 0 ==> Skip(page, limit) + |r| <= |xs|
    ensures |r| < limit ==> Skip(page, limit) + |r| >= |xs|
    ensures forall i :: 0 <= i < |r| ==> Skip(page, limit) + i < |xs| && r[i] == xs[Skip(page, limit) + i]
  {
    var s := Skip(page, limit);
    if s >= |xs| then [] else xs[s..Min(s + limit, |xs|)]
  }

  /** `Math.ceil(total / limit)`: the fewest pages of `limit` rows that hold `total` rows. */
  function TotalPages(total: nat, limit: nat): (n: nat)
    requires limit >= 1
    ensures n * limit >= total
    ensures n > 0 ==> (n - 1) * limit < total
  {
    var n := (total + limit - 1) / limit;
    assert n * limit + (total + limit - 1) % limit == total + limit - 1;
    assert (n - 1) * limit == n * limit - limit;
    n
  }

  lemma MulMono(a: nat, b: nat, c: nat)
    requires a <= b
    ensures a * c <= b * c
  {
  }

  /** A page has rows exactly when its number is between 1 and the page count. */
  lemma PageNonEmptyIff<T>(xs: seq<T>, page: nat, limit: nat)
    requires page >= 1 && limit >= 1
    ensures |PageOf(xs, page, limit)| > 0 <==> page <= TotalPages(|xs|, limit)
  {
    var n := TotalPages(|xs|, limit);
    if page <= n {
      MulMono(page - 1, n - 1, limit);
    } else {
      MulMono(n, page - 1, limit);
    }
  }

  /** Row `i` is found on page `i / limit + 1`, at position `i % limit`. */
  lemma EveryRowOnItsPage<T>(xs: seq<T>, limit: nat, i: nat)
    requires limit >= 1 && i < |xs|
    ensures var p := PageOf(xs, i / limit + 1, limit);
      i % limit < |p| && p[i % limit] == xs[i]
  {
    assert Skip(i / limit + 1, limit) == i - i % limit;
  }

  function Abs(n: int): nat { if n < 0 then -n else n }

  /**
   * `.skip(skip).limit(limit)` with the store's reading of `limit`: zero
   * means no limit, a negative limit returns at most `-limit` rows.
   */
  function SkipLimit<T>(xs: seq<T>, skip: nat, limit: int): (r: seq<T>)
    ensures limit != 0 ==> |r| <= Abs(limit)
    ensures forall i :: 0 <= i < |r| ==> skip + i < |xs| && r[i] == xs[skip + i]
    ensures limit == 0 || |r| < Abs(limit) ==> skip + |r| >= |xs|
  {
    var rest := if skip >= |xs| then [] else xs[skip..];
    if limit == 0 || Abs(limit) >= |rest| then rest else rest[..Abs(limit)]
  }

  /** For positive page numbers and limits, `SkipLimit` is the page `PageOf` describes. */
  lemma PageOfIsSkipLimit<T>(xs: seq<T>, page: nat, limit: nat)
    requires page >= 1 && limit >= 1
    ensures SkipLimit(xs, Skip(page, limit), limit) == PageOf(xs, page, limit)
  {
  }

  /** A window of a newest-first sequence is newest first. */
  lemma SkipLimitSorted<T>(xs: seq<T>, skip: nat, limit: int, key: T -> int)
    requires SortedDesc(xs, key)
    ensures SortedDesc(SkipLimit(xs, skip, limit), key)
  {
    var r := SkipLimit(xs, skip, limit);
    forall i, j | 0 <= i < j < |r| ensures key(r[i]) >= key(r[j]) {
      assert r[i] == xs[skip + i] && r[j] == xs[skip + j];
    }
  }

  /**
   * The first window of a newest-first sequence holds its newest rows: a
   * row the window leaves out is no newer than any row it keeps.
   */
  lemma FirstWindowNewest<T>(xs: seq<T>, limit: int, key: T -> int, x: T, y: T)
    requires SortedDesc(xs, key) && x in xs && x !in SkipLimit(xs, 0, limit) && y in SkipLimit(xs, 0, limit)
    ensures key(x) <= key(y)
  {
    var w := SkipLimit(xs, 0, limit);
    var n := |w|;
    assert w == xs[..n];
    assert xs == xs[..n] + xs[n..];
    var k :| 0 <= k < |xs[n..]| && xs[n..][k] == x;
    var i :| 0 <= i < n && w[i] == y;
    assert y == xs[i] && x == xs[n + k];
  }

  /** Every row of `xs` is in the window of the page it falls on. */
  lemma PageOfRow<T>(xs: seq<T>, limit: nat, i: nat) returns (page: nat)
    requires limit >= 1 && i < |xs|
    ensures page >= 1 && Skip(page, limit) >= 0
    ensures xs[i] in SkipLimit(xs, Skip(page, limit), limit)
  {
    page := i / limit + 1;
    EveryRowOnItsPage(xs, limit, i);
    PageOfIsSkipLimit(xs, page, limit);
    var w := PageOf(xs, page, limit);
    assert w[i % limit] == xs[i];
  }

  /** A row of a window of the sorted, filtered rows is a row of `xs` the filter accepts. */
  lemma WindowMembers<T(!new)>(xs: seq<T>, p: T -> bool, key: T -> int, skip: nat, limit: int)
    ensures forall x :: x in SkipLimit(SortDesc(Filter(xs, p), key), skip, limit) ==> x in xs && p(x)
  {
    var sorted := SortDesc(Filter(xs, p), key);
    var w := SkipLimit(sorted, skip, limit);
    FilterMembers(xs, p);
    forall x | x in w ensures x in xs && p(x) {
      var k :| 0 <= k < |w| && w[k] == x;
      assert x == sorted[skip + k];
      assert x in multiset(sorted);
    }
  }

  /**
   * `Math.ceil(total / limit)` as it reaches the reply: absent (`Infinity`
   * or `NaN`, which serialise as `null`) for a zero limit, the page count
   * for a positive one, and for a negative one the ceiling of a quotient
   * that is not positive.
   */
  function TotalPagesReply(total: nat, limit: int): (n: Option<int>)
    ensures n.None? <==> limit == 0
    ensures limit >= 1 ==> n == Some(TotalPages(total, limit))
    ensures limit < 0 ==> n.value <= 0 && n.value * limit <= total < (n.value - 1) * limit
  {
    if limit == 0 then None
    else if limit > 0 then Some(TotalPages(total, limit))
    else
      var d := -limit;
      var q := total / d;
      assert q * d <= total < (q + 1) * d;
      assert (-q) * limit == q * d;
      assert (-q - 1) * limit == (q + 1) * d;
      Some(-q)
  }
}

=== FILE: text.dfy ===
/**
 * String helpers with JavaScript's meaning: `String.prototype.trim` (also the
 * `trim()` sanitiser of the validation library, whose `\s` is the same set),
 * ASCII lower-casing, substring search, and the SQL `LIKE` / `ILIKE`
 * pattern match the asset search runs in the database.
 */
module Text {

  import opened Wrappers

  /** JavaScript's WhiteSpace and LineTerminator code points: what `trim` and `\s` strip. */
  predicate IsSpace(c: char) {
    || c == ' ' || c == '\t' || c == '\n' || c == '\r'
    || c == '\U{000B}' || c == '\U{000C}' || c == '\U{00A0}' || c == '\U{1680}'
    || ('\U{2000}' <= c <= '\U{200A}')
    || c == '\U{2028}' || c == '\U{2029}' || c == '\U{202F}' || c == '\U{205F}'
    || c == '\U{3000}' || c == '\U{FEFF}'
  }

  /** The characters of `s` before its first `c`: all of `s` when it holds no `c`. */
  function Before(s: string, c: char): (h: string)
    ensures h <= s && c !in h
    ensures |h| < |s| ==> s[|h|] == c
  {
    if s == [] || s[0] == c then [] else [s[0]] + Before(s[1..], c)
  }

  /** Text without `c`, followed by nothing or by `c`, is read back whole. */
  lemma {:induction false} BeforeConcat(h: string, t: string, c: char)
    requires c !in h && (t == [] || t[0] == c)
    ensures Before(h + t, c) == h
  {
    if h != [] {
      assert (h + t)[1..] == h[1..] + t;
      BeforeConcat(h[1..], t, c);
    }
  }

  /** Every character of `s` is white space (the empty string included). */
  predicate AllSpace(s: string) {
    forall i :: 0 <= i < |s| ==> IsSpace(s[i])
  }

  /** Drops the leading white space: the result is a suffix of `s` that does not start with a space. */
  function TrimStart(s: string): (r: string)
    ensures |r| <= |s| && r == s[|s| - |r|..]
    ensures r == [] || !IsSpace(r[0])
  {
    if s != [] && IsSpace(s[0]) then TrimStart(s[1..]) else s
  }

  /** What `TrimStart` drops is white space. */
  lemma {:induction false} TrimStartDropsSpace(s: string)
    ensures forall i :: 0 <= i < |s| - |TrimStart(s)| ==> IsSpace(s[i])
  {
    if s != [] && IsSpace(s[0]) {
      var t := s[1..];
      TrimStartDropsSpace(t);
      forall i | 0 < i < |s| - |TrimStart(s)| ensures IsSpace(s[i]) {
        assert s[i] == t[i - 1];
      }
    }
  }

  /** Drops the trailing white space: the result is a prefix of `s` that does not end with a space. */
  function TrimEnd(s: string): (r: string)
    ensures |r| <= |s| && r == s[..|r|]
    ensures r == [] || !IsSpace(r[|r| - 1])
  {
    if s != [] && IsSpace(s[|s| - 1]) then TrimEnd(s[..|s| - 1]) else s
  }

  /** What `TrimEnd` drops is white space. */
  lemma {:induction false} TrimEndDropsSpace(s: string)
    ensures forall i :: |TrimEnd(s)| <= i < |s| ==> IsSpace(s[i])
  {
    if s != [] && IsSpace(s[|s| - 1]) {
      var t := s[..|s| - 1];
      TrimEndDropsSpace(t);
      forall i | |TrimEnd(s)| <= i < |s| - 1 ensures IsSpace(s[i]) {
        assert s[i] == t[i];
      }
    }
  }

  /** `s.trim()`. */
  function Trim(s: string): (r: string)
    ensures |r| <= |s|
    ensures r == [] || (!IsSpace(r[0]) && !IsSpace(r[|r| - 1]))
  {
    TrimEnd(TrimStart(s))
  }

  /** A string trims to "" exactly when it is made of white space only. */
  lemma TrimEmptyIff(s: string)
    ensures Trim(s) == [] <==> AllSpace(s)
  {
    var t := TrimStart(s);
    var r := TrimEnd(t);
    TrimStartDropsSpace(s);
    TrimEndDropsSpace(t);
    AllSpaceSplit(s, |s| - |t|);
    assert r != [] ==> r[|r| - 1] == t[|r| - 1];
    assert t != [] ==> t[0] == t[..1][0];
  }

  /** A string is all white space exactly when a prefix of it and the rest are. */
  lemma AllSpaceSplit(s: string, k: nat)
    requires k <= |s|
    ensures AllSpace(s) <==> (forall i :: 0 <= i < k ==> IsSpace(s[i])) && AllSpace(s[k..])
  {
    forall i | k <= i < |s| ensures s[i] == s[k..][i - k] {
    }
  }

  /** A string that neither starts nor ends with white space trims to itself. */
  lemma TrimUntouched(s: string)
    requires s != [] && !IsSpace(s[0]) && !IsSpace(s[|s| - 1])
    ensures Trim(s) == s
  {
  }

  /** `trim()` on a field that may be absent. */
  function TrimOpt(s: Option<string>): (r: Option<string>)
    ensures r.Some? <==> s.Some?
    ensures s.Some? ==> r.value == Trim(s.value)
  {
    if s.Some? then Some(Trim(s.value)) else None
  }

  /** Trimming twice is trimming once. */
  lemma TrimIdempotent(s: string)
    ensures Trim(Trim(s)) == Trim(s)
  {
    var r := Trim(s);
    if r != [] {
      assert TrimStart(r) == r;
      assert TrimEnd(r) == r;
    }
  }

  /** ASCII lower case, the case folding applied to search patterns here. */
  function LowerChar(c: char): (d: char)
    ensures 'A' <= c <= 'Z' ==> 'a' <= d <= 'z' && d as int - c as int == 32
    ensures !('A' <= c <= 'Z') ==> d == c
  {
    if 'A' <= c <= 'Z' then (c as int + 32) as char else c
  }

  function Lower(s: string): (r: string)
    ensures |r| == |s|
    ensures forall i :: 0 <= i < |s| ==> r[i] == LowerChar(s[i])
  {
    if s == [] then [] else [LowerChar(s[0])] + Lower(s[1..])
  }

  /** `q` occurs in `t` starting at index `i`. */
  ghost predicate OccursAt(t: string, q: string, i: int) {
    0 <= i && i + |q| <= |t| && t[i..i + |q|] == q
  }

  /** `t.includes(q)`. */
  predicate Contains(t: string, q: string) {
    q <= t || (t != [] && Contains(t[1..], q))
  }

  /** `Contains` agrees with the definition of a substring occurrence. */
  lemma {:induction false} ContainsIff(t: string, q: string)
    ensures Contains(t, q) <==> exists i :: OccursAt(t, q, i)
    decreases |t|
  {
    if q <= t {
      assert OccursAt(t, q, 0);
    } else if t == [] {
      assert forall i :: !OccursAt(t, q, i);
    } else {
      ContainsIff(t[1..], q);
      if Contains(t[1..], q) {
        var i :| OccursAt(t[1..], q, i);
        OccursShift(t, q, i);
      } else {
        forall i | OccursAt(t, q, i) ensures false {
          assert i != 0;
          OccursUnshift(t, q, i);
        }
      }
    }
  }

  /** An occurrence in the tail of `t` is an occurrence in `t`, one place further on. */
  lemma OccursShift(t: string, q: string, i: int)
    requires t != [] && OccursAt(t[1..], q, i)
    ensures OccursAt(t, q, i + 1)
  {
    assert t[i + 1..i + 1 + |q|] == t[1..][i..i + |q|];
  }

  /** An occurrence in `t` after its first character is an occurrence in its tail. */
  lemma OccursUnshift(t: string, q: string, i: int)
    requires t != [] && i > 0 && OccursAt(t, q, i)
    ensures OccursAt(t[1..], q, i - 1)
  {
    assert t[1..][i - 1..i - 1 + |q|] == t[i..i + |q|];
  }

  /** Lower-casing a concatenation lower-cases each part. */
  lemma {:induction false} LowerAppend(a: string, b: string)
    ensures Lower(a + b) == Lower(a) + Lower(b)
    decreases |a|
  {
    if a == [] {
      assert a + b == b;
    } else {
      assert (a + b)[0] == a[0];
      assert (a + b)[1..] == a[1..] + b;
      LowerAppend(a[1..], b);
    }
  }

  /**
   * SQL `LIKE` with the default escape character: in the pattern `p`, `%`
   * matches any run of characters, `_` any single character, a backslash
   * makes the character after it stand for itself, and every other
   * character stands for itself.
   */
  predicate Like(p: string, s: string)
    decreases |p| + |s|
  {
    if p == [] then s == []
    else if p[0] == '%' then Like(p[1..], s) || (s != [] && Like(p, s[1..]))
    else if p[0] == '_' then s != [] && Like(p[1..], s[1..])
    else if p[0] == '\\' && |p| >= 2 then s != [] && s[0] == p[1] && Like(p[2..], s[1..])
    else s != [] && s[0] == p[0] && Like(p[1..], s[1..])
  }

  /** `ILIKE`: `LIKE` after case folding, here ASCII lower case on both sides. */
  predicate ILike(p: string, s: string) {
    Like(Lower(p), Lower(s))
  }

  /** Text in which none of the three characters `LIKE` treats specially occurs. */
  predicate Literal(q: string) {
    forall i :: 0 <= i < |q| ==> q[i] != '%' && q[i] != '_' && q[i] != '\\'
  }

  /** A lone `%` matches anything. */
  lemma {:induction false} PercentMatchesAll(s: string)
    ensures Like("%", s)
  {
    if s != [] {
      PercentMatchesAll(s[1..]);
    }
  }

  /** The pattern `%_%` matches every string that is not empty, whatever its case. */
  lemma AnyCharacterLike(s: string)
    requires s != []
    ensures ILike("%" + "_" + "%", s)
  {
    var l := Lower(s);
    assert "%" + "_" + "%" == "%_%";
    assert Lower("%_%") == "%_%";
    assert "%_%"[1..] == "_%" && "_%"[1..] == "%";
    PercentMatchesAll(l[1..]);
    assert Like("_%", l);
  }

  /** A literal followed by `%` matches exactly the strings that start with the literal. */
  lemma {:induction false} LiteralPrefixLike(q: string, s: string)
    requires Literal(q)
    ensures Like(q + "%", s) <==> q <= s
  {
    if q == [] {
      assert q + "%" == "%";
      PercentMatchesAll(s);
    } else {
      assert (q + "%")[1..] == q[1..] + "%";
      if s != [] {
        LiteralPrefixLike(q[1..], s[1..]);
        assert q <= s <==> q[0] == s[0] && q[1..] <= s[1..];
      }
    }
  }

  /** A leading `%` lets the rest of the pattern match any suffix. */
  lemma {:induction false} LeadingPercentLike(r: string, s: string)
    ensures Like("%" + r, s) <==> exists i :: 0 <= i <= |s| && Like(r, s[i..])
  {
    assert ("%" + r)[1..] == r;
    assert s[0..] == s;
    if s != [] {
      LeadingPercentLike(r, s[1..]);
      if Like("%" + r, s[1..]) {
        var i :| 0 <= i <= |s[1..]| && Like(r, s[1..][i..]);
        assert s[1..][i..] == s[i + 1..];
      }
      if exists i :: 0 <= i <= |s| && Like(r, s[i..]) {
        var i :| 0 <= i <= |s| && Like(r, s[i..]);
        if i > 0 {
          assert s[1..][i - 1..] == s[i..];
        }
      }
    }
  }

  /** For a literal, `%q%` is a substring test. */
  lemma LiteralLikeContains(q: string, s: string)
    requires Literal(q)
    ensures Like("%" + q + "%", s) <==> Contains(s, q)
  {
    assert "%" + q + "%" == "%" + (q + "%");
    LeadingPercentLike(q + "%", s);
    ContainsIff(s, q);
    forall i | 0 <= i <= |s| ensures Like(q + "%", s[i..]) <==> OccursAt(s, q, i) {
      LiteralPrefixLike(q, s[i..]);
      if q <= s[i..] {
        assert s[i..i + |q|] == s[i..][..|q|];
      }
      if OccursAt(s, q, i) {
        assert s[i..][..|q|] == s[i..i + |q|];
      }
    }
  }

  /**
   * Searching for `%q%` with `ILIKE`, where `q` holds none of `%`, `_` and
   * the backslash, finds the strings that contain `q` ignoring case.
   */
  lemma LiteralILikeContainsIgnoreCase(q: string, s: string)
    requires Literal(q)
    ensures ILike("%" + q + "%", s) <==> Contains(Lower(s), Lower(q))
  {
    LowerAppend("%" + q, "%");
    LowerAppend("%", q);
    assert Lower("%") == "%";
    assert Literal(Lower(q));
    LiteralLikeContains(Lower(q), Lower(s));
  }

  /** `s.endsWith(suffix)`. */
  predicate EndsWith(s: string, suffix: string) {
    |suffix| <= |s| && s[|s| - |suffix|..] == suffix
  }
}

=== FILE: wrappers.dfy ===
/** Optional values: a JSON field or query parameter that may be absent. */
module Wrappers {

  datatype Option<+T> = None | Some(value: T) {

    /** The value when present, otherwise `default` (JavaScript's `x ?? default`). */
    function GetOr(default: T): T {
      match this
      case Some(v) => v
      case None => default
    }
  }
}
